=== FILE: README.md ===
# munpalvelut backend: the decision rules, in Dafny

The model covers the small, exact rules inside a Django REST backend for a service marketplace. Customers order cleaning or home services from companies, rate completed orders, and manage their accounts. Companies keep calendars, pictures and descriptions. Company data can be imported from the national business registry (YTR).

The model covers these parts:

- **Orders.** `Order.can_be_rated`, the 1..5 rating validators, the `rating` entry of a request body (left out, null or a number), and the anchored `rated` timestamp written by `RateOrderViewSet.perform_update`. Also the order permission classes, the order querysets, and order creation, which assigns the owner and stores a rating sent with the body.
- **Companies.**
  - The aggregate rating (mean of the non-null order ratings, hidden below two samples) and its memoisation.
  - The language-keyed description, short description and service-hours maps, and `CompanyLink.description`.
  - The description/address/link merge of `CompanySerializer.update`.
  - The company, rating, picture and company-user querysets and object checks.
- **Calendars.**
  - `get_previous_monday`, and the weekly Monday–Friday entry generator of the `calendars` management command.
  - The entry validator, and the company check of the calendar entry view set.
- **Users.**
  - The user manager (create user or superuser, the natural-key lookup).
  - `get_full_name`, `anonymize_for_dump`, and the verification links.
  - The password-change, password-reset, login, registration and verification-key validators.
  - The user and user-site view sets, and the token-and-API-key authentication chain.
- **Logs.** Log visibility and the bulk `erase`.
- **Mail.** Recipient normalisation, the context merge, template language fallback and the result codes of `send_template_mail`.
- **YTR import.** `import_company`, `import_company_resultset` and `address_type`.
- **Demo dump.** Option handling, exclusion parsing and model selection in the `dumpdemo` command.

How the model is built:

- Objects whose fields the code updates in place are Dafny classes with `modifies` frames: `Order`, `Company`, `User`, `VerificationLink`, the calendar table, the log store and the company store of the importer.
- Database tables are sequences of those objects. A queryset is a filter over a sequence.
- A view's permission decision is a function returning a `Verdict` or a `Status`. The method that performs the update is proved against that function.
- Timestamps are integer seconds. Dates are day numbers, counted as Python's `date.toordinal()`, with Monday = 0 for `weekday()`.

## Model

| member | source | states |
|---|---|---|
| Orders.ValidateRating | orders/models.py:72-78 | a rating is accepted iff it is in 1..5; it is kept unchanged; below 1 and above 5 give the two validator messages |
| Orders.RatingExamples | orders/models.py:72-78 | 0 and 6 are rejected; 1, 3 and 5 are accepted |
| Orders.ValidateRatingField | orders/models.py:72-78 | a body's `rating` entry passes iff it is missing, null, or a number in 1..5; a passing entry is kept as sent; a failing one carries the validator's message |
| Orders.Order.constructor | orders/models.py:72-80 | a new order has neither `rating` nor `rated`, keeps its rating in 1..5, and has `rated` set whenever `rating` is |
| Orders.NotBeforeTimeslotEnds | orders/models.py:88-89 | an order cannot be rated while its timeslot has not ended, whatever `rated` holds |
| Orders.UnratedIsEligible | orders/models.py:89-90 | an ended, never-rated order can be rated |
| Orders.ReratingWindow | orders/models.py:90 | with `rated` set, eligibility holds iff less than one day has passed; it is false at exactly 24 h |
| Orders.ClosedWindowStaysClosed | orders/models.py:90 | once a day has passed since the first rating, the order stays unratable for every later time |
| Orders.Order.Rate | orders/viewsets.py:89-95 | a missing entry keeps the stored rating, null clears it, a number replaces it; `rated` is set to now only when it was unset, so the window anchor never moves; the 1..5 invariant holds and `rated` is set whenever `rating` is |
| Orders.RateTwice | orders/viewsets.py:89-95 | after a first rating, a second request (a number, null or a missing entry) takes effect iff it comes within a day of the first; `rated` stays the first timestamp |
| OrderPermissions.IsOwnerPermissionMeaning | orders/permissions.py:10-15 | `IsOwner.has_permission` holds iff the requester is authenticated and its pk string is the `user_pk` argument; a missing argument gives false |
| OrderPermissions.IsOwnerObjectMatchesUrl | orders/permissions.py:17-18 | `IsOwner.has_object_permission` holds iff the requester is the order's user, which is exactly when the URL check for that user's pk passes |
| OrderPermissions.OwnerOrStaffReduces | orders/permissions.py:17-28 | `IsOwnerOrStaff` always passes for staff and otherwise equals `IsOwner`, at list and at object level |
| OrderPermissions.IsCompanyUserPermissionMeaning | orders/permissions.py:34-39 | `IsCompanyUser.has_permission` holds iff the requester's company pk string is `company_pk`; no company or no argument gives false |
| OrderViews.UserOrders | orders/viewsets.py:44-45 | user order lists hold exactly the orders whose user is the URL's user |
| OrderViews.CompanyOrders | orders/viewsets.py:78-79 | company order lists hold exactly that company's orders, and none when the company is inactive |
| OrderViews.CreateUserOrder | orders/viewsets.py:47-50 | the body is checked first: a `rating` entry outside 1..5 gives 400, and a valid one (or null) is stored with the new order, with `rated` unset; then the order is owned by the user named in the URL; an unknown user gives 404 and a non-numeric pk 500 |
| OrderViews.CreateUnratedOrder | orders/serializers.py:9-14 | corrected: without a writable rating, a created order has neither `rating` nor `rated`, keeps the rating invariants, and is owned by the URL's user; 404 and 500 as for the written create |
| OrderViews.CreatedRatingSkipsWindow | orders/serializers.py:41-46 | as written, a create for a future timeslot stores rating 5 with `rated` unset, although `can_be_rated` is false |
| OrderViews.RateTarget | orders/viewsets.py:97-98 | a rate lookup only finds an order of the URL's user whose id the pk spells; a non-numeric pk finds nothing (404) |
| OrderViews.RateTargetFinds | orders/viewsets.py:97-98 | with unique order ids, an order of the URL's user whose id the pk spells is always the one found |
| OrderViews.RateDecision | orders/viewsets.py:87-98 | 401 iff the request carries no credentials (`IsAuthenticated` fails with `NotAuthenticated`); an authenticated requester who is not owner or staff for the URL gets 403; the request gets past the checks (200 or 400) iff the requester is authenticated, owner or staff for the URL, the order is found, the requester is its owner or staff and the order is ratable; past them, 200 iff the `rating` entry is valid; 404 iff the checks before the lookup pass and no order is found, so a non-numeric order pk is a 404; 500 iff the checks pass and the user pk is non-numeric |
| OrderViews.RateOrder | orders/viewsets.py:87-98 | the status is `RateDecision`'s; on success the target's rating becomes the applied entry (kept, cleared or replaced) with the anchored `rated`; every other order is untouched; all orders keep the 1..5 invariant |
| Companies.LinkDescription | organisation/models.py:133-137 | 'other' links show their own description; other types show their label, falling back to the raw type |
| Companies.LangMapDomain | organisation/models.py:43-53 | every kept row's language is a key, and every key maps to the value of a kept row of that language |
| Companies.LangMapValue | organisation/models.py:43-53 | with one row per language, a kept row's value is what the language maps to |
| Companies.DescriptionOf | organisation/models.py:47-49 | the description map holds exactly the languages with non-empty text, mapped to that text |
| Companies.ShortDescriptionOf | organisation/models.py:43-45 | the short-description map is keyed by non-empty full text and holds the short text |
| Companies.ServiceHoursOf | organisation/models.py:51-53 | the service-hours map holds exactly the languages with non-empty hours |
| Companies.ShortDescriptionKeyedByText | organisation/models.py:43-45 | a language with empty full text has no short description, even if its short text is set |
| Companies.Rating | organisation/models.py:71-81 | the rating is None iff there are fewer than two ratings; otherwise rating × count equals the sum (the unrounded mean) |
| Companies.SumBounds | organisation/models.py:79 | a sum of n values in [lo, hi] lies in [lo·n, hi·n] |
| Companies.RatingBetween | organisation/models.py:78-79 | a defined rating lies between the smallest and largest individual rating |
| Companies.RatingInRange | organisation/models.py:78-79 | with all ratings in 1..5, a defined company rating lies in [1, 5] |
| Companies.RatingExamples | organisation/models.py:71-81 | one rating gives None; [5,5] gives 5, [5,3] gives 4, and [1,5,5] gives 11/3 |
| Companies.RatingsOf | organisation/models.py:92-95 | the rating list holds exactly the non-null ratings of the company's orders |
| Companies.RatingsOfCounts | organisation/models.py:92-95 | each value occurs in the rating list exactly as often as the company's orders carry it as their rating |
| Companies.RatingsOfInRange | organisation/models.py:92-95 | every collected rating is in 1..5 when the orders keep their invariant |
| Companies.ValidateCompanyRating | organisation/models.py:187-193 | a company rating is optional and, when present, must lie in 1..5 |
| Companies.Company.constructor | ytr/parser.py:30-35 | a new company record has empty service areas, null prices, no registry code and empty caches |
| Companies.Company.GetDescriptions | organisation/models.py:55-58 | the first read caches the description rows; later reads return the cached rows |
| Companies.Company.GetRatings | organisation/models.py:92-95 | the first read caches the company's ratings; later reads return the cached list |
| Companies.Company.GetRating | organisation/models.py:71-81 | the rating is computed from the cached list, which is filled on first use and never refreshed |
| Companies.Company.DescriptionMaps | organisation/models.py:43-58 | the three language maps are computed from the cached description rows |
| Companies.RatingIsMemoised | organisation/models.py:92-95 | two reads on one instance give the same rating, even when the orders change between them |
| CompanyUpdate.BuildDescriptions | organisation/serializers.py:127-136 | one row per language in the union of the three maps' keys; a missing entry becomes '' |
| CompanyUpdate.AppendRow | organisation/serializers.py:127-136 | adding the row for one more language keeps the loop invariant of the description rebuild |
| CompanyUpdate.StoredLinks | organisation/serializers.py:138-147 | only links with a non-empty url are stored, each normalised, and every such input is stored |
| CompanyUpdate.StoredLinksAppend | organisation/serializers.py:140-147 | one row per input in input order: the links stored for a concatenation are the concatenation of the stored links |
| CompanyUpdate.StoredLinksKeepDuplicates | organisation/serializers.py:140-147 | a link submitted twice is stored twice |
| CompanyUpdate.StoredLinkDescription | organisation/serializers.py:144 | a stored link keeps its description only for type 'other'; other types show their label |
| CompanyUpdate.DescriptionRoundTrip | organisation/serializers.py:127-136 | after an update, the description map is the submitted one minus empty texts |
| CompanyUpdate.ServiceHoursRoundTrip | organisation/serializers.py:127-136 | after an update, the service-hours map is the submitted one minus empty entries |
| CompanyUpdate.ShortDescriptionRoundTrip | organisation/serializers.py:127-136 | after an update, a short description is visible exactly for the languages with a non-empty full text |
| CompanyUpdate.UpdateFields | organisation/serializers.py:111-119 | each plain field present in the payload, including the set of offered service packages, is overwritten; an absent one keeps its value |
| CompanyUpdate.UpdateRelated | organisation/serializers.py:121-147 | addresses and links are replaced when supplied (even empty) and kept when absent; the description rows are rebuilt one per language, and omitting all three maps deletes them |
| CompanyUpdate.Update | organisation/serializers.py:111-149 | plain fields and the offered service packages are overwritten when given; addresses and links are replaced when supplied (even empty) and kept when absent; the description rows are rebuilt, and omitting all three maps deletes them |
| CompanyViews.ActiveCompanies | organisation/viewsets.py:31-32 | company listings hold exactly the active companies |
| CompanyViews.CompanyObjectCheck | organisation/viewsets.py:49-59 | unsafe methods need membership of the company or superuser status; anonymous unsafe requests fail |
| CompanyViews.CompanyStaffNeedsMembership | organisation/viewsets.py:52-57 | staff status alone does not allow editing another company |
| CompanyViews.VisibleRatings | organisation/viewsets.py:72-84 | authenticated users see exactly their own ratings of active companies; anonymous users see none |
| CompanyViews.CreateCompanyRating | organisation/viewsets.py:86-90 | a created rating is attributed to the authenticated requester whatever the payload says, and the 1..5 validator applies |
| CompanyViews.OwnRatingIsListed | organisation/viewsets.py:76-90 | a rating a user creates for an active company then appears in that user's list |
| CompanyViews.CompanyPictures | organisation/viewsets.py:101-102 | a non-numeric company pk raises in the filter (500); otherwise the list holds exactly the company's pictures, and none for an inactive company |
| CompanyViews.PictureObjectCheck | organisation/viewsets.py:104-114 | unsafe methods on a picture need membership of its company |
| CompanyViews.PictureNoSuperuserBypass | organisation/viewsets.py:107-112 | a superuser outside the company is still denied |
| CompanyViews.PictureCreateCheck | organisation/viewsets.py:116-123 | creating a picture needs the requester's company id to equal `int(company_pk)`; a non-numeric pk or an anonymous requester fails |
| CompanyViews.PictureCreateOwnCompany | organisation/viewsets.py:116-121 | a member may always add pictures to its own company |
| CompanyViews.CompanyUsers | organisation/viewsets.py:134-135 | a non-numeric company pk raises in the filter (500); otherwise the list holds exactly the company's users, for active companies only |
| CalendarCommand.PreviousMonday | organisation/management/commands/calendars.py:75-118 | the result is a Monday, on or at most 6 days before the input, and a Monday maps to itself |
| CalendarCommand.PreviousMondayIdempotent | organisation/management/commands/calendars.py:103-118 | applying the function twice equals applying it once |
| CalendarCommand.PreviousMondayExamples | organisation/management/commands/calendars.py:85-104 | Sunday 2016-04-10 maps to 2016-04-04; Monday 2016-04-11 maps to itself |
| CalendarCommand.CompanySet | organisation/management/commands/calendars.py:39-41 | with company ids given, only those companies take part; otherwise all do |
| CalendarSlots.WeekStartClosedForm | organisation/management/commands/calendars.py:43-46 | the start of week w, reached one week at a time, is day0 + 7·w |
| CalendarSlots.DaySlotsMembers | organisation/management/commands/calendars.py:45-49 | the slots of one company and week are exactly its free days among the first n weekdays |
| CalendarSlots.WeekSlotsMembers | organisation/management/commands/calendars.py:44-49 | the slots of one week are exactly the free (company, weekday) pairs of the selected companies |
| CalendarSlots.InWeeksClosedForm | organisation/management/commands/calendars.py:43-46 | a date is Monday to Friday of one of the requested weeks iff it lies in [day0, day0 + 7·weeks) with an offset below 5 modulo 7 |
| CalendarSlots.SlotsSound | organisation/management/commands/calendars.py:43-49 | every generated pair has a selected company, a date on Monday to Friday of a requested week, and no existing entry on that date |
| CalendarSlots.SlotsComplete | organisation/management/commands/calendars.py:43-49 | every free weekday of a selected company in the requested weeks is generated |
| CalendarSlots.SlotsMembers | organisation/management/commands/calendars.py:43-49 | generated pairs are exactly the (selected company, date) pairs with no entry yet, on Monday to Friday of the requested weeks |
| CalendarSlots.SlotsInRange | organisation/management/commands/calendars.py:43-46 | every generated date lies between day0 and the start of the week after the last requested one |
| CalendarSlots.DaySlotsDistinct | organisation/management/commands/calendars.py:45-49 | one company's week yields no (company, date) twice |
| CalendarSlots.WeekSlotsDistinct | organisation/management/commands/calendars.py:44-49 | with distinct companies, one week yields no (company, date) twice |
| CalendarSlots.EarlierWeeksDiffer | organisation/management/commands/calendars.py:43-49 | no slot of an earlier week equals a slot of a later week |
| CalendarSlots.SlotsDistinct | organisation/management/commands/calendars.py:43-49 | with distinct company ids, as a queryset gives them, no two generated entries share a (company, date) |
| CalendarCommand.WeekdayFromMonday | organisation/management/commands/calendars.py:37-46 | counting from a Monday, a date whose offset is below 5 modulo 7 is Monday to Friday |
| CalendarCommand.SlotsOnWeekdays | organisation/management/commands/calendars.py:37-46 | starting from a Monday, every generated date is Monday to Friday |
| CalendarCommand.AppendDays | organisation/management/commands/calendars.py:45-58 | the day loop appends exactly the company's free days of the week, in day order |
| CalendarCommand.AppendWeek | organisation/management/commands/calendars.py:44-58 | the company loop appends each selected company's free days of the week, in company order |
| CalendarCommand.GenerateSlots | organisation/management/commands/calendars.py:43-58 | the nested week/company/day loop produces exactly the specified slot sequence; a negative week count produces none |
| CalendarCommand.NewEntries | organisation/management/commands/calendars.py:51-58 | every generated entry runs 08:00–16:00 UTC on its date, with `busy` false, for its company |
| CalendarCommand.NewEntriesDoNotCollide | organisation/management/commands/calendars.py:43-49 | no generated entry falls on a (company, date) that already has one |
| CalendarCommand.AddWeeks | organisation/management/commands/calendars.py:34-72 | the new entries are appended unless it is a dry run, which stores nothing |
| CalendarEntries.Validate | calendars/serializers.py:13-19 | an entry is rejected iff start > end, so start == end is accepted; valid data is returned unchanged |
| CalendarEntries.CheckCompany | calendars/viewsets.py:20-26 | denies iff the requester's company differs from the given one and the requester is not staff; a missing company fails |
| CalendarEntries.RequestCheck | calendars/viewsets.py:18 | anonymous users may read but not write |
| CalendarEntries.ObjectCheck | calendars/viewsets.py:28-34 | unsafe methods on an entry are checked against that entry's company |
| CalendarEntries.WriteAccess | calendars/viewsets.py:20-34 | staff may write any company's entries; others only their own company's |
| CalendarEntries.VisibleEntries | calendars/viewsets.py:15 | only entries of active companies are visible |
| CalendarEntries.CreateDecision | calendars/viewsets.py:36-39 | 401 iff the request is anonymous; otherwise create is checked against the company in the request data, after validation, and an entry ending before it starts is a 400; a valid entry for an existing company is created (201) iff the requester is staff or a member of that company |
| CalendarEntries.InvalidBeforeForbidden | calendars/viewsets.py:36-39 | invalid data is reported before a membership denial |
| CalendarEntries.MemberMayCreate | calendars/viewsets.py:36-39 | a member creating a valid entry for its company succeeds |
| CalendarEntries.CalendarTable.Create | calendars/viewsets.py:36-39 | a successful create appends exactly one entry; a rejected create leaves the table unchanged |
| Users.User.constructor | palvelutori/models.py:25 | a new user takes the given fields; flags not given default to false; the user is active |
| Users.User.AsPrincipal | palvelutori/models.py:52-86 | the permission view of a user carries its id, company, flags and permissions |
| Users.User.AnonymizeForDump | palvelutori/models.py:111-113 | appends ".example.org" to the e-mail, clears vetuma and touches nothing else |
| Users.FullNameOfTrimmedParts | palvelutori/models.py:94-99 | the full name is first + ' ' + last, and just one part when the other is empty |
| Users.FullNameWithoutLast | palvelutori/models.py:94-99 | without a last name the full name is the first name, with no trailing space |
| Users.FullNameWithoutFirst | palvelutori/models.py:94-99 | without a first name the full name is the last name, with no leading space |
| Users.NormalizeEmail | palvelutori/models.py:24 | an address without '@' is kept; otherwise the result has the stripped address's length, equals it up to case, keeps the part before the last '@' and the '@' itself, and has no upper-case ASCII letter after it, so the domain is lower-cased |
| Users.LowerDomain | palvelutori/models.py:24 | lower-casing after the '@' keeps the length and the local part, equals the address up to case, and leaves no upper-case letter in the domain |
| Users.LowerDomainOnly | palvelutori/models.py:24 | lower-casing only the domain changes the address at most in case, character by character after the '@' |
| Users.CreateUserDefaults | palvelutori/models.py:30-33 | `is_staff` and `is_superuser` default to false unless given; nothing else changes |
| Users.SuperuserDefaults | palvelutori/models.py:35-44 | staff, superuser and verified default to true; an explicit false staff or superuser flag raises |
| Users.CreateUserRecord | palvelutori/models.py:18-28 | an empty e-mail raises; otherwise a new active user with the normalised e-mail is stored |
| Users.CreateUser | palvelutori/models.py:30-33 | create_user stores a non-staff, non-superuser user unless told otherwise |
| Users.CreateSuperuser | palvelutori/models.py:35-45 | create_superuser stores a staff superuser, verified by default, or raises |
| Users.UsersWithEmail | palvelutori/models.py:47-48 | the natural-key filter matches e-mails case-insensitively |
| Users.GetByNaturalKey | palvelutori/models.py:47-48 | the lookup finds a user with a case-insensitively equal e-mail, nothing iff none exists, and finds one iff exactly one matches |
| Users.NoneWithEmail | palvelutori/models.py:47-48 | without a case-insensitive match the natural-key filter is empty |
| Users.UsersWithEmailAtMostOne | palvelutori/models.py:47-48 | with e-mails unique up to case, at most one user matches a username |
| Users.GetByNaturalKeyFinds | palvelutori/models.py:47-48 | with e-mails unique up to case, a user whose e-mail equals the username up to case is the one found |
| Users.NaturalKeyIgnoresCase | palvelutori/models.py:47-48 | two usernames that differ only in case find the same user |
| Users.KeyFromDraws | palvelutori/models.py:135-140 | a key has one character per draw, each from A–Z or 0–9 |
| Users.VerificationLink.CreateFor | palvelutori/models.py:121-140 | a new link belongs to the user, is unused and has a 32-character A–Z/0–9 key |
| Users.VerificationLink.Verify | palvelutori/models.py:147-153 | marks the user verified and stamps `used` |
| UserValidation.UsersWithExactEmail | api/user_serializers.py:54 | the registration filter matches e-mails exactly |
| UserValidation.GetByEmail | api/user_serializers.py:149 | the exact e-mail lookup finds a user with that e-mail, nothing iff none exists, and finds one iff exactly one user has it |
| UserValidation.NoneWithExactEmail | api/user_serializers.py:149 | without a user holding the e-mail the exact filter is empty |
| UserValidation.GetByEmailFinds | palvelutori/models.py:53 | with the `unique=True` e-mail column, looking up a stored user's e-mail finds that user |
| UserValidation.ValidateEmail | api/user_serializers.py:53-56 | registration rejects an e-mail already in use and keeps a new one |
| UserValidation.ValidateEmailIgnoringCase | api/user_serializers.py:53-56 | corrected: registration refuses an e-mail equal to a stored one up to case |
| UserValidation.UsersWithEmailAppend | palvelutori/models.py:47-48 | storing one more user appends it to the natural-key matches exactly when its e-mail matches |
| UserValidation.RegistrationKeepsLoginUnique | api/user_serializers.py:53-56 | with the corrected check, stored e-mails stay unique up to case and logging in with the new address finds exactly the new user |
| UserValidation.ExactRegistrationBreaksLogin | api/user_serializers.py:53-56 | as written, "a@b" registers next to "A@b", and the case-insensitive login lookup then finds two users |
| UserValidation.PasswordChangeCheck | api/user_serializers.py:84-99 | strength errors come first; a correct old password passes; otherwise only a holder of `auth.change_user` who is not the target passes |
| UserValidation.AdminOwnPasswordNeedsOld | api/user_serializers.py:93-97 | an admin changing its own password must still give the correct old one |
| UserValidation.ValidateKey | api/user_serializers.py:104-110 | a key is refused iff no unused link carries it; an accepted key names an unused link carrying it; the key is accepted iff exactly one unused link carries it |
| UserValidation.NoneUnusedWithKey | api/user_serializers.py:106 | without an unused link carrying the key the lookup matches nothing |
| UserValidation.ValidateKeyFinds | api/user_serializers.py:104-110 | with unique keys, the key of any unused link is accepted and yields exactly that link |
| UserValidation.UnusedWithKey | api/user_serializers.py:106 | the key lookup considers exactly the unused links with that key |
| UserValidation.VerifyTwice | api/user_serializers.py:104-108 | after a successful verification the same key is rejected: a link works once |
| UserValidation.LoginCheck | api/user_serializers.py:117-132 | login passes iff credentials match and the account is active and verified; the checks run in that order |
| UserValidation.LoginReportsFirstFailure | api/user_serializers.py:126-130 | an inactive, unverified account is reported as inactive |
| UserValidation.SendTokenOutcome | api/user_serializers.py:147-161 | an unknown e-mail returns false rather than a validation error; a found user gets the mail result; only several holders of the address raise |
| UserValidation.SendTokenToStoredUser | api/user_serializers.py:147-161 | with unique e-mails, a request for a stored user's address returns the mail result |
| UserValidation.PasswordResetCheck | api/user_serializers.py:163-194 | a blank e-mail, password, token or vetuma is refused first; otherwise exactly one of token and vetuma is needed; the token path needs a valid token; the vetuma path needs a matching, non-empty vetuma; a complete request whose e-mail finds a user, whose token or vetuma holds for that user and whose password meets the strength rules passes with that user |
| UserValidation.ResetSucceeds | api/user_serializers.py:163-194 | with unique e-mails, a complete request carrying a stored user's e-mail, a proof of identity that holds for that user and a strong password resets exactly that user |
| UserValidation.EmptyVetumaNeverResets | api/user_serializers.py:184-187 | a user whose vetuma code is empty is never the result of a vetuma reset request |
| UserValidation.ResetPassword | api/user_serializers.py:196-198 | only the validated user's password changes, to the new one; the frame lets no other field of any user change |
| UserViews.UserQueryset | api/viewsets.py:25-34 | anonymous users see nobody, non-staff users only themselves, staff all active users; inactive users are never listed |
| UserViews.UserQuerysetNarrows | api/viewsets.py:25-34 | the visible users never match a filter more often than the whole table does |
| UserViews.UserObjectCheck | api/viewsets.py:44-62 | GET always passes; PUT needs self or `auth.change_user`; DELETE needs `auth.delete_user` and fails on self |
| UserViews.OtherMethodsDenied | api/viewsets.py:62 | every other method is denied |
| UserViews.UserTarget | api/viewsets.py:25-34 | a detail lookup only finds an active user visible to the requester |
| UserViews.UserTargetFinds | api/viewsets.py:25-34 | with unique user ids, an active user that the requester may see (itself, or anyone for staff) is always the one found |
| UserViews.DestroyDecision | api/viewsets.py:44-68 | 404 iff the target is not visible to the requester; on a visible target, 204 iff the requester holds `auth.delete_user` and is not the target, 403 otherwise |
| UserViews.Destroy | api/viewsets.py:64-68 | the status is `DestroyDecision`'s; on success the target's `is_active` is cleared; every other user keeps `is_active`, and the frame lets no other field change |
| UserViews.DeactivatedNotListed | api/viewsets.py:25-34 | a deactivated user is not listed to anyone |
| UserViews.ChangePasswordDecision | api/viewsets.py:83-106 | 404 iff the target is not visible; on a visible target, 403 iff the requester is neither the target nor a holder of `auth.change_user`; a permitted change whose password check passes is answered 200 |
| UserViews.ChangePassword | api/viewsets.py:95-99 | the status is `ChangePasswordDecision`'s; on success the target's password is the new one; every other user keeps its password, and the frame lets no other field change |
| UserViews.VisibleSites | api/viewsets.py:116-122 | non-staff users see exactly their own sites; staff see all |
| UserViews.SiteOwner | api/viewsets.py:124-129 | a created site belongs to the requester unless a staff requester gives a `user` override |
| UserViews.CreatedSiteVisible | api/viewsets.py:116-129 | a non-staff user sees the site it just created |
| TokenAuth.Authenticate | api/auth.py:15-32 | a non-empty, inactive API key fails; without token credentials the result is unauthenticated; unverified fails before inactive; otherwise the token result is returned unchanged |
| LogViews.VisibleLog | logger/viewsets.py:25-30 | anonymous users see no entries; `logger.see_all` sees all; others see only their own |
| LogViews.LogStore.Erase | logger/viewsets.py:49-68 | without the permission or with invalid input nothing is deleted; otherwise exactly the matching entries go, the rest stay in order, and `deleted` counts the removed ones |
| Mail.Recipients | mailer/mail.py:56-59 | a single address becomes a one-element sequence; several stay in order |
| Mail.SenderOf | mailer/mail.py:65 | the sender defaults to the configured default, then to the literal no-reply address |
| Mail.Context | mailer/mail.py:74-80 | caller variables override the built-in `recipient` and `sender` keys |
| Mail.BaseLanguage | mailer/mail.py:122-123 | with a '-' in the language, the base language is the strictly shorter prefix that ends right before the first '-' |
| Mail.LocalizedTemplate | mailer/mail.py:105-125 | a found template is an available one |
| Mail.FirstAvailable | mailer/mail.py:105-125 | the first available candidate, or nothing iff no candidate is available |
| Mail.LocalizedTemplateIsFirstCandidate | mailer/mail.py:105-125 | the lookup tries `name_lang`, then `name_base` when lang has '-', then the plain name, and returns the first hit |
| Mail.LocalizedTemplateFallsBackToPlain | mailer/mail.py:113-125 | when the plain template exists, every language finds a template |
| Mail.SendTemplateMail | mailer/mail.py:20-103 | a mail is sent iff there are recipients, a subject (given or from a template) and a txt template; the body is the localized txt template, the subject the given one or the localized subject template, and the HTML part the localized HTML template when asked for; missing txt or subject templates raise; an SMTP failure returns false |
| Mail.HtmlIsOptional | mailer/mail.py:86-92 | a missing HTML template does not stop the mail |
| Mail.SendStaffMailAsWritten | mailer/mail.py:127-171 | as written, the admin and manager helpers always raise |
| Mail.SendStaffMail | mailer/mail.py:127-171 | corrected: the staff addresses get the prefixed subject in the site language |
| Mail.StaffMailDiscrepancy | mailer/mail.py:145-171 | with recipients and a plain template, the corrected helper sends while the written one raises |
| YtrImport.AddressType | ytr/parser.py:75-78 | '3' maps to snailmail and every other code to 'unknown' |
| YtrImport.AddressFor | ytr/parser.py:58-67 | an imported address copies the node's fields; null street2/street3 become '' |
| YtrImport.AddressesFor | ytr/parser.py:58-70 | the company's addresses are exactly those in the node, in order |
| YtrImport.FirstContact | ytr/parser.py:41-51 | the first contact of the wanted type, or nothing iff there is none |
| YtrImport.SelectContact | ytr/parser.py:41-51 | the e-mail/phone loop keeps the first contact of type 1 (e-mail) or 5 (phone); with none, the current value stays |
| YtrImport.FindCompany | ytr/parser.py:22-23 | the lookup finds the company with that business id, or nothing iff none exists |
| YtrImport.Fill | ytr/parser.py:38-70 | sets the name, the first e-mail and phone, the registry code when there was none, and the node's addresses; afterwards the company has a registry link iff it had one or the node carries a non-empty code |
| YtrImport.AddCompany | ytr/parser.py:29-36 | a new company gets empty service areas, no offered services, null prices and the new flag |
| YtrImport.ImportCompany | ytr/parser.py:13-72 | an existing company without overwrite is skipped and yields None; otherwise the existing or a new company is filled from the node; other companies are untouched |
| YtrImport.ImportNext | ytr/parser.py:9 | one import step keeps the store valid and its companies, adds exactly the node's business id to the stored ids, returns None iff the business id was stored and overwrite is off, and otherwise returns the stored company for it with the node's name and addresses; other companies keep their name and addresses |
| YtrImport.SkippedAt | ytr/parser.py:6-10 | node j is skipped iff overwrite is off and its business id was stored before or appears in an earlier node |
| YtrImport.ImportAppend | ytr/parser.py:8-9 | one loop step keeps the loop invariant of `import_company_resultset` for one more node |
| YtrImport.ImportResultSet | ytr/parser.py:6-10 | one result per company node, in input order; the stored business ids grow by exactly the nodes' ids; a result is None exactly where `SkippedAt` says; every other result is a stored company with its node's business id, and the one for a business id's last node carries that node's name and addresses |
| DumpDemo.Classify | demodump/management/commands/dumpdemo.py:182-189 | an app entry is the entry itself; a model entry is app + "." + model with dot-free parts |
| DumpDemo.ClassifyByDots | demodump/management/commands/dumpdemo.py:182-189 | no dot names an app; exactly one dot gives an (app, model) pair; two or more dots cannot be split |
| DumpDemo.ClassifyJoined | demodump/management/commands/dumpdemo.py:182-187 | `app.model` with dot-free parts is read as that (app, model) pair |
| DumpDemo.WildcardIsAModel | demodump/management/commands/dumpdemo.py:169-187 | as written, "app.*" excludes a model named "*", not the whole app |
| DumpDemo.WildcardReadAsPair | demodump/management/commands/dumpdemo.py:181-191 | as written, the single entry "a.*" yields no excluded app and the one pair (a, "*") |
| DumpDemo.WildcardStillDumps | demodump/management/commands/dumpdemo.py:90-104 | as written, after "a.*" every model of app a not literally named "*" is still dumped |
| DumpDemo.ClassifyDocumented | demodump/management/commands/dumpdemo.py:167-174 | corrected: "a.*" is read as the app a; other entries as `Classify` reads them; the same entries are unparseable |
| DumpDemo.WildcardExcludesApp | demodump/management/commands/dumpdemo.py:170 | corrected: "a.*" excludes the whole app a |
| DumpDemo.ExcludesApp | demodump/management/commands/dumpdemo.py:188-189 | an entry excludes app a iff it is a itself, without a dot |
| DumpDemo.ExcludesModel | demodump/management/commands/dumpdemo.py:182-187 | an entry excludes (a, m) iff it reads a + "." + m with dot-free parts |
| DumpDemo.ExclusionsFailAt | demodump/management/commands/dumpdemo.py:181-186 | an entry with two or more dots anywhere in the list makes the reading fail |
| DumpDemo.ExclusionsFailFirst | demodump/management/commands/dumpdemo.py:181-186 | a failed reading carries the message for the first entry with two or more dots |
| DumpDemo.ExclusionsFail | demodump/management/commands/dumpdemo.py:181-186 | the reading fails iff some entry has two or more dots |
| DumpDemo.ExclusionsContents | demodump/management/commands/dumpdemo.py:181-191 | on success the excluded apps are exactly the dot-free entries and the excluded pairs exactly the split single-dot entries |
| DumpDemo.ExclusionsStopAtFailure | demodump/management/commands/dumpdemo.py:181-186 | once a prefix fails, later entries do not change the outcome |
| DumpDemo.GetExclusions | demodump/management/commands/dumpdemo.py:166-191 | the loop computes `Exclusions` of the configured list, an absent list counting as empty, and returns at the first unparseable entry |
| DumpDemo.ModelsOf | demodump/management/commands/dumpdemo.py:92-95 | the models of installed, non-excluded apps that have a models module |
| DumpDemo.KeepModels | demodump/management/commands/dumpdemo.py:101-104 | keeps exactly the models that are not excluded, not proxies and allowed on the default database |
| DumpDemo.DumpedModels | demodump/management/commands/dumpdemo.py:90-104 | the dumped models leave out excluded apps, excluded pairs and proxy models |
| DumpDemo.ArchiveName | demodump/management/commands/dumpdemo.py:63-74 | with both dumps disabled the command fails with "Nothing to do!"; an explicit name is used verbatim; the default name is 'pilot-dump-DATE.zip', prefixed 'anonymized-' when anonymising; with a dump enabled, the command goes ahead iff the chosen name is not an existing file, and otherwise fails naming that file |

## Left out

- Framework plumbing:
  - HTTP routing, serializer field declarations, filtersets, admin classes and migrations are left out.
  - The default permission classes come from the settings module, which is not part of this model. Views that declare none are modelled as `AllowAny`. So an anonymous unsafe request on a company or picture reaches `request.user.company_id` and fails with an AttributeError, modelled as `Fault`/500.
- Authentication inputs:
  - `authenticate` (for login) and the framework's `TokenAuthentication` are inputs: the credential check's result and the token lookup's result.
  - The framework's own token check also rejects inactive users, but that code is not part of this model. `TokenAuth.Authenticate` models only api/auth.py's own checks.
  - Django 1.9's model backend does not reject inactive users. The login validator checks `is_active` itself, and `UserValidation.LoginCheck` models that check.
- Opaque operations:
  - Password hashing, `validate_password`, the reset-token generator and random draws are opaque.
  - Hashes are compared as stored strings. Strength errors and valid tokens are parameters.
  - A verification key is built from a parameter sequence of draws.
- Mail:
  - Delivery and rendering are left out. Template availability is a set of paths. The SMTP outcome is a parameter.
  - The configured default sender is an `Option`. In a real Django setup it is always present, so the literal fallback is unreachable there.
- Search: the full-text and `icontains` company search (organisation/viewsets.py:34-45) is left out.
- Registry import:
  - The YTR network client and views are left out.
  - Contact type codes are taken as already-parsed integers. A non-numeric code, which raises in `int(...)`, is not modelled.
- Demo dump:
  - Zip, file and serialisation work, the media dump, and `loaddemo` are left out.
  - `sort_dependencies` is not modelled. `DumpDemo.DumpedModels` keeps the apps' own order and states membership, not the dependency order.
  - `str(datetime.date.today())` is a parameter string.
  - DumpDemo.GetExclusions: models the code as written, so "app.*" stays a model pair; the documented reading is `DumpDemo.ClassifyDocumented` (see Findings).
- Text and integers:
  - Users.NormalizeEmail: lower-cases ASCII letters only. Python's `lower()` on non-ASCII domain characters is not modelled.
  - Users.UsersWithEmail: `email__iexact` compares with ASCII case folding only. PostgreSQL's `UPPER` also folds non-ASCII letters, which is not modelled.
  - Users.GetByNaturalKey: inherits the ASCII-only comparison of `Users.UsersWithEmail`.
  - Users.NaturalKeyIgnoresCase: covers usernames that differ in ASCII case only.
  - UserValidation.ValidateEmailIgnoringCase: refuses e-mails equal up to ASCII case only.
  - UserValidation.UsersWithEmailAppend: matches as `Users.UsersWithEmail` does, up to ASCII case only.
  - UserValidation.RegistrationKeepsLoginUnique: uniqueness is up to ASCII case only.
  - Users.FullNameOfTrimmedParts: strips Python's `str.isspace` characters as listed in `Text.IsSpace`; the Unicode database itself is not modelled.
  - UserValidation.PasswordResetCheck: the 256-character `max_length` of each field is not modelled, and neither is the trimming of surrounding whitespace by the character fields; only the empty string counts as blank.
  - OrderViews.UserOrders, OrderViews.CompanyOrders: take the URL's pk already converted. A non-numeric pk raises in the filter and is answered 500, as `CompanyViews.CompanyPictures` models it.
  - `Text.ParseNat` is `int()` on plain decimal digits. Signs, whitespace and underscores, which `int()` also accepts, are not modelled.
- Time and floats:
  - Timezones are not modelled. `start__date` is the UTC date, and `get_previous_monday` only works on naive dates.
  - Companies.Rating: the mean is an exact `real`. IEEE rounding of the float division is not modelled.
- Left out with no model:
  - Concurrency and transactions. Racing rating updates are not coordinated by the code either.
  - The `me` endpoint and the creation of log entries.
  - The option parsing of the `calendars` command.
  - Picture uploads and image handling.
  - CompanyViews.CompanyPictures: the `('num', 'id')` ordering of pictures (organisation/models.py:205) is not modelled; the lists state membership only.
  - `Order.send_notification`.

## Findings

| source | as written | input that shows it | evidently intended | confidence | as-written member | corrected member |
|---|---|---|---|---|---|---|
| mailer/mail.py:145-171 | `send_template_admin_mail` and `send_template_manager_mail` call `send_template_mail(..., lang=settings.LANGUAGE_CODE)`, but `send_template_mail` (mailer/mail.py:20) has no `lang` parameter, so every call raises TypeError | any call with a non-empty ADMINS or MANAGERS list and an existing plain template | send the template mail to the staff addresses with the prefixed subject, in the language set by `translation.override` | not executed | Mail.SendStaffMailAsWritten | Mail.SendStaffMail |
| orders/serializers.py:41-46 | `UserOrderSerializer` redefines `Meta` with `exclude = ('user',)`, which replaces the parent's `exclude = ('rating',)`, so `rating` is writable when a user creates an order | POST an order for a timeslot that has not started, with rating 5: it is stored rated, with `rated` null, while `can_be_rated` is false | keep `rating` out of the create serializer, as `OrderSerializer` and `CompanyOrderSerializer` do, so ratings only come through the rate endpoint | not executed | OrderViews.CreatedRatingSkipsWindow | OrderViews.CreateUnratedOrder |
| api/user_serializers.py:53-56 | `validate_email` refuses only an exactly equal e-mail, while login looks users up with `email__iexact` (palvelutori/models.py:47-48) | register "a@b" while "A@b" exists; logging in as "a@b" then finds two users and `get` raises MultipleObjectsReturned | refuse an e-mail equal to a stored one up to case, so the login lookup stays unique | not executed | UserValidation.ExactRegistrationBreaksLogin | UserValidation.ValidateEmailIgnoringCase |
| demodump/management/commands/dumpdemo.py:166-191 | `get_exclusions` splits "appname.*" at the dot and adds the pair (appname, "*") to the excluded models, though its docstring (and the settings example "cache_app.*") says this form excludes the entire app | exclude ["cache_app.*"] with an app `cache_app` holding a model `Entry`: `Entry` is still dumped | read "appname.*" as an excluded app | not executed | DumpDemo.WildcardStillDumps | DumpDemo.WildcardExcludesApp |

=== FILE: calendar_command.dfy ===
/** The management command that fills company calendars with weekday working hours
    (organisation/management/commands/calendars.py). Dates are proleptic Gregorian ordinals:
    day 1 is 0001-01-01, a Monday; day `d` starts at timestamp `d * Day`. */
module CalendarCommand {
  import opened Wrappers
  import opened Query
  import opened Orders
  import opened CalendarEntries
  import opened CalendarSlots

  /** `date.weekday()`: Monday is 0 and Sunday 6. */
  function Weekday(date: int): int
  {
    (date + 6) % 7
  }

  /** `get_previous_monday` for a plain date: the Monday on or before it. */
  function PreviousMonday(date: int): (r: int)
    ensures Weekday(r) == 0
    ensures r <= date && date - r <= 6
    ensures Weekday(date) == 0 ==> r == date
  {
    date - Weekday(date)
  }

  /** Applying the function twice is applying it once. */
  lemma {:induction false} PreviousMondayIdempotent(date: int)
    ensures PreviousMonday(PreviousMonday(date)) == PreviousMonday(date)
  {
    var m := PreviousMonday(date);
    assert Weekday(m) == 0;
  }

  /** 2016-04-10 (a Sunday) maps to 2016-04-04; 2016-04-11 (a Monday) to itself. */
  lemma {:induction false} PreviousMondayExamples()
    ensures PreviousMonday(736064) == 736058
    ensures PreviousMonday(736065) == 736065
  {
  }

  /** The working day of a generated entry: 08:00 to 16:00 UTC. */
  const WorkStart := 8 * 3600
  const WorkEnd := 16 * 3600

  /** The companies the command works on: all of them, or those whose ids were given. */
  function CompanySet(all: seq<nat>, requested: seq<nat>): (r: seq<nat>)
    ensures requested == [] ==> r == all
    ensures requested != [] ==> forall c :: c in r <==> c in all && c in requested
  {
    if requested == [] then all else Filter(all, (c: nat) => c in requested)
  }

  /** Counting from a Monday, a day whose offset leaves a remainder below 5 on division by 7
      is Monday to Friday. */
  lemma {:induction false} WeekdayFromMonday(day0: int, d: int)
    requires Weekday(day0) == 0 && (d - day0) % 7 < 5
    ensures Weekday(d) < 5
  {
    var m := (day0 + 6) / 7;
    assert day0 + 6 == 7 * m;
    assert d + 6 == (d - day0) + 7 * m;
  }

  /** Starting from a Monday, every generated date is a weekday (Monday to Friday). */
  lemma {:induction false} SlotsOnWeekdays(entries: seq<Entry>, cs: seq<nat>, day0: int, weeks: nat, s: Slot)
    requires Weekday(day0) == 0 && s in Slots(entries, cs, day0, weeks)
    ensures Weekday(s.date) < 5
  {
    SlotsSound(entries, cs, day0, weeks, s);
    InWeeksClosedForm(s.date, day0, weeks);
    WeekdayFromMonday(day0, s.date);
  }

  /** The innermost loop of `add_weeks`: Monday to Friday of one company's week, skipping
      dates that already have an entry. */
  method AppendDays(slots: seq<Slot>, entries: seq<Entry>, c: nat, date0: int) returns (out: seq<Slot>)
    ensures out == slots + DaySlots(entries, c, date0, 5)
  {
    out := slots;
    var day := 0;
    while day < 5
      invariant 0 <= day <= 5
      invariant out == slots + DaySlots(entries, c, date0, day)
    {
      if !HasEntry(entries, c, date0 + day) {
        out := out + [Slot(c, date0 + day)];
      }
      day := day + 1;
    }
  }

  /** The company loop of `add_weeks` for one week. */
  method AppendWeek(slots: seq<Slot>, entries: seq<Entry>, cs: seq<nat>, date0: int) returns (out: seq<Slot>)
    ensures out == slots + WeekSlots(entries, cs, date0)
  {
    out := slots;
    var k := 0;
    while k < |cs|
      invariant 0 <= k <= |cs|
      invariant out == slots + WeekSlots(entries, cs[..k], date0)
    {
      out := AppendDays(out, entries, cs[k], date0);
      assert cs[..k + 1][..k] == cs[..k];
      k := k + 1;
    }
    assert cs[..|cs|] == cs;
  }

  /** The week loop of `add_weeks`, collecting the pairs to fill; a negative week count runs
      no week. */
  method GenerateSlots(entries: seq<Entry>, cs: seq<nat>, day0: int, weeks: int) returns (slots: seq<Slot>)
    ensures slots == Slots(entries, cs, day0, if weeks < 0 then 0 else weeks)
  {
    slots := [];
    var week := 0;
    while week < weeks
      invariant 0 <= week && (weeks >= 0 ==> week <= weeks) && (weeks < 0 ==> week == 0)
      invariant slots == Slots(entries, cs, day0, week)
    {
      WeekStartClosedForm(day0, week);
      slots := AppendWeek(slots, entries, cs, day0 + 7 * week);
      week := week + 1;
    }
  }

  /** The entries bulk-created for the slots, with primary keys from `id0` on. */
  function NewEntries(slots: seq<Slot>, id0: nat): (r: seq<Entry>)
    ensures |r| == |slots|
    ensures forall i :: 0 <= i < |r| ==> r[i].id == id0 + i && r[i].companyId == Some(slots[i].companyId)
    ensures forall i :: 0 <= i < |r| ==> !r[i].busy && r[i].end - r[i].start == WorkEnd - WorkStart
    ensures forall i :: 0 <= i < |r| ==> StartDate(r[i]) == slots[i].date && r[i].start == slots[i].date * Day + WorkStart
  {
    if slots == [] then []
    else [Entry(id0, slots[0].date * Day + WorkStart, slots[0].date * Day + WorkEnd, false, Some(slots[0].companyId))]
         + NewEntries(slots[1..], id0 + 1)
  }

  /** The entries one run adds never share a (company, day) with each other or with an entry
      that existed before the run. */
  lemma {:induction false} NewEntriesDoNotCollide(entries: seq<Entry>, cs: seq<nat>, day0: int, weeks: nat, id0: nat)
    requires Distinct(cs)
    ensures var r := NewEntries(Slots(entries, cs, day0, weeks), id0);
            forall i :: 0 <= i < |r| ==> !HasEntry(entries, r[i].companyId.value, StartDate(r[i]))
    ensures var r := NewEntries(Slots(entries, cs, day0, weeks), id0);
            forall i, j :: 0 <= i < j < |r| ==> r[i].companyId != r[j].companyId || StartDate(r[i]) != StartDate(r[j])
  {
    var slots := Slots(entries, cs, day0, weeks);
    var r := NewEntries(slots, id0);
    SlotsDistinct(entries, cs, day0, weeks);
    forall i | 0 <= i < |r| ensures !HasEntry(entries, r[i].companyId.value, StartDate(r[i])) {
      SlotsMembers(entries, cs, day0, weeks, slots[i]);
    }
  }

  /** `add_weeks`: from the Monday on or before `today`, fill the requested weeks for the chosen
      companies; a dry run stores nothing. */
  method AddWeeks(t: CalendarTable, allCompanies: seq<nat>, requested: seq<nat>, weeks: int, today: int, dryRun: bool)
    modifies t
    ensures var slots := Slots(old(t.entries), CompanySet(allCompanies, requested), PreviousMonday(today), if weeks < 0 then 0 else weeks);
            && t.entries == old(t.entries) + (if dryRun then [] else NewEntries(slots, old(t.nextId)))
            && t.nextId == old(t.nextId) + (if dryRun then 0 else |slots|)
  {
    var day0 := PreviousMonday(today);
    var companies := CompanySet(allCompanies, requested);
    var slots := GenerateSlots(t.entries, companies, day0, weeks);
    if !dryRun {
      t.entries := t.entries + NewEntries(slots, t.nextId);
      t.nextId := t.nextId + |slots|;
    }
  }
}

=== FILE: calendar_entries.dfy ===
/** Company calendar entries: validation, access rules and creation
    (calendars/serializers.py, calendars/viewsets.py). */
module CalendarEntries {
  import opened Wrappers
  import opened Requests
  import opened Users

  /** A stored `CalendarEntry`; `start` and `end` are timestamps in seconds. */
  datatype Entry = Entry(id: nat, start: int, end: int, busy: bool, companyId: Option<nat>)

  /** The writable fields of an entry as the client sends them. */
  datatype EntryData = EntryData(start: int, end: int, busy: bool, companyId: Option<nat>)

  const EndBeforeStart := "End must occur after start"
  const NotMember := "Not a member of this company"
  const NotAuthenticated := "Authentication credentials were not provided."

  /** `CalendarEntrySerializer.validate`: a start after the end is refused; an empty period
      (start equal to end) is accepted; valid data passes through unchanged. */
  function Validate(d: EntryData): (r: Result<EntryData, string>)
    ensures r.Ok? <==> d.start <= d.end
    ensures r.Ok? ==> r.value == d
    ensures r.Err? ==> r.error == EndBeforeStart
  {
    if d.start > d.end then Err(EndBeforeStart) else Ok(d)
  }

  /** `check_company`: the requester must belong to the company unless they are staff;
      a missing company id fails its integer conversion. */
  function CheckCompany(p: Principal, companyId: Option<nat>): (v: Verdict)
    ensures v == Fault <==> companyId.None?
    ensures v == Allow <==> companyId.Some? && (p.companyId == companyId || p.isStaff)
    ensures v.Deny? ==> v.message == NotMember
  {
    match companyId
    case None => Fault
    case Some(c) => if p.companyId != Some(c) && !p.isStaff then Deny(NotMember) else Allow
  }

  /** `IsAuthenticatedOrReadOnly`: anyone may read, only authenticated users may write. */
  function RequestCheck(req: Requester, m: Method): (v: Verdict)
    ensures v == Allow <==> IsSafe(m) || req.Authenticated?
    ensures v != Fault
  {
    if IsSafe(m) || req.Authenticated? then Allow else Deny(NotAuthenticated)
  }

  /** `get_object`: a write to an existing entry is checked against that entry's company. */
  function ObjectCheck(req: Requester, m: Method, e: Entry): (v: Verdict)
    ensures IsSafe(m) ==> v == Allow
    ensures !IsSafe(m) && req.Authenticated? ==> v == CheckCompany(req.user, e.companyId)
    ensures !IsSafe(m) && req.Anonymous? ==> v.Deny?
  {
    match RequestCheck(req, m)
    case Allow => if IsSafe(m) then Allow else CheckCompany(req.user, e.companyId)
    case other => other
  }

  /** Staff may write any company's entries; others only their own company's. */
  lemma {:induction false} WriteAccess(p: Principal, m: Method, e: Entry)
    requires !IsSafe(m) && e.companyId.Some?
    ensures p.isStaff ==> ObjectCheck(Authenticated(p), m, e) == Allow
    ensures !p.isStaff ==> (ObjectCheck(Authenticated(p), m, e) == Allow <==> p.companyId == e.companyId)
  {
  }

  /** The view's base queryset: entries of active companies only. */
  function VisibleEntries(entries: seq<Entry>, activeCompanies: set<nat>): (r: seq<Entry>)
    ensures |r| <= |entries|
    ensures forall e :: e in r ==> e in entries && e.companyId.Some? && e.companyId.value in activeCompanies
    ensures forall e :: e in entries && e.companyId.Some? && e.companyId.value in activeCompanies ==> e in r
  {
    if entries == [] then []
    else
      var rest := VisibleEntries(entries[1..], activeCompanies);
      assert forall e :: e in entries ==> e == entries[0] || e in entries[1..];
      var e := entries[0];
      if e.companyId.Some? && e.companyId.value in activeCompanies then [e] + rest else rest
  }

  /** The outcome of a create request: authentication (`RequestCheck`, answered 401 without
      credentials), then validation (including that the company exists), then
      `check_company` on the submitted company. */
  function CreateDecision(req: Requester, d: EntryData, companies: set<nat>): (st: Status)
    ensures st == Created201 ==> req.Authenticated? && d.start <= d.end && d.companyId.Some?
    ensures st == Created201 ==> req.user.isStaff || req.user.companyId == d.companyId
    ensures req.Authenticated? && d.start > d.end ==> st == BadRequest400
    ensures st == Unauthorized401 <==> req.Anonymous?
    ensures && req.Authenticated? && d.start <= d.end && d.companyId.Some? && d.companyId.value in companies
            && (req.user.isStaff || req.user.companyId == d.companyId)
            ==> st == Created201
  {
    if req.Anonymous? then Unauthorized401
    else if Validate(d).Err? then BadRequest400
    else if d.companyId.Some? && d.companyId.value !in companies then BadRequest400
    else match CheckCompany(req.user, d.companyId)
      case Fault => ServerError500
      case Deny(_) => Forbidden403
      case Allow => Created201
  }

  /** Validation precedes the company check: an invalid period is a 400 even for a company the
      requester may not write to. */
  lemma {:induction false} InvalidBeforeForbidden(p: Principal, d: EntryData, companies: set<nat>)
    requires d.start > d.end && CheckCompany(p, d.companyId).Deny?
    ensures CreateDecision(Authenticated(p), d, companies) == BadRequest400
  {
  }

  /** A member creating an entry for their own existing company succeeds. */
  lemma {:induction false} MemberMayCreate(p: Principal, d: EntryData, companies: set<nat>)
    requires d.start <= d.end && d.companyId.Some? && d.companyId.value in companies
    requires p.companyId == d.companyId
    ensures CreateDecision(Authenticated(p), d, companies) == Created201
  {
  }

  /** The stored calendar entries and the next primary key. */
  class CalendarTable {
    var entries: seq<Entry>
    var nextId: nat

    constructor ()
      ensures entries == [] && nextId == 0
    {
      entries := [];
      nextId := 0;
    }

    /** `create` with `perform_create`: only an accepted request stores a row. */
    method Create(req: Requester, d: EntryData, companies: set<nat>) returns (st: Status)
      modifies this
      ensures st == CreateDecision(req, d, companies)
      ensures st == Created201 ==> entries == old(entries) + [Entry(old(nextId), d.start, d.end, d.busy, d.companyId)]
      ensures st == Created201 ==> nextId == old(nextId) + 1
      ensures st != Created201 ==> entries == old(entries) && nextId == old(nextId)
    {
      st := CreateDecision(req, d, companies);
      if st == Created201 {
        entries := entries + [Entry(nextId, d.start, d.end, d.busy, d.companyId)];
        nextId := nextId + 1;
      }
    }
  }
}

=== FILE: calendar_slots.dfy ===
/** The (company, date) pairs the calendar command fills, as a specification of its nested
    loops (organisation/management/commands/calendars.py). Dates are proleptic Gregorian
    ordinals: day `d` starts at timestamp `d * Day`. */
module CalendarSlots {
  import opened Wrappers
  import opened Orders
  import opened CalendarEntries

  /** The UTC date an entry starts on. */
  function StartDate(e: Entry): int
  {
    e.start / Day
  }

  /** `CalendarEntry.objects.filter(company=c, start__date=date).exists()`. */
  predicate HasEntry(entries: seq<Entry>, c: nat, date: int)
  {
    exists e :: e in entries && e.companyId == Some(c) && StartDate(e) == date
  }

  /** A (company, date) for which the command creates an entry. */
  datatype Slot = Slot(companyId: nat, date: int)

  /** Days `date0 .. date0 + n - 1` of company `c` that have no entry yet, in date order. */
  function DaySlots(entries: seq<Entry>, c: nat, date0: int, n: nat): seq<Slot>
  {
    if n == 0 then []
    else DaySlots(entries, c, date0, n - 1) + (if HasEntry(entries, c, date0 + n - 1) then [] else [Slot(c, date0 + n - 1)])
  }

  /** One week: for each company in turn, Monday to Friday of the week starting `date0`. */
  function WeekSlots(entries: seq<Entry>, cs: seq<nat>, date0: int): seq<Slot>
  {
    if cs == [] then []
    else WeekSlots(entries, cs[..|cs| - 1], date0) + DaySlots(entries, cs[|cs| - 1], date0, 5)
  }

  /** The first day of week `w` counted from `day0`, reached by adding seven days per week. */
  function WeekStart(day0: int, w: nat): (r: int)
    ensures r >= day0
  {
    if w == 0 then day0 else WeekStart(day0, w - 1) + 7
  }

  /** The loop computes the same day as `day0 + timedelta(days=week*7)`. */
  lemma {:induction false} WeekStartClosedForm(day0: int, w: nat)
    ensures WeekStart(day0, w) == day0 + 7 * w
    decreases w
  {
    if w > 0 {
      WeekStartClosedForm(day0, w - 1);
    }
  }

  /** All requested weeks, week by week from `day0`. */
  function Slots(entries: seq<Entry>, cs: seq<nat>, day0: int, weeks: nat): seq<Slot>
  {
    if weeks == 0 then []
    else Slots(entries, cs, day0, weeks - 1) + WeekSlots(entries, cs, WeekStart(day0, weeks - 1))
  }

  lemma {:induction false} DaySlotsMembers(entries: seq<Entry>, c: nat, date0: int, n: nat, s: Slot)
    ensures s in DaySlots(entries, c, date0, n) <==>
              s.companyId == c && date0 <= s.date < date0 + n && !HasEntry(entries, c, s.date)
    decreases n
  {
    if n > 0 {
      DaySlotsMembers(entries, c, date0, n - 1, s);
    }
  }

  lemma {:induction false} WeekSlotsMembers(entries: seq<Entry>, cs: seq<nat>, date0: int, s: Slot)
    ensures s in WeekSlots(entries, cs, date0) <==>
              s.companyId in cs && date0 <= s.date < date0 + 5 && !HasEntry(entries, s.companyId, s.date)
    decreases |cs|
  {
    if cs != [] {
      var init := cs[..|cs| - 1];
      WeekSlotsMembers(entries, init, date0, s);
      DaySlotsMembers(entries, cs[|cs| - 1], date0, 5, s);
      assert cs == init + [cs[|cs| - 1]];
    }
  }

  /** A date in week `w` counted from `day0` is on a weekday of that week exactly when its
      offset in the week is below 5. */
  lemma {:induction false} WeekOffset(d: int, day0: int, w: nat)
    requires day0 + 7 * w <= d < day0 + 7 * w + 7
    ensures (d - day0) % 7 == d - day0 - 7 * w
  {
    var r := d - day0 - 7 * w;
    assert d - day0 == 7 * w + r;
  }

  /** Date `d` lies on Monday to Friday of one of the `weeks` weeks starting at `day0`. */
  predicate InWeeks(d: int, day0: int, weeks: nat)
  {
    weeks > 0 && (InWeeks(d, day0, weeks - 1) || WeekStart(day0, weeks - 1) <= d < WeekStart(day0, weeks - 1) + 5)
  }

  /** Extending the range by one week adds exactly that week's Monday to Friday. */
  lemma {:induction false} WeekSplit(d: int, day0: int, w: nat)
    ensures (day0 <= d < day0 + 7 * w + 7 && (d - day0) % 7 < 5) <==>
            ((day0 <= d < day0 + 7 * w && (d - day0) % 7 < 5) || day0 + 7 * w <= d < day0 + 7 * w + 5)
  {
    if day0 + 7 * w <= d < day0 + 7 * w + 7 {
      WeekOffset(d, day0, w);
    }
  }

  /** The weekdays of the requested weeks are the dates in range whose offset from `day0`
      leaves a remainder below 5 on division by 7. */
  lemma {:induction false} InWeeksClosedForm(d: int, day0: int, weeks: nat)
    ensures InWeeks(d, day0, weeks) <==> day0 <= d < day0 + 7 * weeks && (d - day0) % 7 < 5
    decreases weeks
  {
    if weeks > 0 {
      var w := weeks - 1;
      InWeeksClosedForm(d, day0, w);
      WeekStartClosedForm(day0, w);
      WeekSplit(d, day0, w);
      assert day0 + 7 * weeks == day0 + 7 * w + 7;
    }
  }

  /** Every generated pair is a free weekday of a chosen company in the requested weeks. */
  lemma {:induction false} SlotsSound(entries: seq<Entry>, cs: seq<nat>, day0: int, weeks: nat, s: Slot)
    requires s in Slots(entries, cs, day0, weeks)
    ensures s.companyId in cs && InWeeks(s.date, day0, weeks) && !HasEntry(entries, s.companyId, s.date)
    decreases weeks
  {
    var w := weeks - 1;
    if s in Slots(entries, cs, day0, w) {
      SlotsSound(entries, cs, day0, w, s);
    } else {
      WeekSlotsMembers(entries, cs, WeekStart(day0, w), s);
    }
  }

  /** Every free weekday of a chosen company in the requested weeks is generated. */
  lemma {:induction false} SlotsComplete(entries: seq<Entry>, cs: seq<nat>, day0: int, weeks: nat, s: Slot)
    requires s.companyId in cs && InWeeks(s.date, day0, weeks) && !HasEntry(entries, s.companyId, s.date)
    ensures s in Slots(entries, cs, day0, weeks)
    decreases weeks
  {
    var w := weeks - 1;
    if InWeeks(s.date, day0, w) {
      SlotsComplete(entries, cs, day0, w, s);
    } else {
      WeekSlotsMembers(entries, cs, WeekStart(day0, w), s);
    }
  }

  /** Exactly the (company, date) pairs of the chosen companies, on Monday to Friday of the
      requested weeks, that have no entry yet. */
  lemma {:induction false} SlotsMembers(entries: seq<Entry>, cs: seq<nat>, day0: int, weeks: nat, s: Slot)
    ensures s in Slots(entries, cs, day0, weeks) <==>
              s.companyId in cs && InWeeks(s.date, day0, weeks) && !HasEntry(entries, s.companyId, s.date)
  {
    if s in Slots(entries, cs, day0, weeks) {
      SlotsSound(entries, cs, day0, weeks, s);
    }
    if s.companyId in cs && InWeeks(s.date, day0, weeks) && !HasEntry(entries, s.companyId, s.date) {
      SlotsComplete(entries, cs, day0, weeks, s);
    }
  }

  /** Generated dates lie in the requested weeks. */
  lemma {:induction false} SlotsInRange(entries: seq<Entry>, cs: seq<nat>, day0: int, weeks: nat, s: Slot)
    requires s in Slots(entries, cs, day0, weeks)
    ensures day0 <= s.date < WeekStart(day0, weeks)
    decreases weeks
  {
    var w := weeks - 1;
    if s in Slots(entries, cs, day0, w) {
      SlotsInRange(entries, cs, day0, w, s);
    } else {
      WeekSlotsMembers(entries, cs, WeekStart(day0, w), s);
    }
  }

  /** No element occurs twice. */
  predicate Distinct<T(==)>(s: seq<T>)
  {
    forall i, j :: 0 <= i < j < |s| ==> s[i] != s[j]
  }

  lemma {:induction false} DistinctConcat<T>(a: seq<T>, b: seq<T>)
    requires Distinct(a) && Distinct(b)
    requires forall i, j :: 0 <= i < |a| && 0 <= j < |b| ==> a[i] != b[j]
    ensures Distinct(a + b)
  {
    var ab := a + b;
    forall i, j | 0 <= i < j < |ab| ensures ab[i] != ab[j] {
      if j < |a| {
        assert ab[i] == a[i] && ab[j] == a[j];
      } else if i >= |a| {
        assert ab[i] == b[i - |a|] && ab[j] == b[j - |a|];
      } else {
        assert ab[i] == a[i] && ab[j] == b[j - |a|];
      }
    }
  }

  lemma {:induction false} DaySlotsDistinct(entries: seq<Entry>, c: nat, date0: int, n: nat)
    ensures Distinct(DaySlots(entries, c, date0, n))
    decreases n
  {
    if n > 0 {
      DaySlotsDistinct(entries, c, date0, n - 1);
      var a := DaySlots(entries, c, date0, n - 1);
      var b: seq<Slot> := if HasEntry(entries, c, date0 + n - 1) then [] else [Slot(c, date0 + n - 1)];
      forall i, j | 0 <= i < |a| && 0 <= j < |b| ensures a[i] != b[j] {
        DaySlotsMembers(entries, c, date0, n - 1, a[i]);
      }
      DistinctConcat(a, b);
    }
  }

  lemma {:induction false} WeekSlotsDistinct(entries: seq<Entry>, cs: seq<nat>, date0: int)
    requires Distinct(cs)
    ensures Distinct(WeekSlots(entries, cs, date0))
    decreases |cs|
  {
    if cs != [] {
      var init := cs[..|cs| - 1];
      var last := cs[|cs| - 1];
      assert Distinct(init) by {
        forall i, j | 0 <= i < j < |init| ensures init[i] != init[j] {
          assert init[i] == cs[i] && init[j] == cs[j];
        }
      }
      WeekSlotsDistinct(entries, init, date0);
      DaySlotsDistinct(entries, last, date0, 5);
      var a := WeekSlots(entries, init, date0);
      var b := DaySlots(entries, last, date0, 5);
      forall i, j | 0 <= i < |a| && 0 <= j < |b| ensures a[i] != b[j] {
        WeekSlotsMembers(entries, init, date0, a[i]);
        DaySlotsMembers(entries, last, date0, 5, b[j]);
        assert last !in init;
      }
      DistinctConcat(a, b);
    }
  }

  /** A slot of the first `w` weeks differs from every slot of week `w`. */
  lemma {:induction false} EarlierWeeksDiffer(entries: seq<Entry>, cs: seq<nat>, day0: int, w: nat, x: Slot, y: Slot)
    requires x in Slots(entries, cs, day0, w)
    requires y in WeekSlots(entries, cs, WeekStart(day0, w))
    ensures x != y
  {
    SlotsInRange(entries, cs, day0, w, x);
    WeekSlotsMembers(entries, cs, WeekStart(day0, w), y);
  }

  /** With each company listed once, no (company, date) is generated twice. */
  lemma {:induction false} SlotsDistinct(entries: seq<Entry>, cs: seq<nat>, day0: int, weeks: nat)
    requires Distinct(cs)
    ensures Distinct(Slots(entries, cs, day0, weeks))
    decreases weeks
  {
    if weeks > 0 {
      var w := weeks - 1;
      SlotsDistinct(entries, cs, day0, w);
      WeekSlotsDistinct(entries, cs, WeekStart(day0, w));
      var a := Slots(entries, cs, day0, w);
      var b := WeekSlots(entries, cs, WeekStart(day0, w));
      forall i, j | 0 <= i < |a| && 0 <= j < |b| ensures a[i] != b[j] {
        EarlierWeeksDiffer(entries, cs, day0, w, a[i], b[j]);
      }
      DistinctConcat(a, b);
    }
  }
}

=== FILE: company.dfy ===
/** Companies, their language-specific descriptions, links and aggregate rating
    (organisation/models.py). */
module Companies {
  import opened Wrappers
  import opened Orders

  /** A postal address row; `addressType` is "snailmail" or, from the registry import, "unknown". */
  datatype Address = Address(
    name: string, addressType: string,
    street: string, street2: string, street3: string,
    postbox: string, postalcode: string, city: string, subregion: string, country: string)

  /** One `CompanyDescription` row: the texts of one language. */
  datatype DescriptionRow = DescriptionRow(lang: string, shorttext: string, text: string, serviceHours: string)

  /** One `CompanyLink` row. */
  datatype Link = Link(linktype: string, otherDescription: string, url: string)

  /** `CompanyLink.TYPE_DICT`: the display label of each link type. */
  const LinkLabels: map<string, string> :=
    map["web" := "Homepage", "youtube" := "Youtube", "facebook" := "Facebook", "other" := "Other"]

  /** `CompanyLink.description`: the free text for an "other" link, otherwise the type's label,
      or the raw type when it has no label. */
  function LinkDescription(l: Link): (d: string)
    ensures l.linktype == "other" ==> d == l.otherDescription
    ensures l.linktype != "other" && l.linktype in LinkLabels ==> d == LinkLabels[l.linktype]
    ensures l.linktype !in LinkLabels ==> d == l.linktype
  {
    if l.linktype == "other" then l.otherDescription
    else if l.linktype in LinkLabels then LinkLabels[l.linktype]
    else l.linktype
  }

  /** The map `{row.lang: value(row) for row in rows if keep(row)}`; a later row wins. */
  function LangMap(rows: seq<DescriptionRow>, keep: DescriptionRow -> bool, value: DescriptionRow -> string): map<string, string>
  {
    if rows == [] then map[]
    else
      var last := rows[|rows| - 1];
      var m0 := LangMap(rows[..|rows| - 1], keep, value);
      if keep(last) then m0[last.lang := value(last)] else m0
  }

  /** Every kept row's language is a key, and every key maps to the value of a kept row of
      that language. */
  lemma {:induction false} LangMapDomain(rows: seq<DescriptionRow>, keep: DescriptionRow -> bool, value: DescriptionRow -> string)
    ensures forall d :: d in rows && keep(d) ==> d.lang in LangMap(rows, keep, value)
    ensures forall k :: k in LangMap(rows, keep, value) ==>
              exists d :: d in rows && keep(d) && d.lang == k && LangMap(rows, keep, value)[k] == value(d)
    decreases |rows|
  {
    if rows != [] {
      var last := rows[|rows| - 1];
      var init := rows[..|rows| - 1];
      var m0 := LangMap(init, keep, value);
      var m := LangMap(rows, keep, value);
      LangMapDomain(init, keep, value);
      assert forall d :: d in rows ==> d in init || d == last;
      forall k | k in m
        ensures exists d :: d in rows && keep(d) && d.lang == k && m[k] == value(d)
      {
        if keep(last) && k == last.lang {
          assert last in rows;
        } else {
          var d :| d in init && keep(d) && d.lang == k && m0[k] == value(d);
          assert d in rows;
        }
      }
    }
  }

  /** At most one row per language (the `unique_together` constraint). */
  predicate UniqueLangs(rows: seq<DescriptionRow>)
  {
    forall i, j :: 0 <= i < j < |rows| ==> rows[i].lang != rows[j].lang
  }

  /** With one row per language, a kept row's value is the one in the map. */
  lemma {:induction false} LangMapValue(rows: seq<DescriptionRow>, keep: DescriptionRow -> bool, value: DescriptionRow -> string, d: DescriptionRow)
    requires UniqueLangs(rows) && d in rows && keep(d)
    ensures d.lang in LangMap(rows, keep, value) && LangMap(rows, keep, value)[d.lang] == value(d)
    decreases |rows|
  {
    var last := rows[|rows| - 1];
    var init := rows[..|rows| - 1];
    if d != last {
      assert d in init by {
        var i :| 0 <= i < |rows| && rows[i] == d;
        assert i < |rows| - 1;
        assert init[i] == d;
      }
      assert UniqueLangs(init) by {
        forall i, j | 0 <= i < j < |init| ensures init[i].lang != init[j].lang {
          assert init[i] == rows[i] && init[j] == rows[j];
        }
      }
      LangMapValue(init, keep, value, d);
      assert d.lang != last.lang by {
        var i :| 0 <= i < |init| && init[i] == d;
        assert rows[i] == d;
      }
    }
  }

  /** `Company.description`: language to full text, for rows with a non-empty text. */
  function DescriptionOf(rows: seq<DescriptionRow>): (m: map<string, string>)
    ensures forall k :: k in m ==> exists d :: d in rows && d.text != "" && d.lang == k && m[k] == d.text
    ensures forall d :: d in rows && d.text != "" ==> d.lang in m
  {
    LangMapDomain(rows, (d: DescriptionRow) => d.text != "", (d: DescriptionRow) => d.text);
    LangMap(rows, (d: DescriptionRow) => d.text != "", (d: DescriptionRow) => d.text)
  }

  /** `Company.shortdescription`: language to short text, for rows whose FULL text is non-empty. */
  function ShortDescriptionOf(rows: seq<DescriptionRow>): (m: map<string, string>)
    ensures forall k :: k in m ==> exists d :: d in rows && d.text != "" && d.lang == k && m[k] == d.shorttext
    ensures forall d :: d in rows && d.text != "" ==> d.lang in m
  {
    LangMapDomain(rows, (d: DescriptionRow) => d.text != "", (d: DescriptionRow) => d.shorttext);
    LangMap(rows, (d: DescriptionRow) => d.text != "", (d: DescriptionRow) => d.shorttext)
  }

  /** `Company.service_hours`: language to service hours, for rows with non-empty hours. */
  function ServiceHoursOf(rows: seq<DescriptionRow>): (m: map<string, string>)
    ensures forall k :: k in m ==> exists d :: d in rows && d.serviceHours != "" && d.lang == k && m[k] == d.serviceHours
    ensures forall d :: d in rows && d.serviceHours != "" ==> d.lang in m
  {
    LangMapDomain(rows, (d: DescriptionRow) => d.serviceHours != "", (d: DescriptionRow) => d.serviceHours);
    LangMap(rows, (d: DescriptionRow) => d.serviceHours != "", (d: DescriptionRow) => d.serviceHours)
  }

  /** The short description follows the full text: a language whose only row has an empty text
      is absent even when its short text is set, and otherwise maps to that row's short text. */
  lemma {:induction false} ShortDescriptionKeyedByText(rows: seq<DescriptionRow>, d: DescriptionRow)
    requires UniqueLangs(rows) && d in rows
    ensures d.text == "" ==> d.lang !in ShortDescriptionOf(rows)
    ensures d.text != "" ==> d.lang in ShortDescriptionOf(rows) && ShortDescriptionOf(rows)[d.lang] == d.shorttext
  {
    if d.text != "" {
      LangMapValue(rows, (d: DescriptionRow) => d.text != "", (d: DescriptionRow) => d.shorttext, d);
    }
  }

  /** Sum of a sequence of ratings. */
  function Sum(s: seq<int>): int
  {
    if s == [] then 0 else Sum(s[..|s| - 1]) + s[|s| - 1]
  }

  /** `Company.rating`: hidden below two ratings, otherwise the unrounded mean. */
  function Rating(ratings: seq<int>): (r: Option<real>)
    ensures r.None? <==> |ratings| < 2
    ensures r.Some? ==> r.value * (|ratings| as real) == Sum(ratings) as real
  {
    if |ratings| >= 2 then Some(Sum(ratings) as real / |ratings| as real) else None
  }

  /** Bounds on every element bound the sum. */
  lemma {:induction false} SumBounds(s: seq<int>, lo: int, hi: int)
    requires forall i :: 0 <= i < |s| ==> lo <= s[i] <= hi
    ensures lo * |s| <= Sum(s) <= hi * |s|
    decreases |s|
  {
    if s != [] {
      var init := s[..|s| - 1];
      assert forall i :: 0 <= i < |init| ==> init[i] == s[i];
      SumBounds(init, lo, hi);
      var n := |init|;
      assert lo * |s| == lo * n + lo;
      assert hi * |s| == hi * n + hi;
    }
  }

  /** Dividing bounds by a positive count keeps them. */
  lemma {:induction false} ScaleBetween(r: real, n: real, lo: real, hi: real)
    requires n > 0.0 && lo * n <= r * n <= hi * n
    ensures lo <= r <= hi
  {
  }

  /** Integer bounds on a sum carry over to reals. */
  lemma {:induction false} BoundsAsReal(sum: int, n: nat, lo: int, hi: int)
    requires lo * n <= sum <= hi * n
    ensures lo as real * n as real <= sum as real <= hi as real * n as real
  {
    assert (lo * n) as real == lo as real * n as real;
    assert (hi * n) as real == hi as real * n as real;
  }

  /** When shown, the rating lies between the lowest and the highest individual rating. */
  lemma {:induction false} RatingBetween(ratings: seq<int>, lo: int, hi: int)
    requires |ratings| >= 2
    requires forall i :: 0 <= i < |ratings| ==> lo <= ratings[i] <= hi
    ensures lo as real <= Rating(ratings).value <= hi as real
  {
    SumBounds(ratings, lo, hi);
    BoundsAsReal(Sum(ratings), |ratings|, lo, hi);
    ScaleBetween(Rating(ratings).value, |ratings| as real, lo as real, hi as real);
  }

  /** Ratings that passed the 1..5 validators give a company rating within 1..5. */
  lemma {:induction false} RatingInRange(ratings: seq<int>)
    requires |ratings| >= 2
    requires forall i :: 0 <= i < |ratings| ==> MinRating <= ratings[i] <= MaxRating
    ensures 1.0 <= Rating(ratings).value <= 5.0
  {
    RatingBetween(ratings, MinRating, MaxRating);
  }

  /** One rating hides the aggregate; two fives give 5.0; 5 and 3 give 4.0; 1, 5, 5 give 11/3. */
  lemma {:induction false} RatingExamples()
    ensures Rating([5]) == None
    ensures Rating([5, 5]) == Some(5.0)
    ensures Rating([5, 3]) == Some(4.0)
    ensures Rating([1, 5, 5]) == Some(11.0 / 3.0)
  {
    assert Sum([5, 5]) == 10 by { assert [5, 5][..1] == [5]; assert [5][..0] == []; }
    assert Sum([5, 3]) == 8 by { assert [5, 3][..1] == [5]; assert [5][..0] == []; }
    assert Sum([1, 5, 5]) == 11 by { assert [1, 5, 5][..2] == [1, 5]; assert [1, 5][..1] == [1]; assert [1][..0] == []; }
  }

  /** The ratings of company `companyId`: every order of that company with a non-null rating. */
  function RatingsOf(orders: seq<Order>, companyId: nat): (r: seq<int>)
    reads set o | o in orders
    ensures |r| <= |orders|
    ensures forall v :: v in r ==> exists o :: o in orders && o.companyId == companyId && o.rating == Some(v)
    ensures forall o :: o in orders && o.companyId == companyId && o.rating.Some? ==> o.rating.value in r
  {
    if orders == [] then []
    else
      var o := orders[|orders| - 1];
      var rest := RatingsOf(orders[..|orders| - 1], companyId);
      assert forall p :: p in orders ==> p in orders[..|orders| - 1] || p == o;
      if o.companyId == companyId && o.rating.Some? then rest + [o.rating.value] else rest
  }

  /** The positions of company `companyId`'s orders rated `v`. */
  ghost function RatedPositions(orders: seq<Order>, companyId: nat, v: int): set<nat>
    reads set o | o in orders
  {
    set i: nat | i < |orders| && orders[i].companyId == companyId && orders[i].rating == Some(v)
  }

  /** Adding an order adds its position when it is one of them. */
  lemma {:induction false} RatedPositionsSnoc(orders: seq<Order>, companyId: nat, v: int)
    requires orders != []
    ensures var n := |orders| - 1;
            RatedPositions(orders, companyId, v) ==
              RatedPositions(orders[..n], companyId, v) +
              (if orders[n].companyId == companyId && orders[n].rating == Some(v) then {n} else {})
  {
    var n := |orders| - 1;
    assert forall i :: 0 <= i < n ==> orders[..n][i] == orders[i];
  }

  /** Each rating value occurs in the ratings as often as the company has orders rated so. */
  lemma {:induction false} RatingsOfCounts(orders: seq<Order>, companyId: nat, v: int)
    ensures multiset(RatingsOf(orders, companyId))[v] == |RatedPositions(orders, companyId, v)|
    decreases |orders|
  {
    if orders != [] {
      var n := |orders| - 1;
      RatingsOfCounts(orders[..n], companyId, v);
      RatedPositionsSnoc(orders, companyId, v);
      assert n !in RatedPositions(orders[..n], companyId, v);
    }
  }

  /** Orders that keep the rating invariant give ratings within 1..5. */
  lemma {:induction false} RatingsOfInRange(orders: seq<Order>, companyId: nat)
    requires forall o :: o in orders ==> o.Valid()
    ensures forall i :: 0 <= i < |RatingsOf(orders, companyId)| ==>
              MinRating <= RatingsOf(orders, companyId)[i] <= MaxRating
  {
    var r := RatingsOf(orders, companyId);
    forall i | 0 <= i < |r| ensures MinRating <= r[i] <= MaxRating {
      assert r[i] in r;
    }
  }

  /** `CompanyRating.rating`: optional; when given it passes the 1..5 validators. */
  function ValidateCompanyRating(rating: Option<int>): (r: Result<Option<int>, string>)
    ensures r.Ok? <==> rating.None? || MinRating <= rating.value <= MaxRating
    ensures r.Ok? ==> r.value == rating
  {
    match rating
    case None => Ok(None)
    case Some(v) =>
      match ValidateRating(v)
      case Ok(_) => Ok(rating)
      case Err(e) => Err(e)
  }

  class Company {
    const id: nat
    const businessid: string
    var name: string
    var serviceAreas: seq<string>
    /** The ids of the service packages the company offers. */
    var offeredServices: set<nat>
    /** Hourly prices in cents. */
    var pricePerHour: Option<int>
    var pricePerHourContinuing: Option<int>
    var psop: bool
    var phone: string
    var email: string
    var active: bool
    var addresses: seq<Address>
    /** The stored description rows of this company. */
    var descriptions: seq<DescriptionRow>
    var links: seq<Link>
    /** The registry code of the linked `YTRCompany`, if one exists. */
    var ytrCode: Option<string>
    /** Set on a company the registry import created rather than found. */
    var isNew: bool
    /** `_description_set` and `_rating_set`: per-instance caches filled on first use. */
    var descriptionCache: Option<seq<DescriptionRow>>
    var ratingCache: Option<seq<int>>

    /** A company as the registry import creates it: no service areas and no prices. */
    constructor (id: nat, businessid: string)
      ensures this.id == id && this.businessid == businessid
      ensures name == "" && serviceAreas == [] && offeredServices == {} && pricePerHour == None && pricePerHourContinuing == None
      ensures !psop && phone == "" && email == "" && active
      ensures addresses == [] && descriptions == [] && links == [] && ytrCode == None && !isNew
      ensures descriptionCache == None && ratingCache == None
    {
      this.id := id;
      this.businessid := businessid;
      name := "";
      serviceAreas := [];
      offeredServices := {};
      pricePerHour := None;
      pricePerHourContinuing := None;
      psop := false;
      phone := "";
      email := "";
      active := true;
      addresses := [];
      descriptions := [];
      links := [];
      ytrCode := None;
      isNew := false;
      descriptionCache := None;
      ratingCache := None;
    }

    /** `has_ytr`: whether a registry extension is attached. */
    predicate HasYtr()
      reads this
    {
      ytrCode.Some?
    }

    /** `get_descriptions`: the rows as they were on first use; later calls reuse them. */
    method GetDescriptions() returns (rows: seq<DescriptionRow>)
      modifies this`descriptionCache
      ensures old(descriptionCache).Some? ==> rows == old(descriptionCache).value
      ensures old(descriptionCache).None? ==> rows == descriptions
      ensures descriptionCache == Some(rows)
    {
      if descriptionCache.None? {
        descriptionCache := Some(descriptions);
      }
      rows := descriptionCache.value;
    }

    /** `get_ratings`: the non-null ratings of this company's orders, read on first use. */
    method GetRatings(orders: seq<Order>) returns (ratings: seq<int>)
      modifies this`ratingCache
      ensures old(ratingCache).Some? ==> ratings == old(ratingCache).value
      ensures old(ratingCache).None? ==> ratings == RatingsOf(orders, id)
      ensures ratingCache == Some(ratings)
    {
      if ratingCache.None? {
        ratingCache := Some(RatingsOf(orders, id));
      }
      ratings := ratingCache.value;
    }

    /** The `rating` property: the aggregate over the cached ratings. */
    method GetRating(orders: seq<Order>) returns (r: Option<real>)
      modifies this`ratingCache
      ensures ratingCache.Some? && r == Rating(ratingCache.value)
      ensures old(ratingCache).None? ==> ratingCache == Some(RatingsOf(orders, id))
      ensures old(ratingCache).Some? ==> ratingCache == old(ratingCache)
    {
      var ratings := GetRatings(orders);
      r := Rating(ratings);
    }

    /** The `description`, `shortdescription` and `service_hours` properties, all over the
        cached rows. */
    method DescriptionMaps() returns (description: map<string, string>, short: map<string, string>, hours: map<string, string>)
      modifies this`descriptionCache
      ensures descriptionCache.Some?
      ensures old(descriptionCache).Some? ==> descriptionCache == old(descriptionCache)
      ensures old(descriptionCache).None? ==> descriptionCache == Some(descriptions)
      ensures description == DescriptionOf(descriptionCache.value)
      ensures short == ShortDescriptionOf(descriptionCache.value)
      ensures hours == ServiceHoursOf(descriptionCache.value)
    {
      var rows := GetDescriptions();
      description := DescriptionOf(rows);
      short := ShortDescriptionOf(rows);
      hours := ServiceHoursOf(rows);
    }
  }

  /** The memoised rating does not follow later rating changes: two reads on one instance
      agree even when the orders were rated in between. */
  method RatingIsMemoised(c: Company, before: seq<Order>, after: seq<Order>) returns (r1: Option<real>, r2: Option<real>)
    modifies c`ratingCache
    ensures r1 == r2
    ensures old(c.ratingCache).None? ==> r1 == Rating(RatingsOf(before, c.id))
  {
    r1 := c.GetRating(before);
    r2 := c.GetRating(after);
  }
}

=== FILE: company_update.dfy ===
/** The company update merge of the company serializer (organisation/serializers.py). */
module CompanyUpdate {
  import opened Wrappers
  import opened Companies

  /** A link as the client sends it; `description` may be absent. */
  datatype LinkInput = LinkInput(linktype: string, description: Option<string>, url: string)

  /** The validated update payload. Plain fields are set when present; an absent address or
      link list leaves those rows alone; an absent description map counts as empty. */
  datatype CompanyPatch = CompanyPatch(
    name: Option<string>,
    serviceAreas: Option<seq<string>>,
    offeredServices: Option<set<nat>>,
    pricePerHour: Option<Option<int>>,
    pricePerHourContinuing: Option<Option<int>>,
    psop: Option<bool>,
    phone: Option<string>,
    email: Option<string>,
    addresses: Option<seq<Address>>,
    description: Option<map<string, string>>,
    shortdescription: Option<map<string, string>>,
    serviceHours: Option<map<string, string>>,
    links: Option<seq<LinkInput>>)

  /** `dict.get(key, '')`. */
  function Text(m: map<string, string>, key: string): string
  {
    if key in m then m[key] else ""
  }

  /** The row written for one language: each column from its own map, '' where it is missing. */
  function RowFor(description: map<string, string>, short: map<string, string>, hours: map<string, string>, lang: string): DescriptionRow
  {
    DescriptionRow(lang, Text(short, lang), Text(description, lang), Text(hours, lang))
  }

  /** The languages named by any of the three maps. */
  function Languages(description: map<string, string>, short: map<string, string>, hours: map<string, string>): set<string>
  {
    description.Keys + short.Keys + hours.Keys
  }

  /** Exactly one row per language of the union, each row built by `RowFor`. */
  predicate RowsFor(rows: seq<DescriptionRow>, description: map<string, string>, short: map<string, string>, hours: map<string, string>)
  {
    && UniqueLangs(rows)
    && (forall d :: d in rows ==> d.lang in Languages(description, short, hours) && d == RowFor(description, short, hours, d.lang))
    && (forall lang :: lang in Languages(description, short, hours) ==> exists d :: d in rows && d.lang == lang)
  }

  /** The bulk-created description rows, one per language of the key union (in no fixed order). */
  method BuildDescriptions(description: map<string, string>, short: map<string, string>, hours: map<string, string>)
    returns (rows: seq<DescriptionRow>)
    ensures RowsFor(rows, description, short, hours)
    ensures |rows| == |Languages(description, short, hours)|
  {
    var langs := Languages(description, short, hours);
    var todo := langs;
    rows := [];
    while todo != {}
      invariant todo <= langs
      invariant UniqueLangs(rows)
      invariant forall i :: 0 <= i < |rows| ==> rows[i].lang in langs && rows[i].lang !in todo
      invariant forall i :: 0 <= i < |rows| ==> rows[i] == RowFor(description, short, hours, rows[i].lang)
      invariant forall lang :: lang in langs && lang !in todo ==> exists i :: 0 <= i < |rows| && rows[i].lang == lang
      invariant |rows| + |todo| == |langs|
      decreases |todo|
    {
      var lang :| lang in todo;
      var rows', todo' := rows + [RowFor(description, short, hours, lang)], todo - {lang};
      AppendRow(rows, todo, rows', todo', langs, description, short, hours, lang);
      rows, todo := rows', todo';
    }
    forall d | d in rows ensures d.lang in langs && d == RowFor(description, short, hours, d.lang) {
      var i :| 0 <= i < |rows| && rows[i] == d;
    }
  }

  /** One step of the row-building loop: the row for `lang` joins, `lang` leaves the work list. */
  lemma {:induction false} AppendRow(rows: seq<DescriptionRow>, todo: set<string>, rows': seq<DescriptionRow>, todo': set<string>, langs: set<string>,
                  description: map<string, string>, short: map<string, string>, hours: map<string, string>, lang: string)
    requires rows' == rows + [RowFor(description, short, hours, lang)] && todo' == todo - {lang}
    requires lang in todo && todo <= langs && UniqueLangs(rows)
    requires forall i :: 0 <= i < |rows| ==> rows[i].lang in langs && rows[i].lang !in todo
    requires forall i :: 0 <= i < |rows| ==> rows[i] == RowFor(description, short, hours, rows[i].lang)
    requires forall l :: l in langs && l !in todo ==> exists i :: 0 <= i < |rows| && rows[i].lang == l
    requires |rows| + |todo| == |langs|
    ensures todo' <= langs && UniqueLangs(rows')
    ensures forall i :: 0 <= i < |rows'| ==> rows'[i].lang in langs && rows'[i].lang !in todo'
    ensures forall i :: 0 <= i < |rows'| ==> rows'[i] == RowFor(description, short, hours, rows'[i].lang)
    ensures forall l :: l in langs && l !in todo' ==> exists i :: 0 <= i < |rows'| && rows'[i].lang == l
    ensures |rows'| + |todo'| == |langs|
  {
    assert rows'[|rows|].lang == lang;
    forall l | l in langs && l !in todo' ensures exists i :: 0 <= i < |rows'| && rows'[i].lang == l {
      if l != lang {
        var i :| 0 <= i < |rows| && rows[i].lang == l;
        assert rows'[i].lang == l;
      }
    }
  }

  /** The link row stored for one input link: the description is kept only for "other". */
  function StoredLink(l: LinkInput): Link
  {
    Link(l.linktype, if l.linktype == "other" then l.description.GetOr("") else "", l.url)
  }

  /** The stored links: the inputs with a non-empty url, in order. */
  function StoredLinks(links: seq<LinkInput>): (r: seq<Link>)
    ensures |r| <= |links|
    ensures forall l :: l in r ==> l.url != "" && exists i :: i in links && l == StoredLink(i)
    ensures forall i :: i in links && i.url != "" ==> StoredLink(i) in r
  {
    if links == [] then []
    else
      var rest := StoredLinks(links[1..]);
      assert forall i :: i in links ==> i == links[0] || i in links[1..];
      if links[0].url != "" then [StoredLink(links[0])] + rest else rest
  }

  /** Storing is one row per input, in input order: the links of a concatenation are the
      concatenation of the links. */
  lemma {:induction false} StoredLinksAppend(a: seq<LinkInput>, b: seq<LinkInput>)
    ensures StoredLinks(a + b) == StoredLinks(a) + StoredLinks(b)
    decreases |a|
  {
    if a != [] {
      assert (a + b)[1..] == a[1..] + b;
      StoredLinksAppend(a[1..], b);
    } else {
      assert a + b == b;
    }
  }

  /** A link submitted twice is stored twice: nothing is deduplicated. */
  lemma {:induction false} StoredLinksKeepDuplicates(i: LinkInput)
    requires i.url != ""
    ensures StoredLinks([i, i]) == [StoredLink(i), StoredLink(i)]
  {
    StoredLinksAppend([i], [i]);
    assert [i] + [i] == [i, i];
    assert [i][1..] == [];
  }

  /** A stored link shows the supplied description when it is an "other" link, and its
      type's label otherwise. */
  lemma {:induction false} StoredLinkDescription(i: LinkInput)
    ensures i.linktype == "other" ==> LinkDescription(StoredLink(i)) == i.description.GetOr("")
    ensures i.linktype != "other" && i.linktype in LinkLabels ==> LinkDescription(StoredLink(i)) == LinkLabels[i.linktype]
  {
  }

  /** Read back through any of the three properties, the rebuilt rows show a language exactly
      when the row built for it is kept, with that row's value. */
  lemma {:induction false} LangMapOfRows(rows: seq<DescriptionRow>, description: map<string, string>, short: map<string, string>, hours: map<string, string>,
                      keep: DescriptionRow -> bool, value: DescriptionRow -> string, k: string)
    requires RowsFor(rows, description, short, hours)
    ensures k in LangMap(rows, keep, value) <==> k in Languages(description, short, hours) && keep(RowFor(description, short, hours, k))
    ensures k in LangMap(rows, keep, value) ==> LangMap(rows, keep, value)[k] == value(RowFor(description, short, hours, k))
  {
    var m := LangMap(rows, keep, value);
    LangMapDomain(rows, keep, value);
    if k in m {
      var d :| d in rows && keep(d) && d.lang == k && m[k] == value(d);
      assert d == RowFor(description, short, hours, k);
    }
    if k in Languages(description, short, hours) && keep(RowFor(description, short, hours, k)) {
      var d :| d in rows && d.lang == k;
      assert d == RowFor(description, short, hours, k);
      LangMapValue(rows, keep, value, d);
    }
  }

  /** Read back through the `description` property, the rebuilt rows give exactly the
      supplied non-empty full texts. */
  lemma {:induction false} DescriptionRoundTrip(rows: seq<DescriptionRow>, description: map<string, string>, short: map<string, string>, hours: map<string, string>)
    requires RowsFor(rows, description, short, hours)
    ensures forall k :: k in DescriptionOf(rows) <==> k in description && description[k] != ""
    ensures forall k :: k in DescriptionOf(rows) ==> DescriptionOf(rows)[k] == description[k]
  {
    forall k ensures k in DescriptionOf(rows) <==> k in description && description[k] != ""
      ensures k in DescriptionOf(rows) ==> DescriptionOf(rows)[k] == description[k]
    {
      LangMapOfRows(rows, description, short, hours, (d: DescriptionRow) => d.text != "", (d: DescriptionRow) => d.text, k);
    }
  }

  /** Read back through `service_hours`, the rebuilt rows give exactly the supplied non-empty
      hours. */
  lemma {:induction false} ServiceHoursRoundTrip(rows: seq<DescriptionRow>, description: map<string, string>, short: map<string, string>, hours: map<string, string>)
    requires RowsFor(rows, description, short, hours)
    ensures forall k :: k in ServiceHoursOf(rows) <==> k in hours && hours[k] != ""
    ensures forall k :: k in ServiceHoursOf(rows) ==> ServiceHoursOf(rows)[k] == hours[k]
  {
    forall k ensures k in ServiceHoursOf(rows) <==> k in hours && hours[k] != ""
      ensures k in ServiceHoursOf(rows) ==> ServiceHoursOf(rows)[k] == hours[k]
    {
      LangMapOfRows(rows, description, short, hours, (d: DescriptionRow) => d.serviceHours != "", (d: DescriptionRow) => d.serviceHours, k);
    }
  }

  /** Read back through `shortdescription`, a short text survives only for a language that also
      has a non-empty full text; one supplied alone is stored but never shown. */
  lemma {:induction false} ShortDescriptionRoundTrip(rows: seq<DescriptionRow>, description: map<string, string>, short: map<string, string>, hours: map<string, string>)
    requires RowsFor(rows, description, short, hours)
    ensures forall k :: k in ShortDescriptionOf(rows) <==> k in description && description[k] != ""
    ensures forall k :: k in ShortDescriptionOf(rows) ==> ShortDescriptionOf(rows)[k] == Text(short, k)
  {
    forall k ensures k in ShortDescriptionOf(rows) <==> k in description && description[k] != ""
      ensures k in ShortDescriptionOf(rows) ==> ShortDescriptionOf(rows)[k] == Text(short, k)
    {
      LangMapOfRows(rows, description, short, hours, (d: DescriptionRow) => d.text != "", (d: DescriptionRow) => d.shorttext, k);
    }
  }

  /** The first half of `CompanySerializer.update`: the plain fields present in the payload,
      including the set of offered service packages, which is replaced as a whole. */
  method UpdateFields(c: Company, p: CompanyPatch)
    modifies c`name, c`serviceAreas, c`offeredServices, c`pricePerHour, c`pricePerHourContinuing, c`psop, c`phone, c`email
    ensures c.name == p.name.GetOr(old(c.name))
    ensures c.serviceAreas == p.serviceAreas.GetOr(old(c.serviceAreas))
    ensures c.offeredServices == p.offeredServices.GetOr(old(c.offeredServices))
    ensures c.pricePerHour == p.pricePerHour.GetOr(old(c.pricePerHour))
    ensures c.pricePerHourContinuing == p.pricePerHourContinuing.GetOr(old(c.pricePerHourContinuing))
    ensures c.psop == p.psop.GetOr(old(c.psop))
    ensures c.phone == p.phone.GetOr(old(c.phone))
    ensures c.email == p.email.GetOr(old(c.email))
  {
    c.name := p.name.GetOr(c.name);
    c.serviceAreas := p.serviceAreas.GetOr(c.serviceAreas);
    c.offeredServices := p.offeredServices.GetOr(c.offeredServices);
    c.pricePerHour := p.pricePerHour.GetOr(c.pricePerHour);
    c.pricePerHourContinuing := p.pricePerHourContinuing.GetOr(c.pricePerHourContinuing);
    c.psop := p.psop.GetOr(c.psop);
    c.phone := p.phone.GetOr(c.phone);
    c.email := p.email.GetOr(c.email);
  }

  /** The second half: addresses when supplied, then all description rows rebuilt, then links
      when supplied. */
  method UpdateRelated(c: Company, p: CompanyPatch)
    modifies c`addresses, c`descriptions, c`links
    ensures c.addresses == p.addresses.GetOr(old(c.addresses))
    ensures RowsFor(c.descriptions, p.description.GetOr(map[]), p.shortdescription.GetOr(map[]), p.serviceHours.GetOr(map[]))
    ensures p.description.None? && p.shortdescription.None? && p.serviceHours.None? ==> c.descriptions == []
    ensures c.links == if p.links.Some? then StoredLinks(p.links.value) else old(c.links)
  {
    var rows := BuildDescriptions(p.description.GetOr(map[]), p.shortdescription.GetOr(map[]), p.serviceHours.GetOr(map[]));
    if p.addresses.Some? {
      c.addresses := p.addresses.value;
    }
    c.descriptions := rows;
    if p.links.Some? {
      c.links := StoredLinks(p.links.value);
    }
  }

  /** `CompanySerializer.update`: plain fields, then addresses when supplied, then all
      description rows rebuilt, then links when supplied. */
  method Update(c: Company, p: CompanyPatch)
    modifies c`name, c`serviceAreas, c`offeredServices, c`pricePerHour, c`pricePerHourContinuing, c`psop, c`phone, c`email
    modifies c`addresses, c`descriptions, c`links
    ensures c.name == p.name.GetOr(old(c.name))
    ensures c.serviceAreas == p.serviceAreas.GetOr(old(c.serviceAreas))
    ensures c.offeredServices == p.offeredServices.GetOr(old(c.offeredServices))
    ensures c.pricePerHour == p.pricePerHour.GetOr(old(c.pricePerHour))
    ensures c.pricePerHourContinuing == p.pricePerHourContinuing.GetOr(old(c.pricePerHourContinuing))
    ensures c.psop == p.psop.GetOr(old(c.psop))
    ensures c.phone == p.phone.GetOr(old(c.phone))
    ensures c.email == p.email.GetOr(old(c.email))
    ensures c.addresses == p.addresses.GetOr(old(c.addresses))
    ensures RowsFor(c.descriptions, p.description.GetOr(map[]), p.shortdescription.GetOr(map[]), p.serviceHours.GetOr(map[]))
    ensures p.description.None? && p.shortdescription.None? && p.serviceHours.None? ==> c.descriptions == []
    ensures c.links == if p.links.Some? then StoredLinks(p.links.value) else old(c.links)
  {
    UpdateFields(c, p);
    UpdateRelated(c, p);
  }
}

=== FILE: company_views.dfy ===
/** Company, company-rating, picture and company-user endpoints (organisation/viewsets.py). */
module CompanyViews {
  import opened Wrappers
  import opened Text
  import opened Query
  import opened Requests
  import opened Users
  import opened Orders
  import opened Companies

  const NotMember := "Not a member of this company"

  /** `CompanyViewSet.get_queryset` without a search term: the active companies, in order. */
  function ActiveCompanies(companies: seq<Company>): (r: seq<Company>)
    reads set c | c in companies
    ensures forall c :: c in r ==> c in companies && c.active
    ensures forall c :: c in companies && c.active ==> c in r
  {
    if companies == [] then []
    else
      var rest := ActiveCompanies(companies[1..]);
      assert forall c :: c in companies ==> c == companies[0] || c in companies[1..];
      if companies[0].active then [companies[0]] + rest else rest
  }

  /** `CompanyViewSet.get_object`: reads are open; a write needs membership of the company or
      superuser status. The anonymous user has no company attribute, so its write fails with a
      server error before any denial. */
  function CompanyObjectCheck(req: Requester, m: Method, companyId: nat): (v: Verdict)
    ensures v == Allow <==> IsSafe(m) || (req.Authenticated? && (req.user.companyId == Some(companyId) || req.user.isSuperuser))
    ensures v == Fault <==> !IsSafe(m) && req.Anonymous?
    ensures v.Deny? ==> v.message == NotMember
  {
    if IsSafe(m) then Allow
    else if req.Anonymous? then Fault
    else if req.user.companyId != Some(companyId) && !req.user.isSuperuser then Deny(NotMember)
    else Allow
  }

  /** Staff status alone does not open another company for writing. */
  lemma {:induction false} CompanyStaffNeedsMembership(p: Principal, m: Method, companyId: nat)
    requires !IsSafe(m) && p.isStaff && !p.isSuperuser && p.companyId != Some(companyId)
    ensures CompanyObjectCheck(Authenticated(p), m, companyId) == Deny(NotMember)
  {
  }

  /** A stored `CompanyRating`. */
  datatype CompanyRatingRow = CompanyRatingRow(id: nat, companyId: nat, userId: Option<nat>, message: string, rating: Option<int>)

  /** `CompanyRatingViewSet.get_queryset`: ratings of active companies written by the requester;
      none for the anonymous user, and no staff exception. */
  function VisibleRatings(rows: seq<CompanyRatingRow>, activeCompanies: set<nat>, req: Requester): (r: seq<CompanyRatingRow>)
    ensures req.Anonymous? ==> r == []
    ensures forall x :: x in r ==> x in rows && x.companyId in activeCompanies && req.Authenticated? && x.userId == Some(req.user.id)
    ensures req.Authenticated? ==>
              forall x :: x in rows && x.companyId in activeCompanies && x.userId == Some(req.user.id) ==> x in r
  {
    Filter(rows, (x: CompanyRatingRow) => x.companyId in activeCompanies && req.Authenticated? && x.userId == Some(req.user.id))
  }

  /** The writable fields of a new company rating; the `user` field is read-only. */
  datatype RatingInput = RatingInput(companyId: nat, message: string, rating: Option<int>)

  /** `CompanyRatingViewSet.perform_create` after validation: an authenticated author is
      recorded, an anonymous rating has no user. */
  function CreateCompanyRating(req: Requester, id: nat, input: RatingInput): (r: Result<CompanyRatingRow, string>)
    ensures r.Ok? <==> input.rating.None? || MinRating <= input.rating.value <= MaxRating
    ensures r.Ok? ==> r.value.userId == (if req.Authenticated? then Some(req.user.id) else None)
    ensures r.Ok? ==> r.value.id == id && r.value.companyId == input.companyId
    ensures r.Ok? ==> r.value.message == input.message && r.value.rating == input.rating
  {
    match ValidateCompanyRating(input.rating)
    case Err(e) => Err(e)
    case Ok(rating) =>
      var author := if req.Authenticated? then Some(req.user.id) else None;
      Ok(CompanyRatingRow(id, input.companyId, author, input.message, rating))
  }

  /** An authenticated user's rating shows up in that user's own listing (its company active). */
  lemma {:induction false} OwnRatingIsListed(p: Principal, id: nat, input: RatingInput, rows: seq<CompanyRatingRow>, activeCompanies: set<nat>)
    requires CreateCompanyRating(Authenticated(p), id, input).Ok?
    requires input.companyId in activeCompanies
    ensures CreateCompanyRating(Authenticated(p), id, input).value in
              VisibleRatings(rows + [CreateCompanyRating(Authenticated(p), id, input).value], activeCompanies, Authenticated(p))
  {
    var x := CreateCompanyRating(Authenticated(p), id, input).value;
    assert x in rows + [x];
  }

  /** A company picture. */
  datatype Picture = Picture(id: nat, companyId: nat, title: string, num: int)

  /** `CompanyPictureViewSet.get_queryset`: the pictures of the URL's company, if it is active.
      A non-numeric `companyPk` makes the filter's integer conversion raise, answered 500. */
  function CompanyPictures(pictures: seq<Picture>, companyPk: string, activeCompanies: set<nat>): (r: Result<seq<Picture>, Status>)
    ensures r.Err? <==> ParseNat(companyPk).None?
    ensures r.Err? ==> r.error == ServerError500
    ensures r.Ok? && ParseNat(companyPk).value !in activeCompanies ==> r.value == []
    ensures r.Ok? ==> forall x :: x in r.value ==> x in pictures && Some(x.companyId) == ParseNat(companyPk)
    ensures r.Ok? && ParseNat(companyPk).value in activeCompanies ==>
              forall x :: x in pictures && Some(x.companyId) == ParseNat(companyPk) ==> x in r.value
  {
    match ParseNat(companyPk)
    case None => Err(ServerError500)
    case Some(c) => Ok(Filter(pictures, (x: Picture) => x.companyId == c && c in activeCompanies))
  }

  /** `CompanyPictureViewSet.get_object`: a write needs membership of the picture's company,
      with no staff or superuser exception. */
  function PictureObjectCheck(req: Requester, m: Method, pic: Picture): (v: Verdict)
    ensures v == Allow <==> IsSafe(m) || (req.Authenticated? && req.user.companyId == Some(pic.companyId))
    ensures v == Fault <==> !IsSafe(m) && req.Anonymous?
    ensures v.Deny? ==> v.message == NotMember
  {
    if IsSafe(m) then Allow
    else if req.Anonymous? then Fault
    else if req.user.companyId != Some(pic.companyId) then Deny(NotMember)
    else Allow
  }

  /** Even a superuser is refused writes to another company's pictures. */
  lemma {:induction false} PictureNoSuperuserBypass(p: Principal, m: Method, pic: Picture)
    requires !IsSafe(m) && p.isSuperuser && p.isStaff && p.companyId != Some(pic.companyId)
    ensures PictureObjectCheck(Authenticated(p), m, pic) == Deny(NotMember)
  {
  }

  /** `CompanyPictureViewSet.create`: the requester's company must be `int(company_pk)`; a
      non-numeric argument or the anonymous user raises. */
  function PictureCreateCheck(req: Requester, companyPk: string): (v: Verdict)
    ensures v == Allow <==> req.Authenticated? && ParseNat(companyPk).Some? && req.user.companyId == ParseNat(companyPk)
    ensures v == Fault <==> req.Anonymous? || ParseNat(companyPk).None?
    ensures v.Deny? ==> v.message == NotMember
  {
    if req.Anonymous? then Fault
    else match ParseNat(companyPk)
      case None => Fault
      case Some(c) => if req.user.companyId != Some(c) then Deny(NotMember) else Allow
  }

  /** A member of company `c` may add a picture exactly under `c`'s own URL. */
  lemma {:induction false} PictureCreateOwnCompany(p: Principal, c: nat)
    requires p.companyId == Some(c)
    ensures PictureCreateCheck(Authenticated(p), NatToString(c)) == Allow
  {
    ParseNatToString(c);
  }

  /** `CompanyUserViewSet.get_queryset`: users of the URL's company, if it is active. A
      non-numeric `companyPk` makes the filter's integer conversion raise, answered 500. */
  function CompanyUsers(users: seq<User>, companyPk: string, activeCompanies: set<nat>): (r: Result<seq<User>, Status>)
    ensures r.Err? <==> ParseNat(companyPk).None?
    ensures r.Err? ==> r.error == ServerError500
    ensures r.Ok? && ParseNat(companyPk).value !in activeCompanies ==> r.value == []
    ensures r.Ok? ==> forall u :: u in r.value ==> u in users && u.companyId == ParseNat(companyPk)
    ensures r.Ok? && ParseNat(companyPk).value in activeCompanies ==>
              forall u :: u in users && u.companyId == ParseNat(companyPk) ==> u in r.value
  {
    match ParseNat(companyPk)
    case None => Err(ServerError500)
    case Some(c) => Ok(Filter(users, (u: User) => u.companyId == Some(c) && c in activeCompanies))
  }
}

=== FILE: dump_demo.dfy ===
/** The option, exclusion and model-selection rules of the demo dump command
    (demodump/management/commands/dumpdemo.py). */
module DumpDemo {
  import opened Wrappers
  import opened Text

  /** How one "exclude" entry of the dump configuration is read. */
  datatype Exclusion = ExcludeApp(app: string) | ExcludeModel(app: string, model: string) | Unparseable

  const UnparseablePrefix := "Unparseable app/model exclude: "
  const NothingToDo := "Nothing to do!"

  /** Number of dots in an entry. */
  function Dots(x: string): nat {
    multiset(x)['.']
  }

  /** An entry with no dot names an app, one with a single dot splits into (app, model)
      around it (so "app.*" is the model "*" of "app"), and more dots cannot be split in two. */
  function Classify(x: string): (e: Exclusion)
    ensures e.ExcludeApp? ==> e.app == x
    ensures e.ExcludeModel? ==> x == e.app + "." + e.model && '.' !in e.app && '.' !in e.model
  {
    if '.' !in x then ExcludeApp(x)
    else
      var i := IndexOf(x, '.');
      assert x == x[..i] + [x[i]] + x[i + 1..];
      if '.' in x[i + 1..] then Unparseable
      else ExcludeModel(x[..i], x[i + 1..])
  }

  /** Which way an entry is read depends only on how many dots it has. */
  lemma {:induction false} ClassifyByDots(x: string)
    ensures Classify(x).ExcludeApp? <==> Dots(x) == 0
    ensures Classify(x).ExcludeModel? <==> Dots(x) == 1
    ensures Classify(x).Unparseable? <==> Dots(x) >= 2
  {
    if '.' in x {
      var i := IndexOf(x, '.');
      assert x == x[..i] + [x[i]] + x[i + 1..];
      assert multiset(x) == multiset(x[..i]) + multiset{'.'} + multiset(x[i + 1..]);
      if '.' in x[i + 1..] {
        assert multiset(x[i + 1..])['.'] >= 1;
      }
    }
  }

  /** In app + "." + model with a dot-free app, the first dot sits right after the app. */
  lemma {:induction false} FirstDotAt(a: string, m: string)
    requires '.' !in a
    ensures (a + "." + m)[|a|] == '.'
    ensures forall k :: 0 <= k < |a| ==> (a + "." + m)[k] != '.'
  {
  }

  /** `Classify` on an entry written as app + "." + model. */
  lemma {:induction false} ClassifyJoined(a: string, m: string)
    requires '.' !in a && '.' !in m
    ensures Classify(a + "." + m) == ExcludeModel(a, m)
  {
    var x := a + "." + m;
    FirstDotAt(a, m);
    assert x[..|a|] == a && x[|a| + 1..] == m;
    assert IndexOf(x, '.') == |a|;
  }

  /** The documented "app.*" form excludes a model named "*", not the app. */
  lemma {:induction false} WildcardIsAModel()
    ensures Classify("app.*") == ExcludeModel("app", "*")
  {
    assert "app.*" == "app" + "." + "*";
    ClassifyJoined("app", "*");
  }

  /** The documented reading of an entry: "app.*" excludes the whole app; every other entry is
      read as `Classify` reads it. */
  function ClassifyDocumented(x: string): (e: Exclusion)
    ensures e.ExcludeApp? ==> x == e.app || x == e.app + ".*"
    ensures e.ExcludeModel? ==> x == e.app + "." + e.model && e.model != "*"
    ensures e.Unparseable? <==> Classify(x).Unparseable?
  {
    match Classify(x)
    case ExcludeModel(a, m) => if m == "*" then ExcludeApp(a) else ExcludeModel(a, m)
    case other => other
  }

  /** Under the documented reading, "a.*" excludes app `a`. */
  lemma {:induction false} WildcardExcludesApp(a: string)
    requires '.' !in a
    ensures ClassifyDocumented(a + ".*") == ExcludeApp(a)
  {
    assert a + ".*" == a + "." + "*";
    ClassifyJoined(a, "*");
  }

  /** As written, the entry "a.*" alone is read as the single pair (a, "*"). */
  lemma {:induction false} WildcardReadAsPair(a: string)
    requires '.' !in a
    ensures Exclusions([a + ".*"]) == Ok(({}, {(a, "*")}))
  {
    var entries := [a + ".*"];
    assert entries[0] == a + "." + "*";
    ClassifyJoined(a, "*");
    assert Classify(entries[0]) == ExcludeModel(a, "*");
    assert entries[..0] == [];
    assert Exclusions(entries[..0]) == Ok(({}, {}));
    var none: set<(string, string)> := {};
    assert none + {(a, "*")} == {(a, "*")};
    assert Exclusions(entries) == Ok(({}, none + {(a, "*")}));
  }

  /** As written, an "a.*" entry leaves every model of app `a` not literally named "*" in the
      dump. */
  lemma {:induction false} WildcardStillDumps(a: string, m: ModelInfo)
    requires '.' !in a && m.appLabel == a && m.name != "*" && !m.proxy && m.migrates
    ensures Exclusions([a + ".*"]) == Ok(({}, {(a, "*")}))
    ensures m in DumpedModels([AppConfig(a, true, [m])], {}, {(a, "*")})
  {
    WildcardReadAsPair(a);
    var apps := [AppConfig(a, true, [m])];
    assert m in apps[0].models;
  }

  /** An entry excludes app `a` exactly when it is `a` itself, without a dot. */
  lemma {:induction false} ExcludesApp(x: string, a: string)
    ensures Classify(x) == ExcludeApp(a) <==> x == a && '.' !in a
  {
  }

  /** An entry excludes model (a, m) exactly when it reads a + "." + m with dot-free parts. */
  lemma {:induction false} ExcludesModel(x: string, a: string, m: string)
    ensures Classify(x) == ExcludeModel(a, m) <==> x == a + "." + m && '.' !in a && '.' !in m
  {
    if x == a + "." + m && '.' !in a && '.' !in m {
      ClassifyJoined(a, m);
    }
  }

  /** The outcome of reading `entries` in order: the sets built so far, or the message of the
      first entry that cannot be split. */
  function Exclusions(entries: seq<string>): Result<(set<string>, set<(string, string)>), string>
  {
    if entries == [] then Ok(({}, {}))
    else
      var x := entries[|entries| - 1];
      match Exclusions(entries[..|entries| - 1])
      case Err(msg) => Err(msg)
      case Ok(sets) =>
        match Classify(x)
        case ExcludeApp(a) => Ok((sets.0 + {a}, sets.1))
        case ExcludeModel(a, m) => Ok((sets.0, sets.1 + {(a, m)}))
        case Unparseable => Err(UnparseablePrefix + x)
  }

  /** An entry with two or more dots makes the whole reading fail. */
  lemma {:induction false} ExclusionsFailAt(entries: seq<string>, k: nat)
    requires k < |entries| && Classify(entries[k]).Unparseable?
    ensures Exclusions(entries).Err?
    decreases |entries|
  {
    var n := |entries| - 1;
    if k < n {
      var init := entries[..n];
      assert init[k] == entries[k];
      ExclusionsFailAt(init, k);
    }
  }

  /** A failed reading reports the first entry with two or more dots. */
  lemma {:induction false} ExclusionsFailFirst(entries: seq<string>)
    requires Exclusions(entries).Err?
    ensures exists k :: 0 <= k < |entries| && Classify(entries[k]).Unparseable?
                        && (forall j :: 0 <= j < k ==> !Classify(entries[j]).Unparseable?)
                        && Exclusions(entries).error == UnparseablePrefix + entries[k]
    decreases |entries|
  {
    var n := |entries| - 1;
    var init := entries[..n];
    if Exclusions(init).Err? {
      ExclusionsFailFirst(init);
      var k :| 0 <= k < n && Classify(init[k]).Unparseable?
               && (forall j :: 0 <= j < k ==> !Classify(init[j]).Unparseable?)
               && Exclusions(init).error == UnparseablePrefix + init[k];
      assert forall j :: 0 <= j <= k ==> init[j] == entries[j];
    } else {
      forall j | 0 <= j < n ensures !Classify(entries[j]).Unparseable? {
        assert init[j] == entries[j];
        if Classify(init[j]).Unparseable? {
          ExclusionsFailAt(init, j);
        }
      }
      assert Classify(entries[n]).Unparseable?;
    }
  }

  /** The reading fails exactly when some entry has two or more dots. */
  lemma {:induction false} ExclusionsFail(entries: seq<string>)
    ensures Exclusions(entries).Err? <==> exists k :: 0 <= k < |entries| && Classify(entries[k]).Unparseable?
  {
    if Exclusions(entries).Err? {
      ExclusionsFailFirst(entries);
    } else {
      forall k | 0 <= k < |entries| ensures !Classify(entries[k]).Unparseable? {
        if Classify(entries[k]).Unparseable? {
          ExclusionsFailAt(entries, k);
        }
      }
    }
  }

  /** When the reading succeeds, the excluded apps are the dot-free entries and the excluded
      pairs are the (app, model) of the single-dot entries. */
  lemma {:induction false} ExclusionsContents(entries: seq<string>)
    requires Exclusions(entries).Ok?
    ensures forall a :: a in Exclusions(entries).value.0 <==> a in entries && '.' !in a
    ensures forall a, m :: (a, m) in Exclusions(entries).value.1 <==> a + "." + m in entries && '.' !in a && '.' !in m
    decreases |entries|
  {
    if entries != [] {
      var n := |entries| - 1;
      var init := entries[..n];
      var x := entries[n];
      assert entries == init + [x];
      ExclusionsContents(init);
      var sets := Exclusions(entries).value;
      forall a ensures a in sets.0 <==> a in entries && '.' !in a {
        ExcludesApp(x, a);
      }
      forall a, m ensures (a, m) in sets.1 <==> a + "." + m in entries && '.' !in a && '.' !in m {
        ExcludesModel(x, a, m);
      }
    }
  }

  /** A failure on a prefix is the failure of the whole list. */
  lemma {:induction false} ExclusionsStopAtFailure(entries: seq<string>, n: nat)
    requires n <= |entries| && Exclusions(entries[..n]).Err?
    ensures Exclusions(entries) == Exclusions(entries[..n])
    decreases |entries| - n
  {
    if n < |entries| {
      var m := |entries| - 1;
      assert entries[..m][..n] == entries[..n];
      ExclusionsStopAtFailure(entries[..m], n);
    } else {
      assert entries[..n] == entries;
    }
  }

  /** `get_exclusions`: reads the configured "exclude" list (absent: empty) entry by entry into
      a set of excluded apps and a set of excluded (app, model) pairs, stopping at the first
      entry with more than one dot. */
  method GetExclusions(exclude: Option<seq<string>>) returns (r: Result<(set<string>, set<(string, string)>), string>)
    ensures r == Exclusions(exclude.GetOr([]))
  {
    var entries := exclude.GetOr([]);
    var apps: set<string> := {};
    var models: set<(string, string)> := {};
    var i := 0;
    while i < |entries|
      invariant 0 <= i <= |entries|
      invariant Exclusions(entries[..i]) == Ok((apps, models))
    {
      var x := entries[i];
      assert entries[..i + 1][..i] == entries[..i];
      match Classify(x) {
      case ExcludeApp(a) =>
        apps := apps + {a};
      case ExcludeModel(a, m) =>
        models := models + {(a, m)};
      case Unparseable =>
        ExclusionsStopAtFailure(entries, i + 1);
        return Err(UnparseablePrefix + x);
      }
      i := i + 1;
    }
    assert entries[..i] == entries;
    r := Ok((apps, models));
  }

  /** An installed app and one of its models, as the dump sees them. */
  datatype ModelInfo = ModelInfo(appLabel: string, name: string, proxy: bool, migrates: bool)
  datatype AppConfig = AppConfig(appLabel: string, hasModelsModule: bool, models: seq<ModelInfo>)

  function ModelsOf(apps: seq<AppConfig>, excludedApps: set<string>): (r: seq<ModelInfo>)
    ensures forall m :: m in r <==> exists k :: 0 <= k < |apps| && apps[k].hasModelsModule
                                              && apps[k].appLabel !in excludedApps && m in apps[k].models
  {
    if apps == [] then []
    else
      var rest := ModelsOf(apps[1..], excludedApps);
      assert forall k :: 1 <= k < |apps| ==> apps[k] == apps[1..][k - 1];
      (if apps[0].hasModelsModule && apps[0].appLabel !in excludedApps then apps[0].models else []) + rest
  }

  function KeepModels(ms: seq<ModelInfo>, excludedModels: set<(string, string)>): (r: seq<ModelInfo>)
    ensures forall m :: m in r <==> m in ms && (m.appLabel, m.name) !in excludedModels && !m.proxy && m.migrates
  {
    if ms == [] then []
    else
      var rest := KeepModels(ms[1..], excludedModels);
      var m := ms[0];
      if (m.appLabel, m.name) !in excludedModels && !m.proxy && m.migrates then [m] + rest else rest
  }

  /** The models whose rows `dump_database` writes: those of apps with a models module that are
      not excluded, minus excluded (app, model) pairs, proxy models and models the router keeps
      off the default database. */
  function DumpedModels(apps: seq<AppConfig>, excludedApps: set<string>, excludedModels: set<(string, string)>): (r: seq<ModelInfo>)
    ensures forall m :: m in r <==>
              && (exists k :: 0 <= k < |apps| && apps[k].hasModelsModule && apps[k].appLabel !in excludedApps && m in apps[k].models)
              && (m.appLabel, m.name) !in excludedModels && !m.proxy && m.migrates
  {
    KeepModels(ModelsOf(apps, excludedApps), excludedModels)
  }

  /** The archive name chosen by `handle`, or the command error it raises. `existing` is the set
      of file names already present. */
  function ArchiveName(dumpDb: bool, dumpFiles: bool, output: Option<string>, anonymize: bool,
                       today: string, existing: set<string>): (r: Result<string, string>)
    ensures !dumpDb && !dumpFiles ==> r == Err(NothingToDo)
    ensures r.Ok? ==> r.value !in existing && (dumpDb || dumpFiles)
    ensures r.Ok? && output.Some? && output.value != "" ==> r.value == output.value
    ensures r.Ok? && (output.None? || output.value == "") ==>
              r.value == (if anonymize then "anonymized-" else "") + "pilot-dump-" + today + ".zip"
    ensures r.Err? && (dumpDb || dumpFiles) ==> exists n :: n in existing && r.error == "Dump file " + n + " already exists!"
    ensures dumpDb || dumpFiles ==> (r.Ok? <==> ChosenName(output, anonymize, today) !in existing)
    ensures r.Ok? ==> r.value == ChosenName(output, anonymize, today)
    ensures r.Err? && (dumpDb || dumpFiles) ==> r.error == "Dump file " + ChosenName(output, anonymize, today) + " already exists!"
  {
    if !dumpDb && !dumpFiles then Err(NothingToDo)
    else
      var name := ChosenName(output, anonymize, today);
      if name in existing then Err("Dump file " + name + " already exists!") else Ok(name)
  }

  /** The archive name `handle` picks: a non-empty `output` option, or the dated default,
      prefixed when anonymising. */
  function ChosenName(output: Option<string>, anonymize: bool, today: string): string {
    if output.Some? && output.value != "" then output.value
    else
      var base := "pilot-dump-" + today + ".zip";
      if anonymize then "anonymized-" + base else base
  }
}

=== FILE: log_views.dfy ===
/** The logging service's listing and bulk erase (logger/viewsets.py). */
module LogViews {
  import opened Wrappers
  import opened Query
  import opened Requests
  import opened Users

  /** Severity levels, from least to most severe. */
  const Debug := 0
  const Verbose := 1
  const Info := 2
  const Warning := 3
  const Error := 4

  const SeeAll := "logger.see_all"
  const DeleteLogEntry := "logger.delete_logentry"

  /** A stored log entry; `created` is a timestamp in seconds. */
  datatype LogEntry = LogEntry(id: nat, message: string, severity: int, category: string, created: int, ip: string, userId: Option<nat>)

  /** `LogEntryViewSet.get_queryset`: nothing for the anonymous user, everything with
      `logger.see_all`, otherwise the requester's own entries. */
  function VisibleLog(entries: seq<LogEntry>, req: Requester): (r: seq<LogEntry>)
    ensures req.Anonymous? ==> r == []
    ensures req.HasPerm(SeeAll) ==> r == entries
    ensures req.Authenticated? && !req.HasPerm(SeeAll) ==>
              forall e :: e in r <==> e in entries && e.userId == Some(req.user.id)
  {
    if req.Anonymous? then []
    else if req.HasPerm(SeeAll) then entries
    else Filter(entries, (e: LogEntry) => e.userId == Some(req.user.id))
  }

  /** The erase payload; `None` stands for a missing or unparsable field. */
  datatype EraseInput = EraseInput(before: Option<int>, maxSeverity: Option<int>)

  /** `BulkEraseSerializer`: a date-time and one of the five severity levels. */
  predicate ValidErase(d: EraseInput)
  {
    d.before.Some? && d.maxSeverity.Some? && Debug <= d.maxSeverity.value <= Error
  }

  /** The erase filter: created no later than `before` and no more severe than `maxSeverity`. */
  predicate Matches(e: LogEntry, before: int, maxSeverity: int)
  {
    e.created <= before && e.severity <= maxSeverity
  }

  /** The stored log entries. */
  class LogStore {
    var entries: seq<LogEntry>

    constructor ()
      ensures entries == []
    {
      entries := [];
    }

    /** `erase`: without `logger.delete_logentry` a 403 and nothing deleted; invalid input a 400
        and nothing deleted; otherwise exactly the matching entries go, and `deleted` counts them. */
    method Erase(req: Requester, d: EraseInput) returns (st: Status, deleted: Option<nat>)
      modifies this
      ensures !req.HasPerm(DeleteLogEntry) ==> st == Forbidden403 && deleted == None && entries == old(entries)
      ensures req.HasPerm(DeleteLogEntry) && !ValidErase(d) ==> st == BadRequest400 && deleted == None && entries == old(entries)
      ensures req.HasPerm(DeleteLogEntry) && ValidErase(d) ==>
                && st == Ok200
                && entries == Filter(old(entries), (e: LogEntry) => !Matches(e, d.before.value, d.maxSeverity.value))
                && deleted == Some(|Filter(old(entries), (e: LogEntry) => Matches(e, d.before.value, d.maxSeverity.value))|)
                && deleted.value == |old(entries)| - |entries|
    {
      if !req.HasPerm(DeleteLogEntry) {
        return Forbidden403, None;
      }
      if !ValidErase(d) {
        return BadRequest400, None;
      }
      var matches := (e: LogEntry) => Matches(e, d.before.value, d.maxSeverity.value);
      var keeps := (e: LogEntry) => !Matches(e, d.before.value, d.maxSeverity.value);
      var removed := Filter(entries, matches);
      FilterPartition(entries, matches, keeps);
      entries := Filter(entries, keeps);
      st, deleted := Ok200, Some(|removed|);
    }
  }
}

=== FILE: mail.dfy ===
/** Template e-mail: recipients, sender, context and the language fallback of template lookup
    (mailer/mail.py). Rendering and delivery are parameters: `available` is the set of template
    paths that exist and `smtpOk` whether the SMTP server accepts the message. */
module Mail {
  import opened Wrappers
  import opened Text

  /** The `recipient` argument: one address, or a tuple, list or generator of addresses. */
  datatype RecipientArg = One(address: string) | Several(addresses: seq<string>)

  /** The recipient tuple after normalisation. */
  function Recipients(r: RecipientArg): (to: seq<string>)
    ensures r.One? ==> to == [r.address]
    ensures r.Several? ==> to == r.addresses
  {
    match r
    case One(a) => [a]
    case Several(s) => s
  }

  const FallbackSender := "no-reply@sofokus.com"

  /** `sender or getattr(settings, 'DEFAULT_FROM_EMAIL', ...)`: an empty or missing sender falls
      back to the configured default, then to the literal no-reply address. */
  function SenderOf(sender: Option<string>, defaultFrom: Option<string>): (s: string)
    ensures sender.Some? && sender.value != "" ==> s == sender.value
    ensures (sender.None? || sender.value == "") && defaultFrom.Some? ==> s == defaultFrom.value
    ensures (sender.None? || sender.value == "") && defaultFrom.None? ==> s == FallbackSender
  {
    if sender.Some? && sender.value != "" then sender.value else defaultFrom.GetOr(FallbackSender)
  }

  /** A template context value: an address list or a string. */
  datatype Value = Addresses(addresses: seq<string>) | Str(text: string)

  /** The template context: the built-in `recipient` and `sender` keys, then the caller's
      variables, which win on a clash. */
  function Context(to: seq<string>, sender: string, variables: map<string, Value>): (ctx: map<string, Value>)
    ensures ctx.Keys == variables.Keys + {"recipient", "sender"}
    ensures forall k :: k in variables ==> ctx[k] == variables[k]
    ensures "recipient" !in variables ==> ctx["recipient"] == Addresses(to)
    ensures "sender" !in variables ==> ctx["sender"] == Str(sender)
  {
    map["recipient" := Addresses(to), "sender" := Str(sender)] + variables
  }

  /** `email/<name>_<language>.<suffix>`, or `email/<name>.<suffix>` without a language. */
  function TemplatePath(name: string, language: string, suffix: string): string
  {
    if language == "" then "email/" + name + "." + suffix
    else "email/" + name + "_" + language + "." + suffix
  }

  /** `language.split('-')[0]`. */
  function BaseLanguage(language: string): (b: string)
    ensures |b| <= |language| && '-' !in b
    ensures '-' in language ==> |b| < |language| && b == language[..|b|] && language[|b|] == '-'
    ensures '-' !in language ==> b == language
  {
    if '-' in language then language[..IndexOf(language, '-')] else language
  }

  /** `_get_localized_template`: the template found, or `None` where `TemplateDoesNotExist`
      escapes. */
  function LocalizedTemplate(available: set<string>, name: string, language: string, suffix: string): (r: Option<string>)
    decreases |language|
    ensures r.Some? ==> r.value in available
  {
    var path := TemplatePath(name, language, suffix);
    if path in available then Some(path)
    else if language == "" then None
    else if '-' in language then LocalizedTemplate(available, name, BaseLanguage(language), suffix)
    else LocalizedTemplate(available, name, "", suffix)
  }

  /** The search order the docstring promises: the full language, its base language when it
      has a region part, then the plain name. */
  function Candidates(name: string, language: string, suffix: string): seq<string>
  {
    if language == "" then [TemplatePath(name, "", suffix)]
    else
      [TemplatePath(name, language, suffix)]
      + (if '-' in language && BaseLanguage(language) != "" then [TemplatePath(name, BaseLanguage(language), suffix)] else [])
      + [TemplatePath(name, "", suffix)]
  }

  /** The first candidate that exists. */
  function FirstAvailable(available: set<string>, paths: seq<string>): (r: Option<string>)
    ensures r.None? <==> forall p :: p in paths ==> p !in available
    ensures r.Some? ==> r.value in paths && r.value in available
  {
    if paths == [] then None
    else if paths[0] in available then Some(paths[0])
    else FirstAvailable(available, paths[1..])
  }

  /** The recursive lookup picks the first existing template in the documented order. */
  lemma {:induction false} LocalizedTemplateIsFirstCandidate(available: set<string>, name: string, language: string, suffix: string)
    ensures LocalizedTemplate(available, name, language, suffix) == FirstAvailable(available, Candidates(name, language, suffix))
  {
    var plain := TemplatePath(name, "", suffix);
    var full := TemplatePath(name, language, suffix);
    if language != "" && '-' in language {
      var base := BaseLanguage(language);
      if base != "" {
        var basePath := TemplatePath(name, base, suffix);
        assert Candidates(name, language, suffix) == [full, basePath, plain];
        assert LocalizedTemplate(available, name, base, suffix) == FirstAvailable(available, [basePath, plain]);
      } else {
        assert Candidates(name, language, suffix) == [full, plain];
      }
    } else if language != "" {
      assert Candidates(name, language, suffix) == [full, plain];
    }
  }

  /** With no language a missing template raises; with one, the plain template is the last
      resort. */
  lemma {:induction false} LocalizedTemplateFallsBackToPlain(available: set<string>, name: string, language: string, suffix: string)
    requires TemplatePath(name, "", suffix) in available
    ensures LocalizedTemplate(available, name, language, suffix).Some?
  {
    LocalizedTemplateIsFirstCandidate(available, name, language, suffix);
    var cs := Candidates(name, language, suffix);
    assert cs[|cs| - 1] == TemplatePath(name, "", suffix);
  }

  /** The subject: given by the caller, or rendered from the chosen subject template. */
  datatype Subject = Given(text: string) | FromTemplate(path: string)

  /** The message handed to the mail backend. */
  datatype Email = Email(subject: Subject, body: string, html: Option<string>, sender: string, to: seq<string>, context: map<string, Value>)

  /** What `send_template_mail` does: returns False without sending, raises (a missing subject
      or text template), or sends `email` and returns whether SMTP accepted it. */
  datatype MailResult = NotSent | Raised | Sent(email: Email, ok: bool)

  /** `send_template_mail`. */
  function SendTemplateMail(recipient: RecipientArg, template: string, variables: map<string, Value>,
                            sender: Option<string>, html: bool, subject: Option<string>,
                            language: string, defaultFrom: Option<string>, available: set<string>, smtpOk: bool): (r: MailResult)
    ensures Recipients(recipient) == [] <==> r == NotSent
    ensures r.Sent? ==> r.email.to == Recipients(recipient) && r.email.sender == SenderOf(sender, defaultFrom)
    ensures r.Sent? ==> r.ok == smtpOk
    ensures r.Sent? ==> r.email.context == Context(Recipients(recipient), SenderOf(sender, defaultFrom), variables)
    ensures r.Sent? && subject.Some? ==> r.email.subject == Given(subject.value)
    ensures r.Sent? && subject.None? ==>
              r.email.subject.FromTemplate? && Some(r.email.subject.path) == LocalizedTemplate(available, template, language, "subject")
    ensures r.Sent? ==> Some(r.email.body) == LocalizedTemplate(available, template, language, "txt")
    ensures r.Sent? ==> r.email.html == if html then LocalizedTemplate(available, template, language, "html") else None
    ensures r.Sent? <==>
              && Recipients(recipient) != []
              && (subject.Some? || LocalizedTemplate(available, template, language, "subject").Some?)
              && LocalizedTemplate(available, template, language, "txt").Some?
    ensures Recipients(recipient) != [] && LocalizedTemplate(available, template, language, "txt").None? ==> r == Raised
    ensures Recipients(recipient) != [] && subject.None? && LocalizedTemplate(available, template, language, "subject").None? ==> r == Raised
  {
    var to := Recipients(recipient);
    if to == [] then NotSent
    else
      var from := SenderOf(sender, defaultFrom);
      var ctx := Context(to, from, variables);
      var subj := if subject.Some? then Some(Given(subject.value))
                  else match LocalizedTemplate(available, template, language, "subject")
                    case None => None
                    case Some(p) => Some(FromTemplate(p));
      if subj.None? then Raised
      else match LocalizedTemplate(available, template, language, "txt")
        case None => Raised
        case Some(body) =>
          var alt := if html then LocalizedTemplate(available, template, language, "html") else None;
          Sent(Email(subj.value, body, alt, from, to, ctx), smtpOk)
  }

  /** The HTML part is optional: with the subject and text templates present, a missing HTML
      template still sends, just without the alternative part. */
  lemma {:induction false} HtmlIsOptional(recipient: RecipientArg, template: string, variables: map<string, Value>,
                       sender: Option<string>, subject: Option<string>,
                       language: string, defaultFrom: Option<string>, available: set<string>, smtpOk: bool)
    requires Recipients(recipient) != []
    requires subject.Some? || LocalizedTemplate(available, template, language, "subject").Some?
    requires LocalizedTemplate(available, template, language, "txt").Some?
    requires LocalizedTemplate(available, template, language, "html").None?
    ensures var r := SendTemplateMail(recipient, template, variables, sender, true, subject, language, defaultFrom, available, smtpOk);
            r.Sent? && r.email.html.None?
  {
  }

  /** `send_template_admin_mail` and `send_template_manager_mail` as written: they pass a `lang`
      keyword that `send_template_mail` does not accept, so every call raises `TypeError`
      before anything is sent. */
  function SendStaffMailAsWritten(staff: seq<string>, subjectPrefix: string, subject: string, template: string,
                                  variables: map<string, Value>, languageCode: string,
                                  defaultFrom: Option<string>, available: set<string>, smtpOk: bool): (r: MailResult)
    ensures r == Raised
  {
    Raised
  }

  /** The evidently intended behaviour: mail every configured address in the site's default
      language, with the configured subject prefix. */
  function SendStaffMail(staff: seq<string>, subjectPrefix: string, subject: string, template: string,
                         variables: map<string, Value>, languageCode: string,
                         defaultFrom: Option<string>, available: set<string>, smtpOk: bool): (r: MailResult)
    ensures staff == [] <==> r == NotSent
    ensures r.Sent? ==> r.email.to == staff && r.email.subject == Given(subjectPrefix + subject) && r.ok == smtpOk
    ensures staff != [] && LocalizedTemplate(available, template, languageCode, "txt").Some? ==> r.Sent?
  {
    SendTemplateMail(Several(staff), template, variables, None, true, Some(subjectPrefix + subject),
                     languageCode, defaultFrom, available, smtpOk)
  }

  /** The two versions part ways on every configured staff list: as written nothing is ever
      sent, as intended the message goes out whenever the text template exists. */
  lemma {:induction false} StaffMailDiscrepancy(staff: seq<string>, subjectPrefix: string, subject: string, template: string,
                             variables: map<string, Value>, languageCode: string,
                             defaultFrom: Option<string>, available: set<string>, smtpOk: bool)
    requires staff != [] && TemplatePath(template, "", "txt") in available
    ensures SendStaffMailAsWritten(staff, subjectPrefix, subject, template, variables, languageCode, defaultFrom, available, smtpOk) == Raised
    ensures SendStaffMail(staff, subjectPrefix, subject, template, variables, languageCode, defaultFrom, available, smtpOk).Sent?
  {
    LocalizedTemplateFallsBackToPlain(available, template, languageCode, "txt");
  }
}

=== FILE: order_permissions.dfy ===
/** Who may list, read and rate orders (orders/permissions.py). */
module OrderPermissions {
  import opened Wrappers
  import opened Text
  import opened Users
  import opened Orders

  /** `str(request.user.pk)`; the anonymous user's pk is `None`. */
  function PkString(req: Requester): string {
    match req
    case Anonymous => "None"
    case Authenticated(p) => NatToString(p.id)
  }

  /** `IsOwner.has_permission`; `userPk` is the `user_pk` URL argument (`None`: missing). */
  predicate IsOwnerPermission(req: Requester, userPk: Option<string>) {
    userPk.Some? && PkString(req) == userPk.value
  }

  /** For a URL naming user `id`, the owner check passes exactly for that user. */
  lemma {:induction false} IsOwnerPermissionMeaning(req: Requester, id: nat)
    ensures IsOwnerPermission(req, Some(NatToString(id))) <==> req.Authenticated? && req.user.id == id
    ensures !IsOwnerPermission(req, None)
  {
    var s := NatToString(id);
    match req
    case Anonymous =>
      assert "None"[0] == 'N' && '0' <= s[0] <= '9';
    case Authenticated(p) =>
      if PkString(req) == s {
        NatToStringInjective(p.id, id);
      }
  }

  /** `IsOwner.has_object_permission`: the requester is the order's user. */
  predicate IsOwnerObject(req: Requester, o: Order) {
    req.Authenticated? && o.userId == Some(req.user.id)
  }

  /** The object check agrees with the URL check whenever the URL names the order's user:
      an order listed under `/users/<pk>/orders/` passes both or neither. */
  lemma {:induction false} IsOwnerObjectMatchesUrl(req: Requester, o: Order)
    requires o.userId.Some?
    ensures IsOwnerObject(req, o) <==> IsOwnerPermission(req, Some(NatToString(o.userId.value)))
    ensures IsOwnerObject(req, o) ==> req.user.id == o.userId.value
  {
    IsOwnerPermissionMeaning(req, o.userId.value);
  }

  predicate IsOwnerOrStaffPermission(req: Requester, userPk: Option<string>) {
    req.IsStaff() || IsOwnerPermission(req, userPk)
  }

  predicate IsOwnerOrStaffObject(req: Requester, o: Order) {
    req.IsStaff() || IsOwnerObject(req, o)
  }

  /** Staff always pass; everyone else passes exactly when the owner check does. */
  lemma {:induction false} OwnerOrStaffReduces(req: Requester, userPk: Option<string>, o: Order)
    ensures req.IsStaff() ==> IsOwnerOrStaffPermission(req, userPk) && IsOwnerOrStaffObject(req, o)
    ensures !req.IsStaff() ==> (IsOwnerOrStaffPermission(req, userPk) <==> IsOwnerPermission(req, userPk))
    ensures !req.IsStaff() ==> (IsOwnerOrStaffObject(req, o) <==> IsOwnerObject(req, o))
  {
  }

  /** `IsCompanyUser.has_permission`: the requester has a company whose pk string is the
      `company_pk` argument; the anonymous user has no company attribute, which is caught. */
  predicate IsCompanyUserPermission(req: Requester, companyPk: Option<string>) {
    && req.Authenticated?
    && req.user.companyId.Some?
    && companyPk == Some(NatToString(req.user.companyId.value))
  }

  /** For a URL naming company `c`, the check passes exactly for members of `c`. */
  lemma {:induction false} IsCompanyUserPermissionMeaning(req: Requester, c: nat)
    ensures IsCompanyUserPermission(req, Some(NatToString(c))) <==> req.Authenticated? && req.user.companyId == Some(c)
    ensures !IsCompanyUserPermission(req, None)
  {
    if IsCompanyUserPermission(req, Some(NatToString(c))) {
      NatToStringInjective(req.user.companyId.value, c);
    }
  }

  /** `IsCompanyUser.has_object_permission`: the requester's company is the order's company.
      Only authenticated requesters reach object checks, as `IsAuthenticated` comes first. */
  predicate IsCompanyUserObject(p: Principal, o: Order) {
    p.companyId == Some(o.companyId)
  }

  predicate IsCompanyUserOrStaffPermission(req: Requester, companyPk: Option<string>) {
    req.IsStaff() || IsCompanyUserPermission(req, companyPk)
  }

  predicate IsCompanyUserOrStaffObject(p: Principal, o: Order) {
    p.isStaff || IsCompanyUserObject(p, o)
  }

  /** `CanRate.has_object_permission`. */
  predicate CanRateObject(o: Order, now: int)
    reads o
  {
    o.CanBeRated(now)
  }
}

=== FILE: order_views.dfy ===
/** Order listings, order creation and the rating update (orders/viewsets.py). */
module OrderViews {
  import opened Wrappers
  import opened Text
  import opened Query
  import opened Requests
  import opened Users
  import opened Orders
  import opened OrderPermissions

  /** `UserOrderViewSet.get_queryset` (and the rate lookup): the orders of user `userPk`. */
  function UserOrders(orders: seq<Order>, userPk: nat): (r: seq<Order>)
    ensures forall o :: o in r ==> o in orders && o.userId == Some(userPk)
    ensures forall o :: o in orders && o.userId == Some(userPk) ==> o in r
  {
    Filter(orders, (o: Order) => o.userId == Some(userPk))
  }

  /** `CompanyOrderViewSet.get_queryset`: that company's orders, none if it is inactive. */
  function CompanyOrders(orders: seq<Order>, companyPk: nat, activeCompanies: set<nat>): (r: seq<Order>)
    ensures forall o :: o in r ==> o in orders && o.companyId == companyPk
    ensures companyPk in activeCompanies ==> forall o :: o in orders && o.companyId == companyPk ==> o in r
    ensures companyPk !in activeCompanies ==> r == []
  {
    Filter(orders, (o: Order) => o.companyId == companyPk && o.companyId in activeCompanies)
  }

  /** Order ids are primary keys: no two stored orders share one. */
  predicate UniqueIds(orders: seq<Order>) {
    forall i, j :: 0 <= i < |orders| && 0 <= j < |orders| && orders[i].id == orders[j].id ==> i == j
  }

  /** The lookup `pk=...` on orders. */
  function HasId(pk: nat): Order -> bool {
    (o: Order) => o.id == pk
  }

  /** The lookup of the user the URL names, without the order's rating: the order is saved
      for that user; an unknown user is a 404, and a non-numeric argument fails the
      conversion. */
  method CreateUnratedOrder(userIds: set<nat>, userPkArg: string, id: nat, companyId: nat, start: int, end: int)
    returns (r: Result<Order, Status>)
    ensures r.Ok? <==> ParseNat(userPkArg).Some? && ParseNat(userPkArg).value in userIds
    ensures r.Ok? ==> fresh(r.value) && r.value.id == id && r.value.userId == ParseNat(userPkArg)
    ensures r.Ok? ==> r.value.companyId == companyId && r.value.timeslotStart == start && r.value.timeslotEnd == end
    ensures r.Ok? ==> r.value.rating == None && r.value.rated == None
    ensures r.Ok? ==> r.value.Valid() && r.value.RatingStamped()
    ensures r.Err? ==> r.error == if ParseNat(userPkArg).None? then ServerError500 else NotFound404
  {
    var pk := ParseNat(userPkArg);
    if pk.None? {
      return Err(ServerError500);
    }
    if pk.value !in userIds {
      return Err(NotFound404);
    }
    var o := new Order(id, pk, companyId, start, end);
    return Ok(o);
  }

  /** `UserOrderViewSet.create`: the serializer checks the body first, and its `rating`
      entry is writable here, so a 1..5 rating or null is stored with the new order and
      anything else is a 400; then `perform_create` looks up the user. */
  method CreateUserOrder(userIds: set<nat>, userPkArg: string, id: nat, companyId: nat, start: int, end: int, rating: RatingField)
    returns (r: Result<Order, Status>)
    ensures r.Ok? <==> ValidateRatingField(rating).Ok? && ParseNat(userPkArg).Some? && ParseNat(userPkArg).value in userIds
    ensures r.Ok? ==> fresh(r.value) && r.value.id == id && r.value.userId == ParseNat(userPkArg)
    ensures r.Ok? ==> r.value.companyId == companyId && r.value.timeslotStart == start && r.value.timeslotEnd == end
    ensures r.Ok? ==> r.value.rating == Applied(rating, None) && r.value.rated == None && r.value.Valid()
    ensures r.Err? ==> r.error == if ValidateRatingField(rating).Err? then BadRequest400
                                 else if ParseNat(userPkArg).None? then ServerError500 else NotFound404
  {
    if ValidateRatingField(rating).Err? {
      return Err(BadRequest400);
    }
    r := CreateUnratedOrder(userIds, userPkArg, id, companyId, start, end);
    if r.Ok? {
      r.value.rating := Applied(rating, None);
    }
  }

  /** A user creating an order for a timeslot that has not even started can send a rating
      of 5 with it: the order is stored rated, with no rating time, while `can_be_rated`
      still refuses it. */
  method CreatedRatingSkipsWindow(userIds: set<nat>) returns (r: Result<Order, Status>)
    requires 7 in userIds
    ensures r.Ok? && r.value.rating == Some(5) && r.value.rated == None
    ensures !r.value.RatingStamped() && !r.value.CanBeRated(0)
  {
    ParseNatToString(7);
    r := CreateUserOrder(userIds, NatToString(7), 1, 1, 100, 200, Given(5));
  }

  /** The order a rate request addresses: order `pkArg` among the URL user's orders. A
      non-numeric `pkArg` makes the lookup's conversion fail, which the framework's
      `get_object_or_404` answers as not found. */
  function RateTarget(userPkArg: string, orders: seq<Order>, pkArg: string): (t: Option<Order>)
    ensures t.Some? ==> t.value in orders && Some(t.value.id) == ParseNat(pkArg) && t.value.userId == ParseNat(userPkArg)
    ensures ParseNat(pkArg).None? ==> t.None?
  {
    match ParseNat(userPkArg)
    case None => None
    case Some(userPk) =>
      match ParseNat(pkArg)
      case None => None
      case Some(pk) =>
        match Get(UserOrders(orders, userPk), HasId(pk))
        case Found(o) => Some(o)
        case _ => None
  }

  /** With ids unique, an order whose id `pkArg` spells and that belongs to the URL user is the
      one found. */
  lemma {:induction false} RateTargetFinds(userPkArg: string, orders: seq<Order>, pkArg: string, o: Order)
    requires UniqueIds(orders)
    requires o in orders && ParseNat(pkArg) == Some(o.id) && ParseNat(userPkArg).Some? && o.userId == ParseNat(userPkArg)
    ensures RateTarget(userPkArg, orders, pkArg) == Some(o)
  {
    var userPk := ParseNat(userPkArg).value;
    var pk := o.id;
    UniqueAtMostOne(orders, HasId(pk));
    FilterNarrows(orders, (o: Order) => o.userId == Some(userPk), HasId(pk));
    GetUnique(UserOrders(orders, userPk), HasId(pk), o);
  }

  /** The permission and lookup stages of a rate request all pass: the requester is logged
      in, owns the URL (or is staff), the order is found, the object check passes, and the
      order can be rated now. */
  predicate RateAdmitted(req: Requester, userPkArg: string, orders: seq<Order>, pkArg: string, now: int)
    reads set o | o in orders
  {
    && req.Authenticated?
    && IsOwnerOrStaffPermission(req, Some(userPkArg))
    && RateTarget(userPkArg, orders, pkArg).Some?
    && IsOwnerOrStaffObject(req, RateTarget(userPkArg, orders, pkArg).value)
    && CanRateObject(RateTarget(userPkArg, orders, pkArg).value, now)
  }

  /** `RateOrderViewSet` update: request permissions (`IsAuthenticated`, answered 401 without
      credentials, then owner or staff), then the lookup, then the object permissions (owner
      or staff, and `can_be_rated`), then the check of the body. */
  function RateDecision(req: Requester, userPkArg: string, orders: seq<Order>, pkArg: string, value: RatingField, now: int): (st: Status)
    reads set o | o in orders
    ensures st == Unauthorized401 <==> !req.Authenticated?
    ensures st == Ok200 || st == BadRequest400 <==> RateAdmitted(req, userPkArg, orders, pkArg, now)
    ensures RateAdmitted(req, userPkArg, orders, pkArg, now) ==> (st == Ok200 <==> ValidateRatingField(value).Ok?)
    ensures st == Ok200 ==> RateTarget(userPkArg, orders, pkArg).value.CanBeRated(now)
    ensures st == Ok200 && !req.IsStaff() ==>
              && userPkArg == NatToString(req.user.id)
              && RateTarget(userPkArg, orders, pkArg).value.userId == Some(req.user.id)
    ensures st == NotFound404 <==>
              && req.Authenticated? && IsOwnerOrStaffPermission(req, Some(userPkArg))
              && ParseNat(userPkArg).Some? && RateTarget(userPkArg, orders, pkArg).None?
    ensures st == ServerError500 <==>
              req.Authenticated? && IsOwnerOrStaffPermission(req, Some(userPkArg)) && ParseNat(userPkArg).None?
    ensures && req.Authenticated? && IsOwnerOrStaffPermission(req, Some(userPkArg))
            && ParseNat(userPkArg).Some? && ParseNat(pkArg).None?
            ==> st == NotFound404
  {
    if !req.Authenticated? then Unauthorized401
    else if !IsOwnerOrStaffPermission(req, Some(userPkArg)) then Forbidden403
    else if ParseNat(userPkArg).None? then ServerError500
    else
      match RateTarget(userPkArg, orders, pkArg)
      case None => NotFound404
      case Some(o) =>
        if !IsOwnerOrStaffObject(req, o) || !CanRateObject(o, now) then Forbidden403
        else if ValidateRatingField(value).Err? then BadRequest400
        else Ok200
  }

  /** The rate request end to end: only an accepted request changes anything, and then only
      the addressed order's rating and, on its first save, its `rated` time. */
  method RateOrder(req: Requester, userPkArg: string, orders: seq<Order>, pkArg: string, value: RatingField, now: int)
    returns (st: Status)
    requires forall o :: o in orders ==> o.Valid()
    modifies set o | o in orders
    ensures st == old(RateDecision(req, userPkArg, orders, pkArg, value, now))
    ensures st == Ok200 ==>
              var t := RateTarget(userPkArg, orders, pkArg).value;
              t.rating == Applied(value, old(t.rating)) && t.rated == if old(t.rated).None? then Some(now) else old(t.rated)
    ensures forall o :: o in orders && (st != Ok200 || Some(o) != RateTarget(userPkArg, orders, pkArg)) ==>
              o.rating == old(o.rating) && o.rated == old(o.rated)
    ensures forall o :: o in orders ==> o.Valid()
  {
    st := RateDecision(req, userPkArg, orders, pkArg, value, now);
    if st == Ok200 {
      RateOne(orders, RateTarget(userPkArg, orders, pkArg).value, value, now);
    }
  }

  /** Saves a checked entry on one order of the table; the other orders are untouched. */
  method RateOne(orders: seq<Order>, t: Order, value: RatingField, now: int)
    requires t in orders && ValidateRatingField(value).Ok?
    requires forall o :: o in orders ==> o.Valid()
    modifies t`rating, t`rated
    ensures t.rating == Applied(value, old(t.rating))
    ensures t.rated == if old(t.rated).None? then Some(now) else old(t.rated)
    ensures forall o :: o in orders ==> o.Valid()
  {
    t.Rate(value, now);
  }
}

=== FILE: orders.dfy ===
/** Orders and the window in which their outcome may be rated (orders/models.py). */
module Orders {
  import opened Wrappers

  /** One day in seconds; timestamps are whole seconds. */
  const Day := 86400
  const MinRating := 1
  const MaxRating := 5

  /** The rating column's validators: at least 1 and at most 5. */
  function ValidateRating(value: int): (r: Result<int, string>)
    ensures r.Ok? <==> MinRating <= value <= MaxRating
    ensures r.Ok? ==> r.value == value
    ensures value < MinRating ==> r == Err("Ensure this value is greater than or equal to 1.")
    ensures value > MaxRating ==> r == Err("Ensure this value is less than or equal to 5.")
  {
    if value < MinRating then Err("Ensure this value is greater than or equal to 1.")
    else if value > MaxRating then Err("Ensure this value is less than or equal to 5.")
    else Ok(value)
  }

  /** 0 and 6 are refused; 1, 3 and 5 pass. */
  lemma {:induction false} RatingExamples()
    ensures ValidateRating(0).Err? && ValidateRating(6).Err?
    ensures ValidateRating(1) == Ok(1) && ValidateRating(3) == Ok(3) && ValidateRating(5) == Ok(5)
  {
  }

  /** The `rating` entry of a request body: left out, sent as null, or sent as a number. */
  datatype RatingField = Absent | Null | Given(value: int)

  /** The serializer's check of that entry: the column is nullable and not required, so a
      missing entry and null pass, and a number must pass the 1..5 validators. */
  function ValidateRatingField(f: RatingField): (r: Result<RatingField, string>)
    ensures r.Ok? <==> (f.Given? ==> MinRating <= f.value <= MaxRating)
    ensures r.Ok? ==> r.value == f
    ensures r.Err? ==> f.Given? && r == Err(ValidateRating(f.value).error)
  {
    match f
    case Given(v) =>
      (match ValidateRating(v)
       case Ok(_) => Ok(f)
       case Err(e) => Err(e))
    case _ => Ok(f)
  }

  /** The column after saving a checked entry: a missing entry keeps what was stored. */
  function Applied(f: RatingField, stored: Option<int>): Option<int>
  {
    match f
    case Absent => stored
    case Null => None
    case Given(v) => Some(v)
  }

  class Order {
    const id: nat
    const userId: Option<nat>
    const companyId: nat
    const timeslotStart: int
    const timeslotEnd: int
    var rating: Option<int>
    var rated: Option<int>

    /** A stored rating is in range. Nothing ties it to `rated`: a rating can be stored at
        creation, before any rating time exists, and a null rating clears it afterwards. */
    predicate Valid()
      reads this
    {
      rating.Some? ==> MinRating <= rating.value <= MaxRating
    }

    /** A stored rating carries the time it was first given. */
    predicate RatingStamped()
      reads this
    {
      rating.Some? ==> rated.Some?
    }

    /** A new order carries neither a rating nor a rating time. */
    constructor (id: nat, userId: Option<nat>, companyId: nat, timeslotStart: int, timeslotEnd: int)
      ensures this.id == id && this.userId == userId && this.companyId == companyId
      ensures this.timeslotStart == timeslotStart && this.timeslotEnd == timeslotEnd
      ensures rating == None && rated == None
      ensures Valid() && RatingStamped()
    {
      this.id := id;
      this.userId := userId;
      this.companyId := companyId;
      this.timeslotStart := timeslotStart;
      this.timeslotEnd := timeslotEnd;
      rating := None;
      rated := None;
    }

    /** `can_be_rated`: the timeslot is over, and either no rating was given yet or the
        first one is less than a day old. */
    predicate CanBeRated(now: int)
      reads this
    {
      timeslotEnd < now && (rated.None? || now - rated.value < Day)
    }

    /** `perform_update`: saves the checked entry; `rated` is stamped by the first save,
        so later edits never move the start of the one-day window. */
    method Rate(value: RatingField, now: int)
      requires Valid() && ValidateRatingField(value).Ok?
      modifies this`rating, this`rated
      ensures rating == Applied(value, old(rating))
      ensures rated == if old(rated).None? then Some(now) else old(rated)
      ensures Valid() && RatingStamped()
    {
      if rated.None? {
        rated := Some(now);
      }
      rating := Applied(value, rating);
    }
  }

  /** Nothing can be rated until the timeslot has ended, whatever `rated` holds. */
  lemma {:induction false} NotBeforeTimeslotEnds(o: Order, now: int)
    requires now <= o.timeslotEnd
    ensures !o.CanBeRated(now)
  {
  }

  /** An order whose timeslot has ended and that was never rated may be rated. */
  lemma {:induction false} UnratedIsEligible(o: Order, now: int)
    requires o.timeslotEnd < now && o.rated.None?
    ensures o.CanBeRated(now)
  {
  }

  /** After the first rating, eligibility is "less than a day since it": closed at exactly 24 h. */
  lemma {:induction false} ReratingWindow(o: Order, now: int)
    requires o.timeslotEnd < now && o.rated.Some?
    ensures o.CanBeRated(now) <==> now - o.rated.value < Day
    ensures !o.CanBeRated(o.rated.value + Day)
  {
  }

  /** Once the window has closed it stays closed at every later time. */
  lemma {:induction false} ClosedWindowStaysClosed(o: Order, now: int, later: int)
    requires o.rated.Some? && now - o.rated.value >= Day && now <= later
    ensures !o.CanBeRated(later)
  {
  }

  /** A first rating at `t1`, then a second attempt at `t2` that passes only through the
      `can_be_rated` gate: it is accepted exactly when less than a day has passed, the later
      entry then wins (null clears the rating, a missing entry keeps it), and `rated` keeps
      the first rating's time either way. */
  method RateTwice(o: Order, first: int, second: RatingField, t1: int, t2: int) returns (accepted: bool)
    requires o.Valid() && o.rated.None? && o.CanBeRated(t1)
    requires MinRating <= first <= MaxRating && ValidateRatingField(second).Ok?
    requires t1 <= t2
    modifies o
    ensures accepted <==> t2 - t1 < Day
    ensures o.rating == if accepted then Applied(second, Some(first)) else Some(first)
    ensures o.rated == Some(t1)
  {
    o.Rate(Given(first), t1);
    accepted := o.CanBeRated(t2);
    if accepted {
      o.Rate(second, t2);
    }
  }
}

=== FILE: query.dfy ===
/** Query-set semantics over stored rows: `filter`, `count` and the single-row `get`. */
module Query {

  /** `filter(p)`: the rows satisfying `p`, in their stored order. */
  function Filter<T>(s: seq<T>, p: T -> bool): (r: seq<T>)
    ensures |r| <= |s|
    ensures forall x :: x in r ==> x in s && p(x)
    ensures forall x :: x in s && p(x) ==> x in r
    ensures forall x :: x in s ==> multiset(r)[x] == if p(x) then multiset(s)[x] else 0
  {
    if s == [] then []
    else
      var rest := Filter(s[1..], p);
      assert s == [s[0]] + s[1..];
      if p(s[0]) then [s[0]] + rest else rest
  }

  /** A filter and its complement split the rows between them. */
  lemma {:induction false} FilterPartition<T>(s: seq<T>, p: T -> bool, q: T -> bool)
    requires forall x :: q(x) == !p(x)
    ensures |Filter(s, p)| + |Filter(s, q)| == |s|
    decreases |s|
  {
    if s != [] {
      FilterPartition(s[1..], p, q);
    }
  }

  /** At most one row satisfies `p`. */
  predicate AtMostOne<T>(s: seq<T>, p: T -> bool) {
    |Filter(s, p)| <= 1
  }

  /** A key held by at most one position, as a primary key is, selects at most one row. */
  lemma {:induction false} UniqueAtMostOne<T>(s: seq<T>, p: T -> bool)
    requires forall i, j :: 0 <= i < |s| && 0 <= j < |s| && p(s[i]) && p(s[j]) ==> i == j
    ensures AtMostOne(s, p)
    decreases |s|
  {
    if s != [] {
      var rest := Filter(s[1..], p);
      if p(s[0]) {
        forall y | y in s[1..] ensures !p(y) {
          var m :| 0 <= m < |s[1..]| && s[1..][m] == y;
          assert s[m + 1] == y;
        }
        assert forall y :: y !in rest;
        assert multiset(rest) == multiset{};
      } else {
        forall i, j | 0 <= i < |s[1..]| && 0 <= j < |s[1..]| && p(s[1..][i]) && p(s[1..][j]) ensures i == j {
          assert s[1..][i] == s[i + 1] && s[1..][j] == s[j + 1];
        }
        UniqueAtMostOne(s[1..], p);
      }
    }
  }

  /** Filtering first never adds rows matching a second filter. */
  lemma {:induction false} FilterNarrows<T>(s: seq<T>, p: T -> bool, q: T -> bool)
    ensures |Filter(Filter(s, p), q)| <= |Filter(s, q)|
    decreases |s|
  {
    if s != [] {
      FilterNarrows(s[1..], p, q);
      var rest := Filter(s[1..], p);
      if p(s[0]) {
        assert ([s[0]] + rest)[1..] == rest;
      }
    }
  }

  /** When at most one row satisfies `p` and `x` does, the filter is `x` alone. */
  lemma {:induction false} FilterSingle<T>(s: seq<T>, p: T -> bool, x: T)
    requires AtMostOne(s, p) && x in s && p(x)
    ensures Filter(s, p) == [x]
  {
    var r := Filter(s, p);
    assert x in r;
  }

  /** The outcome of Django's `get()`: one row, none (`DoesNotExist`) or several. */
  datatype Lookup<T> = Found(row: T) | NotFound | Multiple

  function Get<T>(s: seq<T>, p: T -> bool): (r: Lookup<T>)
    ensures r.Found? <==> |Filter(s, p)| == 1
    ensures r.Found? ==> r.row in s && p(r.row)
    ensures r.NotFound? <==> forall x :: x in s ==> !p(x)
  {
    var m := Filter(s, p);
    if |m| == 0 then NotFound
    else if |m| == 1 then assert m[0] in m; Found(m[0])
    else assert m[0] in m; Multiple
  }

  /** `get()` on a unique key finds the row that has it. */
  lemma {:induction false} GetUnique<T>(s: seq<T>, p: T -> bool, x: T)
    requires AtMostOne(s, p) && x in s && p(x)
    ensures Get(s, p) == Found(x)
  {
    FilterSingle(s, p, x);
  }
}

=== FILE: requests.dfy ===
/** The parts of an HTTP request that the access rules read, and the verdict they reach. */
module Requests {

  datatype Method = GET | HEAD | OPTIONS | POST | PUT | PATCH | DELETE

  /** The framework's read-only methods. */
  predicate IsSafe(m: Method) {
    m == GET || m == HEAD || m == OPTIONS
  }

  /** A permission verdict: pass, a 403 denial with its message, or a server error raised
      by the check itself (an attribute or conversion error the code does not catch). */
  datatype Verdict = Allow | Deny(message: string) | Fault

  /** The HTTP status a view answers with. A permission class that fails for a request
      without credentials is answered 401 (the framework raises `NotAuthenticated`, and token
      authentication names a challenge); a failing check of an authenticated user, or a
      `PermissionDenied` the view raises itself, is answered 403. */
  datatype Status = Ok200 | Created201 | NoContent204 | BadRequest400 | Unauthorized401 | Forbidden403 | NotFound404 | ServerError500
}

=== FILE: text.dfy ===
/** String helpers with Python's meaning: `str.strip`, ASCII case folding, `str(int)`. */
module Text {
  import opened Wrappers

  /** The characters Python's `str.isspace()` accepts, which `str.strip()` removes: tab to
      carriage return, the four information separators, space, next line, no-break space,
      and the Unicode space and line and paragraph separators. */
  predicate IsSpace(c: char) {
    || c == ' ' || '\t' <= c <= '\r' || '\U{001C}' <= c <= '\U{001F}'
    || c == '\U{0085}' || c == '\U{00A0}' || c == '\U{1680}' || '\U{2000}' <= c <= '\U{200A}'
    || c == '\U{2028}' || c == '\U{2029}' || c == '\U{202F}' || c == '\U{205F}' || c == '\U{3000}'
  }

  /** No whitespace at either end. */
  predicate Trimmed(s: string) {
    s == [] || (!IsSpace(s[0]) && !IsSpace(s[|s| - 1]))
  }

  /** `s.lstrip()`: drops the leading whitespace and nothing else. */
  function StripLeft(s: string): (r: string)
    ensures |r| <= |s| && r == s[|s| - |r|..]
    ensures r == [] || !IsSpace(r[0])
    ensures forall i :: 0 <= i < |s| - |r| ==> IsSpace(s[i])
  {
    if s != [] && IsSpace(s[0]) then StripLeft(s[1..]) else s
  }

  /** `s.rstrip()`: drops the trailing whitespace and nothing else. */
  function StripRight(s: string): (r: string)
    ensures |r| <= |s| && r == s[..|r|]
    ensures r == [] || !IsSpace(r[|r| - 1])
    ensures forall i :: |r| <= i < |s| ==> IsSpace(s[i])
  {
    if s != [] && IsSpace(s[|s| - 1]) then StripRight(s[..|s| - 1]) else s
  }

  /** `s.strip()`. */
  function Strip(s: string): (r: string)
    ensures Trimmed(r)
    ensures |r| <= |s|
  {
    var l := StripLeft(s);
    var r := StripRight(l);
    assert r != [] ==> r[0] == l[0];
    r
  }

  lemma {:induction false} StripOfTrimmed(s: string)
    requires Trimmed(s)
    ensures Strip(s) == s
  {
  }

  lemma {:induction false} StripIdempotent(s: string)
    ensures Strip(Strip(s)) == Strip(s)
  {
    StripOfTrimmed(Strip(s));
  }

  function LowerChar(c: char): (d: char)
    ensures 'A' <= c <= 'Z' ==> 'a' <= d <= 'z'
    ensures !('A' <= c <= 'Z') ==> d == c
  {
    if 'A' <= c <= 'Z' then (c as int - 'A' as int + 'a' as int) as char else c
  }

  /** ASCII lower-casing; other characters are kept. */
  function Lower(s: string): (r: string)
    ensures |r| == |s|
    ensures forall i :: 0 <= i < |s| ==> r[i] == LowerChar(s[i])
  {
    if s == [] then [] else [LowerChar(s[0])] + Lower(s[1..])
  }

  /** Case-insensitive equality, as a database `iexact` lookup compares ASCII text. */
  predicate EqualsIgnoreCase(a: string, b: string) {
    Lower(a) == Lower(b)
  }

  function DigitChar(d: nat): (c: char)
    requires d < 10
    ensures '0' <= c <= '9'
    ensures c as int - '0' as int == d
  {
    (d + '0' as int) as char
  }

  /** `str(n)` for a non-negative integer: its decimal digits, without leading zeros. */
  function NatToString(n: nat): (s: string)
    ensures |s| >= 1
    ensures forall i :: 0 <= i < |s| ==> '0' <= s[i] <= '9'
    ensures n >= 10 ==> |s| >= 2
  {
    if n < 10 then [DigitChar(n)] else NatToString(n / 10) + [DigitChar(n % 10)]
  }

  /** Two ids render to the same string only if they are the same id. */
  lemma {:induction false} NatToStringInjective(a: nat, b: nat)
    requires NatToString(a) == NatToString(b)
    ensures a == b
    decreases a
  {
    var s := NatToString(a);
    if a < 10 && b < 10 {
      assert DigitChar(a) == s[0] == DigitChar(b);
    } else if a >= 10 && b >= 10 {
      var k := |s| - 1;
      assert s[k] == DigitChar(a % 10) == DigitChar(b % 10);
      assert s[..k] == NatToString(a / 10) == NatToString(b / 10);
      NatToStringInjective(a / 10, b / 10);
    }
  }

  /** `int(s)` for a non-empty string of decimal digits; anything else is refused. */
  function ParseNat(s: string): (r: Option<nat>)
    ensures r.Some? <==> s != [] && forall i :: 0 <= i < |s| ==> '0' <= s[i] <= '9'
  {
    if s == [] || !('0' <= s[|s| - 1] <= '9') then None
    else if |s| == 1 then Some(s[0] as int - '0' as int)
    else
      match ParseNat(s[..|s| - 1])
      case None => None
      case Some(v) => Some(10 * v + (s[|s| - 1] as int - '0' as int))
  }

  /** Reading back the string of an id gives the id. */
  lemma {:induction false} ParseNatToString(n: nat)
    ensures ParseNat(NatToString(n)) == Some(n)
    decreases n
  {
    if n >= 10 {
      var s := NatToString(n);
      assert s[..|s| - 1] == NatToString(n / 10);
      ParseNatToString(n / 10);
    }
  }

  /** Index of the first occurrence of `c` in `s`. */
  function IndexOf(s: string, c: char): (i: nat)
    requires c in s
    ensures i < |s| && s[i] == c && c !in s[..i]
  {
    if s[0] == c then 0 else 1 + IndexOf(s[1..], c)
  }

  /** Index of the last occurrence of `c` in `s`. */
  function LastIndexOf(s: string, c: char): (i: nat)
    requires c in s
    ensures i < |s| && s[i] == c && c !in s[i + 1..]
  {
    if s[|s| - 1] == c then |s| - 1 else LastIndexOf(s[..|s| - 1], c)
  }
}

=== FILE: token_auth.dfy ===
/** The API authentication backend: an optional API key, then the framework's token check,
    then verified and active flags (api/auth.py). */
module TokenAuth {
  import opened Users

  const InvalidApiKey := "Invalid API key"
  const NotVerified := "Email address is not yet verified!"
  const Inactive := "User account is inactive!"

  /** What the framework's token authentication returns: no token header (`None`), a raised
      failure, or the user and token. */
  datatype TokenResult = NoCredentials | TokenFailed(message: string) | TokenUser(user: Principal, token: string)

  /** `authenticate`'s outcome: not authenticated (`None`), a failure, or the pair. */
  datatype AuthResult = Unauthenticated | Failed(message: string) | Success(user: Principal, token: string)

  /** `TokenAndKeyAuthentication.authenticate`. `apiKey` is the `X_API_KEY` header ('' when
      absent) and `activeKeys` the active API keys. */
  function Authenticate(apiKey: string, activeKeys: set<string>, token: TokenResult): (r: AuthResult)
    ensures apiKey != "" && apiKey !in activeKeys ==> r == Failed(InvalidApiKey)
    ensures (apiKey == "" || apiKey in activeKeys) && token.NoCredentials? ==> r == Unauthenticated
    ensures (apiKey == "" || apiKey in activeKeys) && token.TokenFailed? ==> r == Failed(token.message)
    ensures r.Success? <==>
              (apiKey == "" || apiKey in activeKeys) && token.TokenUser? && token.user.isVerified && token.user.isActive
    ensures r.Success? ==> r.user == token.user && r.token == token.token
    ensures (apiKey == "" || apiKey in activeKeys) && token.TokenUser? && !token.user.isVerified ==> r == Failed(NotVerified)
    ensures (apiKey == "" || apiKey in activeKeys) && token.TokenUser? && token.user.isVerified && !token.user.isActive ==> r == Failed(Inactive)
  {
    if apiKey != "" && apiKey !in activeKeys then Failed(InvalidApiKey)
    else match token
      case NoCredentials => Unauthenticated
      case TokenFailed(m) => Failed(m)
      case TokenUser(u, t) =>
        if !u.isVerified then Failed(NotVerified)
        else if !u.isActive then Failed(Inactive)
        else Success(u, t)
  }
}

=== FILE: user_validation.dfy ===
/** Validation rules of the account endpoints (api/user_serializers.py). Password hashing is
    not modelled: a stored password is the raw string given to `set_password`. */
module UserValidation {
  import opened Wrappers
  import opened Text
  import opened Users

  /** How a validation step ends: it passes with a value, raises a validation error (HTTP 400)
      with its messages, or raises an uncaught exception. */
  datatype Outcome<+T> = Pass(value: T) | Invalid(messages: seq<string>) | Crash

  const IncorrectPassword := "Incorrect password"
  const EmailInUse := "This email address is already in use"
  const IncorrectKey := "Incorrect verification key"
  const InvalidCredentials := "Invalid username or password"
  const NotActive := "User account is not active"
  const NotVerified := "Email address not yet verified"
  const TokenXorVetuma := "Either 'token' or 'vetuma' field (but not both) must be set'"
  const InvalidToken := "Invalid email address or token"
  const InvalidVetuma := "Invalid email address or vetuma token"
  const BlankField := "This field may not be blank."
  const ChangeUser := "auth.change_user"

  /** The users whose e-mail is exactly `email` (the ORM's case-sensitive `email=` filter). */
  function UsersWithExactEmail(users: seq<User>, email: string): (r: seq<User>)
    reads set u | u in users
    ensures forall u :: u in r ==> u in users && u.email == email
    ensures forall u :: u in users && u.email == email ==> u in r
  {
    if users == [] then []
    else
      var rest := UsersWithExactEmail(users[1..], email);
      if users[0].email == email then [users[0]] + rest else rest
  }

  /** `User.objects.get(email=email)`. */
  function GetByEmail(users: seq<User>, email: string): (r: Lookup)
    reads set u | u in users
    ensures r.Found? ==> r.user in users && r.user.email == email
    ensures r.NotFound? <==> forall u :: u in users ==> u.email != email
    ensures r.Found? <==> |UsersWithExactEmail(users, email)| == 1
  {
    var m := UsersWithExactEmail(users, email);
    if |m| == 0 then NotFound
    else if |m| == 1 then assert m[0] in m; Found(m[0])
    else assert m[0] in m; Multiple
  }

  /** The `unique=True` constraint of the e-mail column: no two stored users share one. */
  predicate UniqueEmails(users: seq<User>)
    reads set u | u in users
  {
    forall i, j :: 0 <= i < j < |users| ==> users[i].email != users[j].email
  }

  /** No user holding the e-mail leaves the filter empty. */
  lemma {:induction false} NoneWithExactEmail(users: seq<User>, email: string)
    requires forall u :: u in users ==> u.email != email
    ensures UsersWithExactEmail(users, email) == []
    decreases |users|
  {
    if users != [] {
      NoneWithExactEmail(users[1..], email);
    }
  }

  /** Under the constraint, a user with exactly that e-mail is the one the lookup returns. */
  lemma {:induction false} GetByEmailFinds(users: seq<User>, u: User)
    requires UniqueEmails(users) && u in users
    ensures GetByEmail(users, u.email) == Found(u)
    decreases |users|
  {
    var m := UsersWithExactEmail(users, u.email);
    if users[0] == u {
      var tail := users[1..];
      forall y | y in tail ensures y.email != u.email {
        var j :| 0 <= j < |tail| && tail[j] == y;
        assert users[j + 1] == y;
      }
      NoneWithExactEmail(tail, u.email);
    } else {
      var tail := users[1..];
      forall i, j | 0 <= i < j < |tail| ensures tail[i].email != tail[j].email {
        assert tail[i] == users[i + 1] && tail[j] == users[j + 1];
      }
      assert u in tail;
      GetByEmailFinds(tail, u);
      var k :| 0 <= k < |tail| && tail[k] == u;
      assert users[k + 1] == u;
    }
  }

  /** `RegisterUserSerializer.validate_email`: an address some user already has is refused;
      the comparison is exact. */
  function ValidateEmail(users: seq<User>, email: string): (r: Outcome<string>)
    reads set u | u in users
    ensures r != Crash
    ensures r.Pass? <==> forall u :: u in users ==> u.email != email
    ensures r.Pass? ==> r.value == email
    ensures r.Invalid? ==> r.messages == [EmailInUse]
  {
    if |UsersWithExactEmail(users, email)| > 0 then
      assert UsersWithExactEmail(users, email)[0] in UsersWithExactEmail(users, email);
      Invalid([EmailInUse])
    else Pass(email)
  }

  /** Registration as the login lookup needs it: an address equal to an existing one up to case
      is refused, because `get_by_natural_key` compares e-mails ignoring case. */
  function ValidateEmailIgnoringCase(users: seq<User>, email: string): (r: Outcome<string>)
    reads set u | u in users
    ensures r != Crash
    ensures r.Pass? <==> forall u :: u in users ==> !EqualsIgnoreCase(u.email, email)
    ensures r.Pass? ==> r.value == email
    ensures r.Invalid? ==> r.messages == [EmailInUse]
  {
    if |UsersWithEmail(users, email)| > 0 then
      assert UsersWithEmail(users, email)[0] in UsersWithEmail(users, email);
      Invalid([EmailInUse])
    else Pass(email)
  }

  /** Storing one more user extends the natural-key match list at its end. */
  lemma {:induction false} UsersWithEmailAppend(users: seq<User>, v: User, e: string)
    ensures UsersWithEmail(users + [v], e) == UsersWithEmail(users, e) + (if EqualsIgnoreCase(v.email, e) then [v] else [])
    decreases |users|
  {
    if users == [] {
      assert [] + [v] == [v];
    } else {
      assert (users + [v])[1..] == users[1..] + [v];
      UsersWithEmailAppend(users[1..], v, e);
    }
  }

  /** With the corrected check, registering keeps stored e-mails unique up to case, and logging
      in with the registered address finds exactly the new user. */
  lemma {:induction false} RegistrationKeepsLoginUnique(users: seq<User>, email: string, v: User)
    requires UniqueUpToCase(users)
    requires ValidateEmailIgnoringCase(users, email).Pass?
    requires EqualsIgnoreCase(v.email, email)
    ensures UniqueUpToCase(users + [v])
    ensures GetByNaturalKey(users + [v], email) == Found(v)
  {
    var all := users + [v];
    forall i, j | 0 <= i < j < |all| ensures !EqualsIgnoreCase(all[i].email, all[j].email) {
      if j == |users| {
        assert all[i] in users;
      } else {
        assert all[i] == users[i] && all[j] == users[j];
      }
    }
    UsersWithEmailAppend(users, v, email);
  }

  /** With the exact check as written, "a@b" can register next to "A@b"; a login as "a@b" then
      finds two users, and `get` raises. */
  lemma {:induction false} ExactRegistrationBreaksLogin(u: User, v: User)
    requires u.email == "A@b" && v.email == "a@b"
    ensures ValidateEmail([u], "a@b").Pass?
    ensures GetByNaturalKey([u, v], "a@b") == Multiple
  {
    assert "A@b"[0] != "a@b"[0];
    assert Lower("A@b") == Lower("a@b");
    UsersWithEmailAppend([], u, "a@b");
    UsersWithEmailAppend([u], v, "a@b");
    assert [u] + [v] == [u, v];
  }

  /** The password-change payload; `oldPassword` may be absent. */
  datatype PasswordChange = PasswordChange(oldPassword: Option<string>, newPassword: string)

  /** `'old_password' in data and check_password(old_password, u.password)`. */
  predicate OldPasswordCorrect(d: PasswordChange, stored: Option<string>)
  {
    d.oldPassword.Some? && stored == d.oldPassword
  }

  /** `PasswordSerializer.validate` for target user `targetId`: the strength rules first (their
      messages are `strengthErrors`), then either the correct old password or, for someone
      else's account, the `auth.change_user` permission. */
  function PasswordChangeCheck(req: Requester, targetId: nat, stored: Option<string>, d: PasswordChange, strengthErrors: seq<string>): (r: Outcome<PasswordChange>)
    ensures r != Crash
    ensures strengthErrors != [] ==> r == Invalid(strengthErrors)
    ensures strengthErrors == [] && OldPasswordCorrect(d, stored) ==> r == Pass(d)
    ensures strengthErrors == [] && !OldPasswordCorrect(d, stored) ==>
              (r.Pass? <==> req.HasPerm(ChangeUser) && req.user.id != targetId)
    ensures r.Pass? ==> r.value == d
    ensures r.Invalid? && strengthErrors == [] ==> r.messages == [IncorrectPassword]
  {
    if strengthErrors != [] then Invalid(strengthErrors)
    else if !OldPasswordCorrect(d, stored) && (!req.HasPerm(ChangeUser) || req.user.id == targetId) then
      Invalid([IncorrectPassword])
    else Pass(d)
  }

  /** An administrator changing their own password must still give the correct old one. */
  lemma {:induction false} AdminOwnPasswordNeedsOld(p: Principal, stored: Option<string>, d: PasswordChange)
    requires p.HasPerm(ChangeUser) && !OldPasswordCorrect(d, stored)
    ensures PasswordChangeCheck(Authenticated(p), p.id, stored, d, []) == Invalid([IncorrectPassword])
  {
  }

  /** `VerificationSerializer.validate_key`: the unused link with this key; the lookup raises
      if there are several. */
  function ValidateKey(links: seq<VerificationLink>, key: string): (r: Outcome<VerificationLink>)
    reads set l | l in links
    ensures r.Pass? ==> r.value in links && r.value.key == key && r.value.used.None?
    ensures r.Pass? <==> |UnusedWithKey(links, key)| == 1
    ensures r.Invalid? <==> forall l :: l in links ==> l.key != key || l.used.Some?
    ensures r.Invalid? ==> r.messages == [IncorrectKey]
  {
    var m := UnusedWithKey(links, key);
    if |m| == 0 then Invalid([IncorrectKey])
    else if |m| == 1 then assert m[0] in m; Pass(m[0])
    else assert m[0] in m; Crash
  }

  function UnusedWithKey(links: seq<VerificationLink>, key: string): (r: seq<VerificationLink>)
    reads set l | l in links
    ensures forall l :: l in r ==> l in links && l.key == key && l.used.None?
    ensures forall l :: l in links && l.key == key && l.used.None? ==> l in r
  {
    if links == [] then []
    else
      var rest := UnusedWithKey(links[1..], key);
      if links[0].key == key && links[0].used.None? then [links[0]] + rest else rest
  }

  /** The `unique=True` constraint of the key column. */
  predicate UniqueKeys(links: seq<VerificationLink>) {
    forall i, j :: 0 <= i < j < |links| ==> links[i].key != links[j].key
  }

  /** No unused link with the key leaves the filter empty. */
  lemma {:induction false} NoneUnusedWithKey(links: seq<VerificationLink>, key: string)
    requires forall l :: l in links ==> l.key != key || l.used.Some?
    ensures UnusedWithKey(links, key) == []
    decreases |links|
  {
    if links != [] {
      NoneUnusedWithKey(links[1..], key);
    }
  }

  /** Under the constraint, an unused link is found by its key. */
  lemma {:induction false} ValidateKeyFinds(links: seq<VerificationLink>, l: VerificationLink)
    requires UniqueKeys(links) && l in links && l.used.None?
    ensures ValidateKey(links, l.key) == Pass(l)
    decreases |links|
  {
    var tail := links[1..];
    if links[0] == l {
      forall y | y in tail ensures y.key != l.key {
        var j :| 0 <= j < |tail| && tail[j] == y;
        assert links[j + 1] == y;
      }
      NoneUnusedWithKey(tail, l.key);
    } else {
      forall i, j | 0 <= i < j < |tail| ensures tail[i].key != tail[j].key {
        assert tail[i] == links[i + 1] && tail[j] == links[j + 1];
      }
      assert l in tail;
      ValidateKeyFinds(tail, l);
      var k :| 0 <= k < |tail| && tail[k] == l;
      assert links[k + 1] == l;
    }
  }

  /** A verification key works once: after the link is used, the same key is refused. */
  method VerifyTwice(links: seq<VerificationLink>, key: string, now: int) returns (first: Outcome<VerificationLink>, second: Outcome<VerificationLink>)
    requires forall i, j :: 0 <= i < |links| && 0 <= j < |links| && links[i].key == links[j].key ==> i == j
    modifies set l | l in links
    modifies set l | l in links :: l.user
    ensures first.Pass? ==> first.value.user.isVerified && second.Invalid?
  {
    first := ValidateKey(links, key);
    if first.Pass? {
      first.value.Verify(now);
      forall l | l in links && l.key == key ensures l == first.value {
        var i :| 0 <= i < |links| && links[i] == l;
        var j :| 0 <= j < |links| && links[j] == first.value;
      }
    }
    second := ValidateKey(links, key);
  }

  /** `LoginSerializer.validate` on the result of `authenticate`: credentials, then active,
      then verified, the first failure reported. */
  function LoginCheck(authenticated: Option<Principal>): (r: Outcome<Principal>)
    ensures r != Crash
    ensures r.Pass? <==> authenticated.Some? && authenticated.value.isActive && authenticated.value.isVerified
    ensures r.Pass? ==> r.value == authenticated.value
    ensures authenticated.None? ==> r == Invalid([InvalidCredentials])
    ensures authenticated.Some? && !authenticated.value.isActive ==> r == Invalid([NotActive])
    ensures authenticated.Some? && authenticated.value.isActive && !authenticated.value.isVerified ==> r == Invalid([NotVerified])
  {
    match authenticated
    case None => Invalid([InvalidCredentials])
    case Some(u) =>
      if !u.isActive then Invalid([NotActive])
      else if !u.isVerified then Invalid([NotVerified])
      else Pass(u)
  }

  /** An inactive and unverified user is told about the inactive account, not the e-mail. */
  lemma {:induction false} LoginReportsFirstFailure(u: Principal)
    requires !u.isActive && !u.isVerified
    ensures LoginCheck(Some(u)) == Invalid([NotActive])
  {
  }

  /** `PasswordResetRequestSerializer.send_token`: an unknown address yields false without
      sending; otherwise the result of sending the mail (`mailResult`). */
  function SendTokenOutcome(users: seq<User>, email: string, mailResult: bool): (r: Outcome<bool>)
    reads set u | u in users
    ensures (forall u :: u in users ==> u.email != email) ==> r == Pass(false)
    ensures (exists u :: u in users && u.email == email) ==> r.Pass? ==> r.value == mailResult
    ensures !r.Invalid?
    ensures GetByEmail(users, email).Found? ==> r == Pass(mailResult)
    ensures r.Crash? <==> GetByEmail(users, email).Multiple?
  {
    match GetByEmail(users, email)
    case NotFound => Pass(false)
    case Found(_) => Pass(mailResult)
    case Multiple => Crash
  }

  /** With e-mails unique, a request for a stored user's address returns the mail result. */
  lemma SendTokenToStoredUser(users: seq<User>, u: User, mailResult: bool)
    requires UniqueEmails(users) && u in users
    ensures SendTokenOutcome(users, u.email, mailResult) == Pass(mailResult)
  {
    GetByEmailFinds(users, u);
  }

  /** The password-reset payload; `token` and `vetuma` are optional. */
  datatype ResetData = ResetData(email: string, token: Option<string>, vetuma: Option<string>, newPassword: string)

  /** A field of the payload that was sent empty; the serializer's character fields refuse
      blank values before `validate` runs. */
  predicate HasBlankField(d: ResetData) {
    d.email == "" || d.newPassword == "" || d.token == Some("") || d.vetuma == Some("")
  }

  /** `PasswordResetSerializer.validate`, after the field checks: exactly one of token and
      vetuma; the token path needs a user with that e-mail whose token checks (`validTokens`
      holds the pairs the token generator accepts), the vetuma path a user with that e-mail
      and that vetuma code; then the strength rules. The user found is the result. */
  function PasswordResetCheck(users: seq<User>, d: ResetData, validTokens: set<(nat, string)>, strengthErrors: seq<string>): (r: Outcome<User>)
    reads set u | u in users
    ensures HasBlankField(d) ==> r == Invalid([BlankField])
    ensures r.Pass? ==> !HasBlankField(d)
    ensures !HasBlankField(d) && d.token.Some? == d.vetuma.Some? ==> r == Invalid([TokenXorVetuma])
    ensures r.Pass? ==> d.token.Some? != d.vetuma.Some? && strengthErrors == []
    ensures r.Pass? ==> r.value in users && r.value.email == d.email
    ensures r.Pass? && d.token.Some? ==> (r.value.id, d.token.value) in validTokens
    ensures r.Pass? && d.vetuma.Some? ==> r.value.vetuma == d.vetuma.value && r.value.vetuma != ""
    ensures !HasBlankField(d) && d.token.Some? && d.vetuma.None? && (forall u :: u in users ==> u.email != d.email) ==> r == Invalid([InvalidToken])
    ensures !HasBlankField(d) && d.vetuma.Some? && d.token.None? && (forall u :: u in users ==> u.email != d.email) ==> r == Invalid([InvalidVetuma])
    ensures && !HasBlankField(d) && d.token.Some? != d.vetuma.Some? && GetByEmail(users, d.email).Found?
            && ResetProofHolds(GetByEmail(users, d.email).user, d, validTokens) && strengthErrors == []
            ==> r == Pass(GetByEmail(users, d.email).user)
  {
    if HasBlankField(d) then Invalid([BlankField])
    else if d.token.Some? == d.vetuma.Some? then Invalid([TokenXorVetuma])
    else match GetByEmail(users, d.email)
      case Multiple => Crash
      case NotFound => if d.token.Some? then Invalid([InvalidToken]) else Invalid([InvalidVetuma])
      case Found(u) =>
        if d.token.Some? && (u.id, d.token.value) !in validTokens then Invalid([InvalidToken])
        else if d.vetuma.Some? && u.vetuma != d.vetuma.value then Invalid([InvalidVetuma])
        else if strengthErrors != [] then Invalid(strengthErrors)
        else Pass(u)
  }

  /** The proof of identity a reset request carries holds for `u`: the token generator
      accepts the token for `u`, or the vetuma code is `u`'s. */
  predicate ResetProofHolds(u: User, d: ResetData, validTokens: set<(nat, string)>)
    reads u
  {
    && (d.token.Some? ==> (u.id, d.token.value) in validTokens)
    && (d.vetuma.Some? ==> u.vetuma == d.vetuma.value)
  }

  /** With e-mails unique, a complete request for a stored user's e-mail whose proof of
      identity holds and whose new password meets the strength rules resets that user. */
  lemma ResetSucceeds(users: seq<User>, d: ResetData, validTokens: set<(nat, string)>, strengthErrors: seq<string>, u: User)
    requires UniqueEmails(users) && u in users && u.email == d.email
    requires !HasBlankField(d) && d.token.Some? != d.vetuma.Some?
    requires ResetProofHolds(u, d, validTokens) && strengthErrors == []
    ensures PasswordResetCheck(users, d, validTokens, strengthErrors) == Pass(u)
  {
    GetByEmailFinds(users, u);
  }

  /** A user who registered without a vetuma code keeps the default empty one, and no reset
      request can match it. */
  lemma {:induction false} EmptyVetumaNeverResets(users: seq<User>, d: ResetData, validTokens: set<(nat, string)>, strengthErrors: seq<string>, u: User)
    requires u in users && u.vetuma == "" && d.vetuma.Some?
    ensures PasswordResetCheck(users, d, validTokens, strengthErrors) != Pass(u)
  {
  }

  /** `reset_password` after a passing validation: the found user's password is replaced; a
      failed validation changes nothing. The frame lets no other field change. */
  method ResetPassword(users: seq<User>, d: ResetData, validTokens: set<(nat, string)>, strengthErrors: seq<string>) returns (r: Outcome<User>)
    modifies (set u | u in users)`password
    ensures r == old(PasswordResetCheck(users, d, validTokens, strengthErrors))
    ensures r.Pass? ==> r.value.password == Some(d.newPassword)
    ensures forall u :: u in users && (r.Pass? ==> u != r.value) ==> u.password == old(u.password)
  {
    r := PasswordResetCheck(users, d, validTokens, strengthErrors);
    if r.Pass? {
      r.value.password := Some(d.newPassword);
    }
  }
}

=== FILE: user_views.dfy ===
/** The user and user-site endpoints (api/viewsets.py). */
module UserViews {
  import opened Wrappers
  import opened Query
  import opened Requests
  import opened Users
  import opened UserValidation

  const CannotDeleteSelf := "Cannot delete self"
  const NoPermission := "You do not have permission to perform this action."
  const DeleteUser := "auth.delete_user"

  /** `UserViewSet.get_queryset`: active users only; none for the anonymous user, only oneself
      for a non-staff user, all of them for staff. */
  function UserQueryset(users: seq<User>, req: Requester): (r: seq<User>)
    reads set u | u in users
    ensures forall u :: u in r ==> u in users && u.isActive
    ensures req.Anonymous? ==> r == []
    ensures req.Authenticated? && !req.user.isStaff ==> forall u :: u in r ==> u.id == req.user.id
    ensures req.IsStaff() ==> forall u :: u in users && u.isActive ==> u in r
    ensures req.Authenticated? ==> forall u :: u in users && u.isActive && u.id == req.user.id ==> u in r
  {
    if users == [] then []
    else
      var rest := UserQueryset(users[1..], req);
      var u := users[0];
      assert forall v :: v in users ==> v == u || v in users[1..];
      if u.isActive && req.Authenticated? && (req.user.isStaff || u.id == req.user.id) then [u] + rest else rest
  }

  /** `UserViewSet.check_object_permissions` on user `objId`: reads always pass; a PUT passes
      on oneself or with `auth.change_user`; a DELETE passes with `auth.delete_user` except
      on oneself; everything else is denied. */
  function UserObjectCheck(req: Requester, m: Method, objId: nat): (v: Verdict)
    ensures v != Fault
    ensures v == Allow <==>
              || m == GET
              || (m == PUT && ((req.Authenticated? && req.user.id == objId) || req.HasPerm(ChangeUser)))
              || (m == DELETE && req.HasPerm(DeleteUser) && !(req.Authenticated? && req.user.id == objId))
    ensures v == Deny(CannotDeleteSelf) <==> m == DELETE && req.HasPerm(DeleteUser) && req.user.id == objId
  {
    var self := req.Authenticated? && req.user.id == objId;
    if m == GET then Allow
    else if m == PUT && self then Allow
    else if m == PUT && req.HasPerm(ChangeUser) then Allow
    else if m == DELETE && req.HasPerm(DeleteUser) then
      if self then Deny(CannotDeleteSelf) else Allow
    else Deny(NoPermission)
  }

  /** PATCH, HEAD and OPTIONS on a user object are always refused. */
  lemma {:induction false} OtherMethodsDenied(req: Requester, m: Method, objId: nat)
    requires m == PATCH || m == HEAD || m == OPTIONS || m == POST
    ensures UserObjectCheck(req, m, objId) == Deny(NoPermission)
  {
  }

  /** User ids are primary keys: no two stored users share one. */
  predicate UniqueUserIds(users: seq<User>) {
    forall i, j :: 0 <= i < |users| && 0 <= j < |users| && users[i].id == users[j].id ==> i == j
  }

  /** The lookup `pk=...` on users. */
  function HasUserId(pk: nat): User -> bool {
    (u: User) => u.id == pk
  }

  /** The queryset never holds more rows matching a lookup than the table does. */
  lemma {:induction false} UserQuerysetNarrows(users: seq<User>, req: Requester, q: User -> bool)
    ensures |Filter(UserQueryset(users, req), q)| <= |Filter(users, q)|
    decreases |users|
  {
    if users != [] {
      UserQuerysetNarrows(users[1..], req, q);
      var rest := UserQueryset(users[1..], req);
      assert ([users[0]] + rest)[1..] == rest;
    }
  }

  /** `get_object`: the user `pk` within the requester's queryset, else 404. */
  function UserTarget(users: seq<User>, req: Requester, pk: nat): (r: Option<User>)
    reads set u | u in users
    ensures r.Some? ==> r.value in users && r.value.id == pk && r.value.isActive
    ensures r.Some? && !req.IsStaff() ==> req.Authenticated? && req.user.id == pk
  {
    match Get(UserQueryset(users, req), HasUserId(pk))
    case Found(u) => Some(u)
    case _ => None
  }

  /** With ids unique, an active user `pk` whom the requester may see (staff sees everyone,
      anyone else only themself) is the one found. */
  lemma {:induction false} UserTargetFinds(users: seq<User>, req: Requester, pk: nat, u: User)
    requires UniqueUserIds(users) && u in users && u.id == pk && u.isActive
    requires req.Authenticated? && (req.user.isStaff || req.user.id == pk)
    ensures UserTarget(users, req, pk) == Some(u)
  {
    UniqueAtMostOne(users, HasUserId(pk));
    UserQuerysetNarrows(users, req, HasUserId(pk));
    GetUnique(UserQueryset(users, req), HasUserId(pk), u);
  }

  /** The outcome of `DELETE /users/{pk}`. */
  function DestroyDecision(users: seq<User>, req: Requester, pk: nat): (st: Status)
    reads set u | u in users
    ensures st == NoContent204 ==> req.HasPerm(DeleteUser) && req.user.id != pk
    ensures st == NoContent204 ==> UserTarget(users, req, pk).Some?
    ensures req.Anonymous? ==> st == NotFound404
    ensures st == NotFound404 <==> UserTarget(users, req, pk).None?
    ensures UserTarget(users, req, pk).Some? && req.HasPerm(DeleteUser) && req.user.id != pk ==> st == NoContent204
    ensures st == Forbidden403 <==> UserTarget(users, req, pk).Some? && !(req.HasPerm(DeleteUser) && req.user.id != pk)
  {
    match UserTarget(users, req, pk)
    case None => NotFound404
    case Some(u) => if UserObjectCheck(req, DELETE, u.id) == Allow then NoContent204 else Forbidden403
  }

  /** `destroy` with `perform_destroy`: the account is deactivated, not deleted; the frame
      lets no field of any user but `isActive` change. */
  method Destroy(users: seq<User>, req: Requester, pk: nat) returns (st: Status)
    modifies (set u | u in users)`isActive
    ensures st == old(DestroyDecision(users, req, pk))
    ensures st == NoContent204 ==> !old(UserTarget(users, req, pk)).value.isActive
    ensures forall u :: u in users && (st != NoContent204 || Some(u) != old(UserTarget(users, req, pk))) ==> u.isActive == old(u.isActive)
  {
    st := DestroyDecision(users, req, pk);
    if st == NoContent204 {
      var u := UserTarget(users, req, pk).value;
      u.isActive := false;
    }
  }

  /** A deactivated account disappears from every listing. */
  lemma {:induction false} DeactivatedNotListed(users: seq<User>, req: Requester, u: User)
    requires u in users && !u.isActive
    ensures u !in UserQueryset(users, req)
  {
  }

  /** The outcome of `PUT /users/{pk}/change_password/`: lookup, the PUT object rule, then
      `PasswordSerializer.validate`. */
  function ChangePasswordDecision(users: seq<User>, req: Requester, pk: nat, d: PasswordChange, strengthErrors: seq<string>): (st: Status)
    reads set u | u in users
    ensures st == Ok200 ==> UserTarget(users, req, pk).Some?
    ensures st == Ok200 && !req.HasPerm(ChangeUser) ==>
              req.Authenticated? && req.user.id == pk && OldPasswordCorrect(d, UserTarget(users, req, pk).value.password)
    ensures st == Ok200 ==> strengthErrors == []
    ensures st == NotFound404 <==> UserTarget(users, req, pk).None?
    ensures st == Forbidden403 <==>
              && UserTarget(users, req, pk).Some?
              && !((req.Authenticated? && req.user.id == pk) || req.HasPerm(ChangeUser))
    ensures && UserTarget(users, req, pk).Some?
            && ((req.Authenticated? && req.user.id == pk) || req.HasPerm(ChangeUser))
            && PasswordChangeCheck(req, pk, UserTarget(users, req, pk).value.password, d, strengthErrors).Pass?
            ==> st == Ok200
  {
    match UserTarget(users, req, pk)
    case None => NotFound404
    case Some(u) =>
      if UserObjectCheck(req, PUT, u.id) != Allow then Forbidden403
      else if PasswordChangeCheck(req, u.id, u.password, d, strengthErrors).Pass? then Ok200
      else BadRequest400
  }

  /** `change_password`: on success only the target's password changes (the frame lets no
      other field change). */
  method ChangePassword(users: seq<User>, req: Requester, pk: nat, d: PasswordChange, strengthErrors: seq<string>) returns (st: Status)
    modifies (set u | u in users)`password
    ensures st == old(ChangePasswordDecision(users, req, pk, d, strengthErrors))
    ensures st == Ok200 ==> old(UserTarget(users, req, pk)).value.password == Some(d.newPassword)
    ensures forall u :: u in users && (st != Ok200 || Some(u) != old(UserTarget(users, req, pk))) ==> u.password == old(u.password)
  {
    st := ChangePasswordDecision(users, req, pk, d, strengthErrors);
    if st == Ok200 {
      var u := UserTarget(users, req, pk).value;
      u.password := Some(d.newPassword);
    }
  }

  /** A stored `UserSite`. */
  datatype UserSite = UserSite(id: nat, userId: nat, street: string, street2: string, postalcode: string, city: string, country: string)

  /** `UserSiteViewSet.get_queryset` (the view requires authentication): staff see every
      site, others only their own. */
  function VisibleSites(sites: seq<UserSite>, p: Principal): (r: seq<UserSite>)
    ensures p.isStaff ==> r == sites
    ensures !p.isStaff ==> forall s :: s in r <==> s in sites && s.userId == p.id
  {
    if p.isStaff then sites else Filter(sites, (s: UserSite) => s.userId == p.id)
  }

  /** `UserSiteViewSet.perform_create`: the site belongs to the requester, unless a staff
      requester gives a truthy `user` override. */
  function SiteOwner(p: Principal, overrideUser: Option<nat>): (owner: nat)
    ensures !p.isStaff ==> owner == p.id
    ensures p.isStaff && overrideUser.Some? && overrideUser.value != 0 ==> owner == overrideUser.value
    ensures overrideUser.None? ==> owner == p.id
  {
    if !p.isStaff || overrideUser.None? || overrideUser.value == 0 then p.id else overrideUser.value
  }

  /** A site a non-staff user creates is always listed for them. */
  lemma {:induction false} CreatedSiteVisible(p: Principal, overrideUser: Option<nat>, sites: seq<UserSite>, s: UserSite)
    requires !p.isStaff && s.userId == SiteOwner(p, overrideUser)
    ensures s in VisibleSites(sites + [s], p)
  {
    assert s in sites + [s];
  }
}

=== FILE: users.dfy ===
/** Users, the user manager and e-mail verification links (palvelutori/models.py). */
module Users {
  import opened Wrappers
  import opened Text

  /** What an access rule sees of the authenticated user while it decides. */
  datatype Principal = Principal(
    id: nat,
    isStaff: bool,
    isSuperuser: bool,
    companyId: Option<nat>,
    perms: set<string>,
    isActive: bool,
    isVerified: bool)
  {
    /** Django's `has_perm`: an active superuser holds every permission; an inactive user none. */
    predicate HasPerm(perm: string) {
      isActive && (isSuperuser || perm in perms)
    }
  }

  /** `request.user`: the anonymous user or an authenticated one. */
  datatype Requester = Anonymous | Authenticated(user: Principal) {
    predicate IsStaff() {
      Authenticated? && user.isStaff
    }

    /** The anonymous user holds no permission. */
    predicate HasPerm(perm: string) {
      Authenticated? && user.HasPerm(perm)
    }
  }

  /** Keyword arguments of `create_user` beyond e-mail and password; `None` = not given. */
  datatype ExtraFields = ExtraFields(
    isStaff: Option<bool>,
    isSuperuser: Option<bool>,
    isVerified: Option<bool>,
    firstName: string,
    lastName: string,
    vetuma: string)

  class User {
    const id: nat
    const companyId: Option<nat>
    var email: string
    /** The password given to `set_password` (`None`: unusable); hashing is not modelled. */
    var password: Option<string>
    var firstName: string
    var lastName: string
    var vetuma: string
    var isStaff: bool
    var isSuperuser: bool
    var isActive: bool
    var isVerified: bool
    var perms: set<string>

    /** `self.model(email=email, **extra_fields)` followed by `set_password`: model
        defaults for every flag not given, an active account with no company. */
    constructor (id: nat, email: string, password: Option<string>, extra: ExtraFields)
      ensures this.id == id && this.email == email && this.password == password
      ensures firstName == extra.firstName && lastName == extra.lastName && vetuma == extra.vetuma
      ensures isStaff == extra.isStaff.GetOr(false)
      ensures isSuperuser == extra.isSuperuser.GetOr(false)
      ensures isVerified == extra.isVerified.GetOr(false)
      ensures isActive && companyId == None && perms == {}
    {
      this.id := id;
      this.companyId := None;
      this.email := email;
      this.password := password;
      firstName := extra.firstName;
      lastName := extra.lastName;
      vetuma := extra.vetuma;
      isStaff := extra.isStaff.GetOr(false);
      isSuperuser := extra.isSuperuser.GetOr(false);
      isVerified := extra.isVerified.GetOr(false);
      isActive := true;
      perms := {};
    }

    function AsPrincipal(): (p: Principal)
      reads this
      ensures p.id == id && p.companyId == companyId && p.perms == perms
      ensures p.isStaff == isStaff && p.isSuperuser == isSuperuser
      ensures p.isActive == isActive && p.isVerified == isVerified
    {
      Principal(id, isStaff, isSuperuser, companyId, perms, isActive, isVerified)
    }

    function GetFullName(): string
      reads this
    {
      FullName(firstName, lastName)
    }

    /** Makes the e-mail undeliverable and drops the Vetuma identity before a dump;
        every other field keeps its value (the frame names only these two). */
    method AnonymizeForDump()
      modifies this`email, this`vetuma
      ensures email == old(email) + AnonymizedSuffix
      ensures vetuma == ""
    {
      email := email + AnonymizedSuffix;
      vetuma := "";
    }
  }

  const AnonymizedSuffix := ".example.org"

  /** `get_full_name`: first and last name joined by a space, outer whitespace removed. */
  function FullName(first: string, last: string): string {
    Strip(first + " " + last)
  }

  /** For names without outer whitespace the space appears only between two non-empty parts. */
  lemma {:induction false} FullNameOfTrimmedParts(first: string, last: string)
    requires Trimmed(first) && Trimmed(last)
    ensures first != "" && last != "" ==> FullName(first, last) == first + " " + last
    ensures last == "" ==> FullName(first, last) == first
    ensures first == "" ==> FullName(first, last) == last
  {
    if first != "" && last != "" {
      var s := first + " " + last;
      assert s[0] == first[0] && s[|s| - 1] == last[|last| - 1];
      StripOfTrimmed(s);
    } else if last == "" {
      FullNameWithoutLast(first);
    } else {
      FullNameWithoutFirst(last);
    }
  }

  /** Without a last name the trailing space is stripped. */
  lemma {:induction false} FullNameWithoutLast(first: string)
    requires Trimmed(first)
    ensures FullName(first, "") == first
  {
    var s := first + " " + "";
    assert s[..|s| - 1] == first;
    if first == "" {
      assert s[1..] == [];
      assert StripLeft(s) == [];
    } else {
      assert s[0] == first[0];
      assert StripLeft(s) == s;
      assert StripRight(s) == StripRight(first);
    }
  }

  /** Without a first name the leading space is stripped. */
  lemma {:induction false} FullNameWithoutFirst(last: string)
    requires Trimmed(last)
    ensures FullName("", last) == last
  {
    var s := "" + " " + last;
    assert s[1..] == last;
    assert StripLeft(s) == StripLeft(last);
    if last != "" {
      assert StripLeft(last) == last;
    }
  }

  /** `BaseUserManager.normalize_email`: the part after the last '@' of the stripped address
      is lower-cased; an address without '@' is returned untouched. */
  function NormalizeEmail(email: string): (r: string)
    ensures '@' !in Strip(email) ==> r == email
    ensures var t := Strip(email);
            '@' in t ==>
              var i := LastIndexOf(t, '@');
              && |r| == |t| && EqualsIgnoreCase(r, t)
              && r[..i] == t[..i] && r[i] == '@'
              && (forall k :: i < k < |r| ==> !('A' <= r[k] <= 'Z'))
  {
    var t := Strip(email);
    if '@' in t then LowerDomain(t, LastIndexOf(t, '@')) else email
  }

  /** The address `t` whose '@' sits at `i`, with the part after it lower-cased: it differs
      from `t` at most in case, and only after the '@'. */
  function LowerDomain(t: string, i: nat): (r: string)
    requires i < |t| && t[i] == '@'
    ensures |r| == |t| && EqualsIgnoreCase(r, t)
    ensures r[..i] == t[..i] && r[i] == '@'
    ensures forall k :: i < k < |t| ==> r[k] == LowerChar(t[k])
    ensures forall k :: i < k < |t| ==> !('A' <= r[k] <= 'Z')
  {
    LowerDomainOnly(t, i);
    t[..i] + "@" + Lower(t[i + 1..])
  }

  /** Lower-casing only the part after the '@' changes the address at most in case. */
  lemma {:induction false} LowerDomainOnly(t: string, i: nat)
    requires i < |t| && t[i] == '@'
    ensures EqualsIgnoreCase(t[..i] + "@" + Lower(t[i + 1..]), t)
    ensures forall k :: i < k < |t| ==> (t[..i] + "@" + Lower(t[i + 1..]))[k] == LowerChar(t[k])
  {
    var r := t[..i] + "@" + Lower(t[i + 1..]);
    assert |r| == |t|;
    forall k | i < k < |t| ensures r[k] == LowerChar(t[k]) {
      assert r[k] == Lower(t[i + 1..])[k - i - 1];
    }
    forall k | 0 <= k < |t|
      ensures LowerChar(r[k]) == LowerChar(t[k])
    {
      if k > i {
        assert r[k] == Lower(t[i + 1..])[k - i - 1];
      }
    }
    assert Lower(r) == Lower(t);
  }

  /** `setdefault` in `create_user`: staff and superuser default to false unless given. */
  function CreateUserDefaults(extra: ExtraFields): (r: ExtraFields)
    ensures r.isStaff == (if extra.isStaff.None? then Some(false) else extra.isStaff)
    ensures r.isSuperuser == (if extra.isSuperuser.None? then Some(false) else extra.isSuperuser)
    ensures r.(isStaff := extra.isStaff, isSuperuser := extra.isSuperuser) == extra
  {
    extra.(isStaff := Some(extra.isStaff.GetOr(false)),
           isSuperuser := Some(extra.isSuperuser.GetOr(false)))
  }

  const StaffRequired := "Superuser must have is_staff=True."
  const SuperuserRequired := "Superuser must have is_superuser=True."
  const EmailRequired := "The given email must be set"

  /** `create_superuser` before it creates: staff, superuser and verified default to true,
      and a staff or superuser flag given as anything but true is refused. */
  function SuperuserDefaults(extra: ExtraFields): (r: Result<ExtraFields, string>)
    ensures r.Ok? <==> extra.isStaff != Some(false) && extra.isSuperuser != Some(false)
    ensures r.Ok? ==> r.value.isStaff == Some(true) && r.value.isSuperuser == Some(true)
    ensures r.Ok? ==> r.value.isVerified == (if extra.isVerified.None? then Some(true) else extra.isVerified)
    ensures r.Ok? ==> r.value.(isStaff := extra.isStaff, isSuperuser := extra.isSuperuser, isVerified := extra.isVerified) == extra
    ensures r.Err? ==> r.error == if extra.isStaff == Some(false) then StaffRequired else SuperuserRequired
  {
    var f := extra.(isStaff := Some(extra.isStaff.GetOr(true)),
                    isSuperuser := Some(extra.isSuperuser.GetOr(true)),
                    isVerified := Some(extra.isVerified.GetOr(true)));
    match (f.isStaff, f.isSuperuser)
    case (Some(true), Some(true)) => Ok(f)
    case (Some(true), _) => Err(SuperuserRequired)
    case _ => Err(StaffRequired)
  }

  /** `_create_user`: an empty e-mail raises; otherwise a new user with the normalised e-mail. */
  method CreateUserRecord(id: nat, email: string, password: Option<string>, extra: ExtraFields)
    returns (r: Result<User, string>)
    ensures r.Err? <==> email == ""
    ensures r.Err? ==> r.error == EmailRequired
    ensures r.Ok? ==> fresh(r.value) && r.value.id == id && r.value.email == NormalizeEmail(email)
    ensures r.Ok? ==> r.value.password == password && r.value.isActive
    ensures r.Ok? ==> r.value.isStaff == extra.isStaff.GetOr(false)
    ensures r.Ok? ==> r.value.isSuperuser == extra.isSuperuser.GetOr(false)
    ensures r.Ok? ==> r.value.isVerified == extra.isVerified.GetOr(false)
  {
    if email == "" {
      return Err(EmailRequired);
    }
    var u := new User(id, NormalizeEmail(email), password, extra);
    return Ok(u);
  }

  /** `create_user`: a user that is neither staff nor superuser unless asked for. */
  method CreateUser(id: nat, email: string, password: Option<string>, extra: ExtraFields)
    returns (r: Result<User, string>)
    ensures r.Err? <==> email == ""
    ensures r.Ok? ==> fresh(r.value) && r.value.email == NormalizeEmail(email)
    ensures r.Ok? ==> r.value.isStaff == extra.isStaff.GetOr(false)
    ensures r.Ok? ==> r.value.isSuperuser == extra.isSuperuser.GetOr(false)
  {
    r := CreateUserRecord(id, email, password, CreateUserDefaults(extra));
  }

  /** `create_superuser`: the flag check comes before the e-mail check. */
  method CreateSuperuser(id: nat, email: string, password: Option<string>, extra: ExtraFields)
    returns (r: Result<User, string>)
    ensures (extra.isStaff == Some(false) || extra.isSuperuser == Some(false)) ==> r.Err? && r.error != EmailRequired
    ensures r.Ok? <==> email != "" && extra.isStaff != Some(false) && extra.isSuperuser != Some(false)
    ensures r.Ok? ==> fresh(r.value) && r.value.isStaff && r.value.isSuperuser
    ensures r.Ok? ==> r.value.isVerified == extra.isVerified.GetOr(true)
  {
    var d := SuperuserDefaults(extra);
    if d.Err? {
      return Err(d.error);
    }
    r := CreateUserRecord(id, email, password, d.value);
  }

  /** The users whose e-mail matches `username` ignoring case, in stored order. */
  function UsersWithEmail(users: seq<User>, username: string): (r: seq<User>)
    reads set u | u in users
    ensures forall u :: u in r ==> u in users && EqualsIgnoreCase(u.email, username)
    ensures forall u :: u in users && EqualsIgnoreCase(u.email, username) ==> u in r
  {
    if users == [] then []
    else
      var rest := UsersWithEmail(users[1..], username);
      if EqualsIgnoreCase(users[0].email, username) then [users[0]] + rest else rest
  }

  datatype Lookup = Found(user: User) | NotFound | Multiple

  /** `get_by_natural_key`: `get(email__iexact=username)`. */
  function GetByNaturalKey(users: seq<User>, username: string): (r: Lookup)
    reads set u | u in users
    ensures r.Found? ==> r.user in users && EqualsIgnoreCase(r.user.email, username)
    ensures r.NotFound? <==> forall u :: u in users ==> !EqualsIgnoreCase(u.email, username)
    ensures r.Found? <==> |UsersWithEmail(users, username)| == 1
  {
    var m := UsersWithEmail(users, username);
    if |m| == 0 then NotFound
    else if |m| == 1 then assert m[0] in m; Found(m[0])
    else assert m[0] in m; Multiple
  }

  /** No two stored e-mails are equal up to case. */
  predicate UniqueUpToCase(users: seq<User>)
    reads set u | u in users
  {
    forall i, j :: 0 <= i < j < |users| ==> !EqualsIgnoreCase(users[i].email, users[j].email)
  }

  /** No user matching the username leaves the filter empty. */
  lemma {:induction false} NoneWithEmail(users: seq<User>, username: string)
    requires forall u :: u in users ==> !EqualsIgnoreCase(u.email, username)
    ensures UsersWithEmail(users, username) == []
    decreases |users|
  {
    if users != [] {
      NoneWithEmail(users[1..], username);
    }
  }

  /** With e-mails unique up to case, at most one user matches a username. */
  lemma {:induction false} UsersWithEmailAtMostOne(users: seq<User>, username: string)
    requires UniqueUpToCase(users)
    ensures |UsersWithEmail(users, username)| <= 1
    decreases |users|
  {
    if users != [] {
      var tail := users[1..];
      forall i, j | 0 <= i < j < |tail| ensures !EqualsIgnoreCase(tail[i].email, tail[j].email) {
        assert tail[i] == users[i + 1] && tail[j] == users[j + 1];
      }
      UsersWithEmailAtMostOne(tail, username);
      if EqualsIgnoreCase(users[0].email, username) {
        forall y | y in tail ensures !EqualsIgnoreCase(y.email, username) {
          var j :| 0 <= j < |tail| && tail[j] == y;
          assert users[j + 1] == y;
        }
        NoneWithEmail(tail, username);
      }
    }
  }

  /** With e-mails unique up to case, a user whose e-mail matches the username up to case is
      the one `get_by_natural_key` returns. */
  lemma {:induction false} GetByNaturalKeyFinds(users: seq<User>, username: string, u: User)
    requires UniqueUpToCase(users)
    requires u in users && EqualsIgnoreCase(u.email, username)
    ensures GetByNaturalKey(users, username) == Found(u)
  {
    UsersWithEmailAtMostOne(users, username);
    var m := UsersWithEmail(users, username);
    assert u in m;
    assert m == [m[0]];
  }

  /** The lookup only sees the e-mail up to case: two spellings of it find the same user. */
  lemma {:induction false} NaturalKeyIgnoresCase(users: seq<User>, a: string, b: string)
    requires EqualsIgnoreCase(a, b)
    ensures UsersWithEmail(users, a) == UsersWithEmail(users, b)
    ensures GetByNaturalKey(users, a) == GetByNaturalKey(users, b)
    decreases |users|
  {
    if users != [] {
      NaturalKeyIgnoresCase(users[1..], a, b);
    }
  }

  const KeyLength := 32
  const KeyAlphabet := "ABCDEFGHIJKLMNOPQRSTUVWXYZ0123456789"

  /** The key built from the random source's draws, one alphabet position per character. */
  function KeyFromDraws(draws: seq<nat>): (key: string)
    requires forall i :: 0 <= i < |draws| ==> draws[i] < |KeyAlphabet|
    ensures |key| == |draws|
    ensures forall i :: 0 <= i < |key| ==> ('A' <= key[i] <= 'Z') || ('0' <= key[i] <= '9')
  {
    if draws == [] then [] else [KeyAlphabet[draws[0]]] + KeyFromDraws(draws[1..])
  }

  class VerificationLink {
    const user: User
    const key: string
    var used: Option<int>

    /** `create_for`: a fresh, unused link whose key is 32 characters from A-Z and 0-9;
        `draws` are the positions `SystemRandom().choice` picked. */
    constructor CreateFor(user: User, draws: seq<nat>)
      requires |draws| == KeyLength
      requires forall i :: 0 <= i < |draws| ==> draws[i] < |KeyAlphabet|
      ensures this.user == user && used == None
      ensures |key| == KeyLength
      ensures forall i :: 0 <= i < |key| ==> ('A' <= key[i] <= 'Z') || ('0' <= key[i] <= '9')
    {
      this.user := user;
      key := KeyFromDraws(draws);
      used := None;
    }

    /** `verify`: marks the user verified and stamps the link as used. */
    method Verify(now: int)
      modifies this`used, user`isVerified
      ensures user.isVerified && used == Some(now)
    {
      user.isVerified := true;
      used := Some(now);
    }
  }
}

=== FILE: wrappers.dfy ===
/** Optional values and results with an error, used for nullable columns and raised errors. */
module Wrappers {

  datatype Option<+T> = None | Some(value: T) {
    function GetOr(default: T): T {
      match this
      case Some(v) => v
      case None => default
    }
  }

  datatype Result<+T, +E> = Ok(value: T) | Err(error: E)
}

=== FILE: ytr_import.dfy ===
/** Importing companies from the national business registry's result nodes (ytr/parser.py). */
module YtrImport {
  import opened Wrappers
  import opened Query
  import opened Companies

  /** An electronic contact or a phone number of a registry node, with its type code. */
  datatype Contact = Contact(code: int, value: string)

  /** An address of a registry node; the second and third street lines may be null. */
  datatype AddressNode = AddressNode(typeCode: string, street: string, street2: Option<string>, street3: Option<string>,
                                     postalcode: string, city: string, country: string)

  /** One "Yritys" node. `code` is the optional registry code. */
  datatype CompanyNode = CompanyNode(businessid: string, name: string, emails: seq<Contact>, phones: seq<Contact>,
                                     code: Option<string>, addresses: seq<AddressNode>)

  const EmailCode := 1
  const PhoneCode := 5
  const SnailMail := "snailmail"

  /** `address_type`: registry code "3" is a postal address, every other code is unknown. */
  function AddressType(code: string): (t: string)
    ensures code == "3" ==> t == SnailMail
    ensures code != "3" ==> t == "unknown"
  {
    if code == "3" then SnailMail else "unknown"
  }

  /** The address row stored for a registry address; null or empty extra street lines become ''. */
  function AddressFor(a: AddressNode): (r: Address)
    ensures r.addressType == AddressType(a.typeCode)
    ensures r.street == a.street && r.postalcode == a.postalcode && r.city == a.city && r.country == a.country
    ensures r.street2 == a.street2.GetOr("") && r.street3 == a.street3.GetOr("")
    ensures r.name == "" && r.postbox == "" && r.subregion == ""
  {
    Address("", AddressType(a.typeCode), a.street, a.street2.GetOr(""), a.street3.GetOr(""), "", a.postalcode, a.city, "", a.country)
  }

  function AddressesFor(nodes: seq<AddressNode>): (r: seq<Address>)
    ensures |r| == |nodes|
    ensures forall i :: 0 <= i < |r| ==> r[i] == AddressFor(nodes[i])
  {
    if nodes == [] then [] else [AddressFor(nodes[0])] + AddressesFor(nodes[1..])
  }

  /** The value of the first contact with type `code`, if any. */
  function FirstContact(contacts: seq<Contact>, code: int): (r: Option<string>)
    ensures r.None? <==> forall i :: 0 <= i < |contacts| ==> contacts[i].code != code
    ensures r.Some? ==> exists i :: 0 <= i < |contacts| && contacts[i].code == code && contacts[i].value == r.value
                                    && forall j :: 0 <= j < i ==> contacts[j].code != code
  {
    if contacts == [] then None
    else if contacts[0].code == code then Some(contacts[0].value)
    else
      var r := FirstContact(contacts[1..], code);
      if r.Some? then
        var i :| 0 <= i < |contacts[1..]| && contacts[1..][i].code == code && contacts[1..][i].value == r.value
                 && forall j :: 0 <= j < i ==> contacts[1..][j].code != code;
        assert contacts[i + 1].code == code && contacts[i + 1].value == r.value;
        r
      else r
  }

  /** The e-mail and phone loops: the first contact of the wanted type replaces the current
      value and ends the loop; with none, the current value stays. */
  method SelectContact(contacts: seq<Contact>, code: int, current: string) returns (v: string)
    ensures v == FirstContact(contacts, code).GetOr(current)
  {
    v := current;
    var i := 0;
    while i < |contacts|
      invariant 0 <= i <= |contacts|
      invariant v == current
      invariant FirstContact(contacts, code) == FirstContact(contacts[i..], code)
    {
      if contacts[i].code == code {
        v := contacts[i].value;
        break;
      }
      assert contacts[i..][1..] == contacts[i + 1..];
      i := i + 1;
    }
  }

  /** The stored companies, one per business id, and the next primary key. */
  class CompanyStore {
    var companies: seq<Company>
    var nextId: nat

    predicate Valid()
      reads this
    {
      forall i, j :: 0 <= i < j < |companies| ==> companies[i].businessid != companies[j].businessid
    }

    constructor ()
      ensures companies == [] && nextId == 0 && Valid()
    {
      companies := [];
      nextId := 0;
    }
  }

  /** `Company.objects.get(businessid=...)`. */
  function FindCompany(companies: seq<Company>, businessid: string): (r: Option<Company>)
    ensures r.Some? ==> r.value in companies && r.value.businessid == businessid
    ensures r.None? ==> forall c :: c in companies ==> c.businessid != businessid
  {
    match Get(companies, (c: Company) => c.businessid == businessid)
    case Found(c) => Some(c)
    case NotFound => None
    case Multiple =>
      var m := Filter(companies, (c: Company) => c.businessid == businessid);
      assert m[0] in m;
      Some(m[0])
  }

  /** The registry's values as `import_company` writes them onto a company: the name, the first
      e-mail and phone of the right type (else the current ones), the registry code when the
      company has none yet, and exactly the node's addresses. */
  method Fill(c: Company, node: CompanyNode)
    modifies c`name, c`email, c`phone, c`ytrCode, c`addresses
    ensures c.name == node.name
    ensures c.email == FirstContact(node.emails, EmailCode).GetOr(old(c.email))
    ensures c.phone == FirstContact(node.phones, PhoneCode).GetOr(old(c.phone))
    ensures c.ytrCode == (if old(c.ytrCode).Some? then old(c.ytrCode)
                          else if node.code.Some? && node.code.value != "" then node.code else None)
    ensures c.addresses == AddressesFor(node.addresses)
    ensures c.HasYtr() <==> old(c.HasYtr()) || (node.code.Some? && node.code.value != "")
  {
    c.name := node.name;
    var email := SelectContact(node.emails, EmailCode, c.email);
    c.email := email;
    var phone := SelectContact(node.phones, PhoneCode, c.phone);
    c.phone := phone;
    if !c.HasYtr() && node.code.Some? && node.code.value != "" {
      c.ytrCode := node.code;
    }
    c.addresses := AddressesFor(node.addresses);
  }

  /** A new company for an unknown business id, marked as new and appended to the store. */
  method AddCompany(store: CompanyStore, businessid: string) returns (c: Company)
    requires store.Valid()
    requires forall d :: d in store.companies ==> d.businessid != businessid
    modifies store
    ensures fresh(c) && store.Valid()
    ensures store.companies == old(store.companies) + [c] && store.nextId == old(store.nextId) + 1
    ensures c.id == old(store.nextId) && c.businessid == businessid && c.isNew
    ensures c.name == "" && c.serviceAreas == [] && c.pricePerHour == None && c.pricePerHourContinuing == None
    ensures c.phone == "" && c.email == "" && c.ytrCode == None && c.offeredServices == {}
  {
    c := new Company(store.nextId, businessid);
    c.isNew := true;
    store.companies := store.companies + [c];
    store.nextId := store.nextId + 1;
  }

  /** `import_company`: an existing company is skipped unless `overwrite`; otherwise the
      existing company, or a new one, is filled from the node. */
  method ImportCompany(store: CompanyStore, node: CompanyNode, overwrite: bool) returns (r: Option<Company>)
    requires store.Valid()
    modifies store, (set c | c in store.companies)`name, (set c | c in store.companies)`email, (set c | c in store.companies)`phone
    modifies (set c | c in store.companies)`ytrCode, (set c | c in store.companies)`addresses
    ensures store.Valid()
    ensures var found := FindCompany(old(store.companies), node.businessid);
            && (found.Some? && !overwrite ==> r.None? && store.companies == old(store.companies))
            && (found.Some? && overwrite ==> r == found && store.companies == old(store.companies))
            && (found.None? ==> r.Some? && fresh(r.value) && store.companies == old(store.companies) + [r.value])
    ensures forall c :: c in old(store.companies) && (r.None? || c != r.value) ==> unchanged(c)
    ensures r.Some? ==> r.value.businessid == node.businessid && r.value.name == node.name
                        && r.value.addresses == AddressesFor(node.addresses)
    ensures r.Some? && !fresh(r.value) ==>
              && r.value.email == FirstContact(node.emails, EmailCode).GetOr(old(r.value.email))
              && r.value.phone == FirstContact(node.phones, PhoneCode).GetOr(old(r.value.phone))
              && r.value.ytrCode == (if old(r.value.ytrCode).Some? then old(r.value.ytrCode)
                                     else if node.code.Some? && node.code.value != "" then node.code else None)
    ensures r.Some? && fresh(r.value) ==>
              && r.value.isNew && r.value.serviceAreas == []
              && r.value.pricePerHour == None && r.value.pricePerHourContinuing == None
              && r.value.id == old(store.nextId)
              && r.value.email == FirstContact(node.emails, EmailCode).GetOr("")
              && r.value.phone == FirstContact(node.phones, PhoneCode).GetOr("")
              && r.value.ytrCode == (if node.code.Some? && node.code.value != "" then node.code else None)
  {
    var found := FindCompany(store.companies, node.businessid);
    var c: Company;
    if found.Some? {
      if !overwrite {
        return None;
      }
      c := found.value;
    } else {
      c := AddCompany(store, node.businessid);
    }
    Fill(c, node);
    r := Some(c);
  }

  /** The business ids present in a company table. */
  function BusinessIds(companies: seq<Company>): set<string> {
    set c | c in companies :: c.businessid
  }

  /** The business ids of a sequence of company nodes. */
  function NodeIds(nodes: seq<CompanyNode>): set<string> {
    if nodes == [] then {} else NodeIds(nodes[..|nodes| - 1]) + {nodes[|nodes| - 1].businessid}
  }

  /** One step of `import_company_resultset`: `import_company` on one node, seen through what
      the result list keeps of it. Afterwards the node's business id is stored; the result
      is missing exactly when the id was already stored and `overwrite` is off; a returned
      company carries the node's name and addresses; every other company keeps its own. */
  method ImportNext(store: CompanyStore, node: CompanyNode, overwrite: bool) returns (r: Option<Company>)
    requires store.Valid()
    modifies store, (set c | c in store.companies)`name, (set c | c in store.companies)`email, (set c | c in store.companies)`phone
    modifies (set c | c in store.companies)`ytrCode, (set c | c in store.companies)`addresses
    ensures store.Valid()
    ensures forall c :: c in store.companies ==> c in old(store.companies) || fresh(c)
    ensures forall c :: c in old(store.companies) ==> c in store.companies
    ensures BusinessIds(store.companies) == BusinessIds(old(store.companies)) + {node.businessid}
    ensures r.None? <==> !overwrite && node.businessid in BusinessIds(old(store.companies))
    ensures r.Some? ==> r.value in store.companies && r.value.businessid == node.businessid
    ensures r.Some? ==> r.value.name == node.name && r.value.addresses == AddressesFor(node.addresses)
    ensures forall c :: c in old(store.companies) && (r.None? || c != r.value) ==>
              c.name == old(c.name) && c.addresses == old(c.addresses)
  {
    ghost var before := store.companies;
    ghost var found := FindCompany(before, node.businessid);
    r := ImportCompany(store, node, overwrite);
    if found.Some? {
      assert found.value in before;
    } else {
      assert store.companies == before + [r.value];
      assert node.businessid !in BusinessIds(before);
    }
  }

  /** One node more adds its id. */
  lemma {:induction false} NodeIdsSnoc(nodes: seq<CompanyNode>, i: nat)
    requires i < |nodes|
    ensures NodeIds(nodes[..i + 1]) == NodeIds(nodes[..i]) + {nodes[i].businessid}
  {
    assert nodes[..i + 1][..i] == nodes[..i];
  }

  /** Which nodes of a result set `import_company` skips: node `j` is skipped when its id was
      stored before its step (in `ids0`, or an earlier node's) and `overwrite` is off. */
  function Skipped(ids0: set<string>, nodes: seq<CompanyNode>, overwrite: bool): (r: seq<bool>)
    ensures |r| == |nodes|
  {
    if nodes == [] then []
    else
      var n := |nodes| - 1;
      Skipped(ids0, nodes[..n], overwrite) + [!overwrite && nodes[n].businessid in ids0 + NodeIds(nodes[..n])]
  }

  /** Node `j` is skipped exactly when its id is in `ids0` or belongs to an earlier node, and
      `overwrite` is off. */
  lemma {:induction false} SkippedAt(ids0: set<string>, nodes: seq<CompanyNode>, overwrite: bool, j: nat)
    requires j < |nodes|
    ensures Skipped(ids0, nodes, overwrite)[j] <==> !overwrite && nodes[j].businessid in ids0 + NodeIds(nodes[..j])
    decreases |nodes|
  {
    var n := |nodes| - 1;
    if j < n {
      SkippedAt(ids0, nodes[..n], overwrite, j);
      assert nodes[..n][..j] == nodes[..j];
    }
  }

  /** The skip pattern of one node more. */
  lemma {:induction false} SkippedSnoc(ids0: set<string>, nodes: seq<CompanyNode>, overwrite: bool, i: nat)
    requires i < |nodes|
    ensures Skipped(ids0, nodes[..i + 1], overwrite) ==
            Skipped(ids0, nodes[..i], overwrite) + [!overwrite && nodes[i].businessid in ids0 + NodeIds(nodes[..i])]
  {
    assert nodes[..i + 1][..i] == nodes[..i];
  }

  /** Which results are missing. */
  function Missing(out: seq<Option<Company>>): (r: seq<bool>)
    ensures |r| == |out| && forall j :: 0 <= j < |out| ==> r[j] == out[j].None?
  {
    seq(|out|, j requires 0 <= j < |out| => out[j].None?)
  }

  /** The missing results of one result more. */
  lemma {:induction false} MissingSnoc(out: seq<Option<Company>>, r: Option<Company>)
    ensures Missing(out + [r]) == Missing(out) + [r.None?]
  {
    assert forall j :: 0 <= j < |out| ==> (out + [r])[j] == out[j];
  }

  /** A company carries a node's name and addresses, as `import_company` leaves it. */
  predicate Filled(c: Company, node: CompanyNode)
    reads c
  {
    c.name == node.name && c.addresses == AddressesFor(node.addresses)
  }

  /** No node after node `j` has its business id, so nothing re-imports its company. */
  predicate LastImport(nodes: seq<CompanyNode>, j: nat)
    requires j < |nodes|
  {
    forall k :: j < k < |nodes| ==> nodes[k].businessid != nodes[j].businessid
  }

  /** Node `j` stays the last import of its id after node `i` exactly when node `i` has
      another id. */
  lemma {:induction false} LastImportSnoc(nodes: seq<CompanyNode>, i: nat, j: nat)
    requires j < i < |nodes|
    ensures LastImport(nodes[..i + 1], j) <==> LastImport(nodes[..i], j) && nodes[i].businessid != nodes[j].businessid
  {
  }

  /** The loop body of `import_company_resultset`: imports the next node and appends its
      result, keeping the stored ids and the skip pattern in step with the nodes done. */
  method ImportAppend(store: CompanyStore, nodes: seq<CompanyNode>, overwrite: bool, ghost ids0: set<string>, out: seq<Option<Company>>)
    returns (out': seq<Option<Company>>)
    requires store.Valid() && |out| < |nodes|
    requires BusinessIds(store.companies) == ids0 + NodeIds(nodes[..|out|])
    requires Missing(out) == Skipped(ids0, nodes[..|out|], overwrite)
    requires forall j :: 0 <= j < |out| && out[j].Some? ==> out[j].value in store.companies && out[j].value.businessid == nodes[j].businessid
    requires forall j :: 0 <= j < |out| && out[j].Some? && LastImport(nodes[..|out|], j) ==> Filled(out[j].value, nodes[j])
    modifies store, (set c | c in store.companies)`name, (set c | c in store.companies)`email, (set c | c in store.companies)`phone
    modifies (set c | c in store.companies)`ytrCode, (set c | c in store.companies)`addresses
    ensures store.Valid() && |out'| == |out| + 1
    ensures forall c :: c in store.companies ==> c in old(store.companies) || fresh(c)
    ensures BusinessIds(store.companies) == ids0 + NodeIds(nodes[..|out'|])
    ensures Missing(out') == Skipped(ids0, nodes[..|out'|], overwrite)
    ensures forall j :: 0 <= j < |out'| && out'[j].Some? ==> out'[j].value in store.companies && out'[j].value.businessid == nodes[j].businessid
    ensures forall j :: 0 <= j < |out'| && out'[j].Some? && LastImport(nodes[..|out'|], j) ==> Filled(out'[j].value, nodes[j])
  {
    var i := |out|;
    NodeIdsSnoc(nodes, i);
    SkippedSnoc(ids0, nodes, overwrite, i);
    var r := ImportNext(store, nodes[i], overwrite);
    MissingSnoc(out, r);
    out' := out + [r];
    forall j | 0 <= j < i + 1 && out'[j].Some?
      ensures out'[j].value in store.companies && out'[j].value.businessid == nodes[j].businessid
      ensures LastImport(nodes[..i + 1], j) ==> Filled(out'[j].value, nodes[j])
    {
      if j < i {
        assert out'[j] == out[j];
        if LastImport(nodes[..i + 1], j) {
          LastImportSnoc(nodes, i, j);
        }
      }
    }
  }

  /** `import_company_resultset`: one result per company node, in input order. Afterwards the
      store holds the ids it held plus every node's; a result is missing exactly when its id
      was stored before its step (already in the store, or an earlier node's) and
      `overwrite` is off; a returned company that no later node re-imports carries its node's
      name and addresses. */
  method ImportResultSet(store: CompanyStore, nodes: seq<CompanyNode>, overwrite: bool) returns (out: seq<Option<Company>>)
    requires store.Valid()
    modifies store, (set c | c in store.companies)`name, (set c | c in store.companies)`email, (set c | c in store.companies)`phone
    modifies (set c | c in store.companies)`ytrCode, (set c | c in store.companies)`addresses
    ensures store.Valid()
    ensures |out| == |nodes|
    ensures BusinessIds(store.companies) == BusinessIds(old(store.companies)) + NodeIds(nodes)
    ensures Missing(out) == Skipped(BusinessIds(old(store.companies)), nodes, overwrite)
    ensures forall i :: 0 <= i < |out| && out[i].Some? ==>
              out[i].value in store.companies && out[i].value.businessid == nodes[i].businessid
    ensures forall i :: 0 <= i < |out| && out[i].Some? && LastImport(nodes, i) ==> Filled(out[i].value, nodes[i])
  {
    ghost var ids0 := BusinessIds(store.companies);
    out := [];
    var i := 0;
    while i < |nodes|
      invariant 0 <= i <= |nodes| && |out| == i
      invariant store.Valid()
      invariant forall c :: c in store.companies ==> c in old(store.companies) || fresh(c)
      invariant BusinessIds(store.companies) == ids0 + NodeIds(nodes[..i])
      invariant Missing(out) == Skipped(ids0, nodes[..i], overwrite)
      invariant forall j :: 0 <= j < i && out[j].Some? ==> out[j].value in store.companies && out[j].value.businessid == nodes[j].businessid
      invariant forall j :: 0 <= j < i && out[j].Some? && LastImport(nodes[..i], j) ==> Filled(out[j].value, nodes[j])
    {
      out := ImportAppend(store, nodes, overwrite, ids0, out);
      i := i + 1;
    }
    assert nodes[..i] == nodes;
  }
}
